=== FILE: README.md ===
# Reviwa decision rules in Dafny

Reviwa is a community waste-reporting platform. It has an Express/Mongoose
server and a React client. Most of it is markup and request plumbing. This
project models the small deterministic rules underneath, as pure functions
over immutable records and proves their properties:

- **Gamification ledger** (`UserModel`): the `User` schema bounds, the points
  ledger `addGreenPoints`, the derived sustainability level, and the
  privacy-filtered leaderboard query.
- **Account rules**:
  - `AuthRoutes`: the express-validator chains.
  - `AuthController`: registration and login.
  - `UserController`: profile lookup and update, and the eco-points
    leaderboard.
  - `MakeAdmin`: the admin-promotion script.
- **Count reconciliation** (`ReportCounts`): the two maintenance scripts that
  recompute each account's `reportsCount`.
- **Mail helpers** (`Gmail`, `Encoding`):
  - the sender header;
  - the encoded-word subject of section 2 of RFC 2047;
  - the message layout;
  - the base64url rewrite of section 5 of RFC 4648.

  Base64 and UTF-8 are specified in `Encoding` together with their decoders,
  so round trips can be stated.
- **Client report intake**:
  - `CreateReport` and `ImageUpload`: image admission, compression threshold,
    the 1920-pixel resize, and the location and submission rules;
  - `ReportWizard`: the three-step wizard.
- **Client lifecycle views**:
  - `ReportsList` and `ClientReports`: filter, sort, next action and footer;
  - `ReportDetail`: who may edit, the offered status changes, the outcome of
    a status update;
  - `WasteMap`: marker colours and grid;
  - `Notifications`: achievement toasts and quick stats;
  - `RegisterForm`: the registration form;
  - `Landing`: the landing page's member strip.

Shared helpers:

| module | holds |
|---|---|
| `Seqs` | `Option`, filter and count |
| `Text` | trimming, case, splitting and joining, decimal rendering, UTF-16 length |
| `Ranking` | a stable insertion sort and "top N by key" |
| `Percent` | `Math.round` of a percentage, in exact rationals |
| `Files` | the selected-file record |

## How outside effects are modelled

- The database is a sequence or a map of records. A query is a function over it.
- These are parameters of the operations:
  - the clock (`Date.now`, month-ago and year-ago dates);
  - fresh ids;
  - password hashing and matching;
  - the e-mail validator and normaliser;
  - the image encoder;
  - preview URLs;
  - the HTTP calls (`register`, the report `post`, the status `PATCH`, the Gmail send, the leaderboard and stats fetches).
- A thrown exception or a failed request is a constructor of a result
  datatype.

## Status spellings

The files spell the third lifecycle status differently, and each module keeps
its own file's spelling:

- "in_progress": ReportsList.jsx and WasteMap.jsx;
- "in-progress": ReportDetail.jsx.

For example, `WasteMap.StatusColor` gives "in-progress" the gray fallback.

## Model

| member | source | states |
|---|---|---|
| UserModel.ParseRole | server/models/User.js:30-35 | a role string is accepted exactly when it names one of user, environmental_org, admin |
| UserModel.AddGreenPoints | server/models/User.js:214-236 | the save succeeds iff the new balance is non-negative (schema min 0); points rise by exactly the award; exactly the activity's counter rises by one (none for welcome_bonus or an unknown type); every other field is unchanged |
| UserModel.AddGreenPointsKeepsValid | server/models/User.js:39-43 | a successful award keeps a schema-valid record valid |
| UserModel.LevelMonotone | server/models/User.js:171-177 | the sustainability tier is monotone in the activity total |
| UserModel.LevelThresholds | server/models/User.js:171-177 | Eco Champion iff total ≥ 50, at least Green Advocate iff ≥ 20, at least Contributor iff ≥ 5 |
| UserModel.LevelIgnoresVerified | server/models/User.js:171-172 | the verified-reports counter never affects the level |
| UserModel.AddGreenPointsNeverLowersLevel | server/models/User.js:218-234 | an award raises the activity total by one exactly for the three counted activities and never lowers the level |
| UserModel.GetLeaderboard | server/models/User.js:240-260 | the board is drawn from the active, visible users created after the timeframe's cutoff, each at most as often as it occurs there; at most `limit` (default 10) entries; points non-increasing |
| UserModel.GetLeaderboardIsTop | server/models/User.js:257-260 | the board is as long as the limit allows and no eligible user left off it has more points than one on it |
| AuthRoutes.LookaheadFindsIff | server/routes/auth.js:29 | a `(?=.*[class])` lookahead succeeds iff a class character occurs before any line terminator |
| AuthRoutes.PasswordErrors | server/routes/auth.js:26-30 | no error iff at least 6 characters and the lookahead pattern matches; at most two errors |
| AuthRoutes.PasswordRule | server/routes/auth.js:26-30 | accepted iff length ≥ 6 and a lower-case letter, an upper-case letter and a digit each occur before the first line break |
| AuthRoutes.NameErrors | server/routes/auth.js:18-21 | no error iff the trimmed name has 2 to 50 code points |
| AuthRoutes.EmailErrors | server/routes/auth.js:22-25 | no error iff the validator library accepts the address |
| AuthRoutes.RoleErrors | server/routes/auth.js:31-34 | an absent role passes; a present one must be user or environmental_org |
| AuthRoutes.RegisterErrors | server/routes/auth.js:17-35 | registration validates iff name, e-mail, password and role each pass; "admin" yields the role error last |
| AuthRoutes.SanitizeRegister | server/routes/auth.js:18-24 | the controller sees the trimmed name and the normalised e-mail, other fields untouched |
| AuthRoutes.LoginErrors | server/routes/auth.js:37-45 | login validates iff the e-mail is valid and the password non-empty |
| AuthRoutes.ChainErrors | server/routes/auth.js:59-63 | no error iff every link of the chain passes; at most one error per link, all on the field |
| AuthRoutes.ResetPasswordErrors | server/routes/auth.js:58-64 | reset validates iff the password has six characters and meets the pattern; at most two errors |
| AuthRoutes.ResetMatchesRegister | server/routes/auth.js:26-30 | the reset chain, written separately, gives exactly the registration chain's errors, in order, for every password |
| AuthController.RequestedRole | server/controllers/auth.js:70-72 | never admin; environmental_org exactly when requested, otherwise user |
| AuthController.Welcome | server/controllers/auth.js:94-97 | a citizen gains exactly 10 points, an organisation none; counters and profile unchanged |
| AuthController.WelcomeKeepsProfile | server/controllers/auth.js:94-97 | the bonus keeps e-mail, name, bio, location, role, activity, last login and credential |
| AuthController.Create | server/controllers/auth.js:91-116 | 201 and the record stored under its key iff the schema accepts it, otherwise 500 and no change |
| AuthController.Register | server/controllers/auth.js:46-117 | validation failure or a taken (lower-cased) address answers 400 with no change; a valid request for a free address answers 201 iff the schema accepts the new record, else 500; only 201 changes the collection, adding exactly the new record under a fresh key |
| AuthController.RegisteredProfile | server/controllers/auth.js:74-89 | the stored e-mail is lower-cased, the name trimmed, the bio trimmed if given; a location is stored iff city or state is non-empty; the role as requested or user |
| AuthController.RegisteredStanding | server/controllers/auth.js:94-97 | a new citizen has 10 points, an organisation 0; all counters 0, level Green Newcomer |
| AuthController.RegisterKeepsKeyed | server/controllers/auth.js:60-92 | every record stays stored under its own address |
| AuthController.Login | server/controllers/auth.js:122-199 | status is 200, 400 or 401: 400 for invalid fields or an empty address or password, 401 for an unknown address, 401 for an inactive account before the password is checked, 401 for a wrong password, and 200 exactly otherwise; only success changes anything, and only `last_login` |
| AuthController.RegisterThenLogin | server/controllers/auth.js:122-189 | a fresh registration can log in with the same address and password |
| Accounts.FindFirst | server/controllers/user.controller.js:10 | the first account satisfying the query, or none when no account does |
| Accounts.FindById | server/controllers/user.controller.js:10-17 | an index holding that id, or none when no account has it |
| UserController.GetUserProfile | server/controllers/user.controller.js:8-26 | 500 iff the id is malformed; 404 iff it is well formed and unknown; a well-formed known id answers 200 with an account holding that id |
| UserController.UpdateUserProfile | server/controllers/user.controller.js:33-59 | 403 and no change exactly when the caller neither owns the profile nor is admin; for an allowed caller 500 and no change exactly when the id is malformed or the update validators reject the body, whether or not the id exists; otherwise an unknown id answers 200 with no user and no change, and a found account answers 200 and becomes exactly the account with the body applied; only its name and avatar change |
| UserController.UpdateSetsGivenFields | server/controllers/user.controller.js:43-49 | the returned account carries the given name and avatar, keeps absent ones, and differs from the old one in nothing else |
| UserController.LeadingDigits | server/controllers/user.controller.js:68 | the longest prefix of digits of the radix |
| UserController.ParseIntReadsDecimal | server/controllers/user.controller.js:68 | `parseInt` reads back the decimal rendering of every natural number |
| UserController.ParseIntHex | server/controllers/user.controller.js:68 | for any white space, sign and run of hexadecimal digits after `0x` or `0X`, ending before a character that is not a hexadecimal digit: the signed base-16 value of the run |
| UserController.ParseIntNaN | server/controllers/user.controller.js:68 | white space and a sign followed by no digit (and no further sign or space) give NaN |
| UserController.ParseIntStopsAtGarbage | server/controllers/user.controller.js:68 | for any white space, sign and run of decimal digits ending before a non-digit: the signed decimal value of the run, except a lone `0` followed by `x` or `X` |
| UserController.LimitParam | server/controllers/user.controller.js:68 | the parsed limit, or 10 when absent, not numeric or zero; never 0 |
| UserController.LimitParamNaN | server/controllers/user.controller.js:68 | a limit with no digits ("abc") gives the default 10 |
| UserController.LimitParamZero | server/controllers/user.controller.js:68 | a limit of "0" gives the default 10, since zero is falsy |
| UserController.LimitParamDecimal | server/controllers/user.controller.js:68 | a positive decimal limit is taken as written |
| UserController.TopByEcoPoints | server/controllers/user.controller.js:70-73 | a sub-multiset of all accounts, as long as the limit allows, eco points non-increasing, no omitted account outranks a listed one |
| UserController.DefaultLeaderboard | server/controllers/user.controller.js:66-73 | without a limit the board holds min(10, accounts) entries |
| MakeAdmin.FindByEmail | server/scripts/makeAdmin.js:32-33 | an account whose e-mail equals the lower-cased argument, or none when none does |
| MakeAdmin.MakeAdmin | server/scripts/makeAdmin.js:11-57 | no argument: list and change nothing; exit 1 exactly for an unknown address or a promotion the save's validation rejects, and then no change; otherwise only the found account may change, and only its role to admin |
| MakeAdmin.FindFirstIgnoresRoles | server/scripts/makeAdmin.js:33 | changing roles never moves an e-mail lookup |
| MakeAdmin.MakeAdminIdempotent | server/scripts/makeAdmin.js:40-43 | a second run with the same argument changes nothing |
| MakeAdmin.MakeAdminPromotes | server/scripts/makeAdmin.js:40-56 | for a known address the run succeeds iff the account already is admin or its promotion passes validation; after success it is admin, after failure nothing changed |
| ReportCounts.Reconciled | server/scripts/recalculateReportCounts.js:24-36 | same accounts in the same order, each holding its actual count |
| ReportCounts.GroupCounts | server/scripts/backfillReportsCount.js:25-33 | the grouped map has a key exactly for each referenced reporter, holding that reporter's report count; missing keys have count 0 |
| ReportCounts.Backfill | server/scripts/backfillReportsCount.js:24-47 | grouping then rewriting: the collection ends reconciled and `updated` equals the number of stale accounts |
| ReportCounts.RewriteStale | server/scripts/backfillReportsCount.js:39-47 | given a map that holds every account's actual count (`get(id) \|\| 0`), the loop rewrites exactly the stale accounts and counts them |
| ReportCounts.Recalculate | server/scripts/recalculateReportCounts.js:17-39 | the collection ends reconciled; updated counts the mismatches and updated + unchanged is the number of users |
| ReportCounts.ActualCountIsMultiplicity | server/scripts/recalculateReportCounts.js:26 | a user's count is the multiplicity of their id among the reports' reporters |
| ReportCounts.ReconciledCounts | server/scripts/backfillReportsCount.js:36-47 | only `reportsCount` changes, and it becomes the number of the user's reports |
| ReportCounts.ReconcileIdempotent | server/scripts/backfillReportsCount.js:42 | a second run finds no mismatch and changes nothing |
| ReportCounts.UnattributedReportsIgnored | server/scripts/backfillReportsCount.js:31-33 | a report without a reporter counts toward nobody |
| ReportCounts.TopReporters | server/scripts/recalculateReportCounts.js:47-50 | min(10, users) accounts, report counts non-increasing, no omitted account outranks a listed one |
| Gmail.RawSender | server/config/gmail.js:12 | EMAIL_FROM when set and non-empty, otherwise EMAIL_USER (`||` reads "" as unset) |
| Gmail.EmailAddress | server/config/gmail.js:14-15 | the contents of the first `<…>` if any, else the trimmed raw value, else "" |
| Gmail.FromHeader | server/config/gmail.js:17 | `"Reviwa" <` + address + `>` |
| Gmail.AddressOfHeader | server/config/gmail.js:14-17 | extracting from a built header gives back the address |
| Gmail.EmailFromStable | server/config/gmail.js:12-17 | feeding the built sender back as EMAIL_FROM rebuilds the same header |
| Gmail.BareAddressTrimmed | server/config/gmail.js:15-17 | a bare address is used trimmed |
| Gmail.EncodedWord | server/config/gmail.js:39 | `=?utf-8?B?` + base64 of the UTF-8 bytes + `?=` |
| Gmail.EncodedWordRoundTrip | server/config/gmail.js:39 | decoding the encoded word gives back the subject |
| Gmail.EncodedWordOneLine | server/config/gmail.js:39-43 | the encoded subject never breaks the header line |
| Gmail.HeaderLines | server/config/gmail.js:40-46 | six header lines, the last one empty |
| Gmail.MessageLines | server/config/gmail.js:40-49 | split at line breaks, the message gives back the From, To, Subject, Content-Type and MIME-Version lines, the blank line, then the html's own lines |
| Gmail.UrlSafe | server/config/gmail.js:52-56 | no '+' or '/', no trailing '=', never longer than the input |
| Gmail.UrlSafeRoundTrip | server/config/gmail.js:52-56 | restoring the alphabet and padding gives back the base64 text |
| Gmail.RawRoundTrip | server/config/gmail.js:52-56 | the raw body decodes back to the message |
| Gmail.SendGmail | server/config/gmail.js:31-70 | sent iff delivery of the raw message succeeds, with the id delivery returned |
| Encoding.Utf8RoundTrip | server/config/gmail.js:39 | `Buffer.from(s)` bytes decode back to s |
| Encoding.Base64 | server/config/gmail.js:52-53 | the base64 text has length 4⌈n/3⌉ |
| Encoding.Base64RoundTrip | server/config/gmail.js:52-53 | base64 decoding inverts base64 encoding |
| Files.RemoveAt | client/src/pages/CreateReport.jsx:196-202 | removes exactly position `index`; an index outside changes nothing |
| CreateReport.FitWithin | client/src/pages/CreateReport.jsx:68-78 | both sides ≤ 1920, ratio preserved, unchanged within bounds, otherwise the longer side (height on a tie) becomes 1920 |
| CreateReport.Colliding | client/src/pages/CreateReport.jsx:116-120 | empty iff no selected name is already taken |
| CreateReport.FirstWithName | client/src/pages/CreateReport.jsx:133 | the first position carrying the name, or the length |
| CreateReport.UniqueFiles | client/src/pages/CreateReport.jsx:131-134 | each kept file is the first of its name, order preserved, and every name selected is kept |
| CreateReport.Process | client/src/pages/CreateReport.jsx:165-173 | files over 2 MiB become the encoder's JPEG, the others pass through unchanged |
| CreateReport.ProcessAll | client/src/pages/CreateReport.jsx:156-179 | one processed file per selected file, names kept |
| CreateReport.HandleImageChange | client/src/pages/CreateReport.jsx:107-194 | over five in total: "Maximum 5 images allowed", no change; a taken name: duplicate message, no change; otherwise images grow by the processed first-of-name files and the removal notice appears iff duplicates were dropped |
| CreateReport.HandleImageChangeValid | client/src/pages/CreateReport.jsx:181-182 | images and previews keep equal length, at most five images, and no two with one name |
| CreateReport.CapBeforeDeduplication | client/src/pages/CreateReport.jsx:110-113 | the cap counts the raw selection: three copies next to three images are refused |
| CreateReport.RemoveImage | client/src/pages/CreateReport.jsx:196-202 | removes the same position from images and previews |
| CreateReport.RemoveImageValid | client/src/pages/CreateReport.jsx:196-202 | removal keeps images and previews aligned |
| CreateReport.Locate | client/src/pages/CreateReport.jsx:39-47 | coordinates become [longitude, latitude], nothing else changes |
| CreateReport.Fields | client/src/pages/CreateReport.jsx:226-249 | the fields in append order: longitude at coordinates[0], latitude at [1], the address only when non-empty, then one field per image |
| CreateReport.HandleSubmit | client/src/pages/CreateReport.jsx:204-290 | coordinates (0,0) refuse with "Please get your current location first"; otherwise navigation iff the post succeeds, to the created report |
| CreateReport.UnlocatedSendsNothing | client/src/pages/CreateReport.jsx:212-219 | without a location the outcome does not depend on the server |
| CreateReport.LocatedSubmissionOrder | client/src/pages/CreateReport.jsx:233-241 | the posted coordinates are longitude then latitude |
| CreateReport.InitialFormRefused | client/src/__tests__/CreateReport.test.jsx:16-23 | the untouched form is refused with the location message |
| ImageUpload.FitUpload | client/src/components/ImageUpload.jsx:57-67 | both sides ≤ 1920 with the ratio kept, unchanged within bounds, and the same size the report page computes |
| ImageUpload.ValidateFile | client/src/components/ImageUpload.jsx:35-48 | no error iff an image of at most maxSizeMB MiB; the type error first, then the size error |
| ImageUpload.Record | client/src/components/ImageUpload.jsx:103-126 | name, type and id kept; originalSize is the input size; size is compressed above 2 MiB |
| ImageUpload.Records | client/src/components/ImageUpload.jsx:115-128 | one record per admitted file, the k-th with the k-th id |
| ImageUpload.Alerts | client/src/components/ImageUpload.jsx:89-94 | one alert per rejected file |
| ImageUpload.Admit | client/src/components/ImageUpload.jsx:89-149 | the records of exactly the valid files, in order, and the alerts of exactly the invalid ones |
| ImageUpload.HandleFiles | client/src/components/ImageUpload.jsx:81-150 | the file input's path, on the images held now: non-images dropped; too many images: one alert, no change; otherwise the valid files appended as records and invalid ones alerted; a list within the cap stays within it |
| ImageUpload.DropAsWritten | client/src/components/ImageUpload.jsx:26-33 | a drop as written: the cap is checked against the images held at mount, the records are appended to the images held now, which are always kept as a prefix |
| ImageUpload.DropCanExceedCap | client/src/components/ImageUpload.jsx:26-33 | a drop that fits the mount-time count is stored in full even when that passes the cap |
| ImageUpload.DropExceedsCapExample | client/src/components/ImageUpload.jsx:26-33 | empty at mount, five picked since, one dropped: six held under a cap of five |
| ImageUpload.DropRefusedWithRoomExample | client/src/components/ImageUpload.jsx:26-33 | five at mount, all removed since, two dropped: refused with nothing held |
| ImageUpload.HandleDrop | client/src/components/ImageUpload.jsx:26-33 | the corrected drop: refused exactly when the images held now plus the dropped images pass the cap, the cap is kept, and it is the as-written drop when nothing changed since mount |
| ImageUpload.RemoveImage | client/src/components/ImageUpload.jsx:152-160 | every image with the id goes, the others stay with their multiplicities; that progress entry is cleared, the others kept |
| ImageUpload.RemoveImageKeepsOrder | client/src/components/ImageUpload.jsx:153 | the kept images keep their order: removal distributes over concatenation, one image at a time |
| Percent.RoundPercent | client/src/components/ReportsList.jsx:267-271 | the nearest integer to 100·part/whole, halves up, and within [0,100] when part ≤ whole |
| Percent.RoundPercentEnds | client/src/components/NotificationCenter.jsx:208-211 | none resolved gives 0, all resolved gives 100 |
| ClientReports.FilterByStatus | client/src/components/ReportsList.jsx:9 | "all" is the identity; otherwise exactly the reports with that status, each as often as before |
| ClientReports.FilterByStatusKeepsOrder | client/src/components/WasteMap.jsx:39-42 | the filter distributes over concatenation, so order is kept |
| ClientReports.CountStatus | client/src/components/ReportsList.jsx:252-263 | the number of reports with the status equals the length of the filtered list |
| ClientReports.CountIsFilter | client/src/components/ReportsList.jsx:253 | counting by status and filtering by status agree |
| ClientReports.Lookup | client/src/components/WasteMap.jsx:72 | a table's own non-empty glyph for its keys, the inherited member exactly for an `Object.prototype` name, and the bin for anything else (an empty glyph being falsy) |
| ClientReports.CategoryIcon | client/src/components/WasteMap.jsx:61-73 | the eight known categories get their glyph, `Object.prototype` names the inherited member, and exactly the rest the bin |
| ReportsList.ListIcon | client/src/components/ReportsList.jsx:52-64 | the list's own table: the bin exactly for names neither in it nor inherited |
| ReportsList.ListIconMatchesMap | client/src/components/ReportsList.jsx:52-64 | the list and the map, with separately written tables, show the same icon for every category |
| ReportsList.LexLeTotal | client/src/components/ReportsList.jsx:18 | the status order compares every pair |
| ReportsList.LexLeTransitive | client/src/components/ReportsList.jsx:18 | the status order is transitive |
| ReportsList.LexLeAntisymmetric | client/src/components/ReportsList.jsx:18 | the status order is antisymmetric |
| ReportsList.ByStatusIsTotalPreorder | client/src/components/ReportsList.jsx:17-18 | the status comparator is a total preorder |
| ReportsList.SeverityRank | client/src/components/ReportsList.jsx:15-16 | high, medium and low rank above any other severity |
| ReportsList.NewestFirst | client/src/components/ReportsList.jsx:12-13 | a permutation with `created_at` non-increasing |
| Ranking.SortByStable | client/src/components/ReportsList.jsx:10-22 | under any total preorder, the elements that tie with a given one come out of the sort in the order they went in |
| ReportsList.NewestFirstStable | client/src/components/ReportsList.jsx:10-13 | reports created at the same moment come out in their filtered order, as the stable `Array.prototype.sort` keeps them |
| ReportsList.MostSevereFirstStable | client/src/components/ReportsList.jsx:10-16 | reports of the same severity rank keep their filtered order |
| ReportsList.StatusAscendingStable | client/src/components/ReportsList.jsx:10-18 | reports whose statuses compare equal keep their filtered order |
| ReportsList.MostSevereFirst | client/src/components/ReportsList.jsx:14-16 | a permutation with severity rank non-increasing |
| ReportsList.StatusAscending | client/src/components/ReportsList.jsx:17-18 | a permutation with status ascending |
| ReportsList.Displayed | client/src/components/ReportsList.jsx:8-22 | a permutation of the filtered reports, ordered by the chosen key; an unknown key keeps the filtered order |
| ReportsList.SeverityBands | client/src/components/ReportsList.jsx:14-16 | every high report comes before every medium or low one |
| ReportsList.NextAction | client/src/components/ReportsList.jsx:206-237 | an action iff pending, verified or in_progress, and it is always the next stage |
| ReportsList.NextActionNeverRegresses | client/src/components/ReportsList.jsx:206-237 | no action only at resolved; an action always moves forward |
| ReportsList.SummaryFooter | client/src/components/ReportsList.jsx:248-273 | shown iff the filtered list is non-empty; the three status counts over all reports; the rate is resolved/total as a percentage rounded to nearest, in [0,100] |
| ReportsList.ThreeStatusesFit | client/src/components/ReportsList.jsx:252-263 | the three footer counts together never exceed the number of reports |
| ReportsList.FooterIgnoresFilter | client/src/components/ReportsList.jsx:252-263 | the filter decides only whether the footer shows |
| ReportsList.EmptyState | client/src/components/ReportsList.jsx:117-139 | a message iff nothing is displayed, naming the filter when it is not "all" |
| ReportDetail.CanEditAsWritten | client/src/pages/ReportDetail.jsx:111-113 | as written: the owner-or-admin rule, or no id on either side |
| ReportDetail.AnonymousVisitorCanEdit | client/src/pages/ReportDetail.jsx:111-113 | as written, a signed-out visitor may edit a report without a reporter |
| ReportDetail.CanEdit | client/src/pages/ReportDetail.jsx:111-113 | corrected: edit iff a known id equals the reporter's or the role is admin; nobody signed in cannot edit |
| ReportDetail.CanEditAgreesWhenIdKnown | client/src/pages/ReportDetail.jsx:111-113 | the written and corrected rules agree whenever either id is known |
| ReportDetail.OfferedActions | client/src/pages/ReportDetail.jsx:228-263 | nothing without the edit right; otherwise delete, and the targets verified, in-progress, resolved minus the current status |
| ReportDetail.ResolvedCanGoBack | client/src/pages/ReportDetail.jsx:233-237 | an editor may move a resolved report back to verified |
| ReportDetail.HandleStatusUpdate | client/src/pages/ReportDetail.jsx:39-60 | signed out: no change; success: the new report and no error; failure: the old report and the server's message or the default |
| WasteMap.StatusColor | client/src/components/WasteMap.jsx:45-58 | not gray iff one of the four known statuses; "in-progress" is gray |
| WasteMap.MarkerPosition | client/src/components/WasteMap.jsx:216-217 | on the 6-column grid, and the index can be read back from the position |
| WasteMap.MarkerPositionInjective | client/src/components/WasteMap.jsx:216-217 | distinct markers never share a position |
| WasteMap.Markers | client/src/components/WasteMap.jsx:214-240 | the i-th marker is the i-th filtered report, at grid position i and in its status colour |
| WasteMap.ShowsEmptyState | client/src/components/WasteMap.jsx:339 | the empty message iff no marker, iff no report matches the filter |
| Notifications.FindAchievement | client/src/components/NotificationCenter.jsx:120-167 | found iff the id is one of the five catalogue ids |
| Notifications.ShowAchievement | client/src/components/NotificationCenter.jsx:166-174 | an unknown or already shown id changes nothing; otherwise exactly one toast appended |
| Notifications.ShowAchievementIdempotent | client/src/components/NotificationCenter.jsx:168 | raising twice is raising once |
| Notifications.RemoveNotification | client/src/components/NotificationCenter.jsx:176-178 | every toast with the id goes, the others stay with their multiplicities |
| Notifications.RemoveNotificationKeepsOrder | client/src/components/NotificationCenter.jsx:177 | the kept toasts keep their order: removal distributes over concatenation, one toast at a time |
| Notifications.RemoveUndoesShow | client/src/components/NotificationCenter.jsx:166-178 | closing a toast just raised restores the list |
| Notifications.OrZero | client/src/components/NotificationCenter.jsx:204-205 | a missing number reads 0 |
| Notifications.ProgressWidth | client/src/components/NotificationCenter.jsx:268 | min(submitted/5·100, 100) |
| Notifications.QuickStats | client/src/components/NotificationCenter.jsx:198-211 | counts only the user's reports; resolved ≤ submitted; rate 0 with nothing submitted, else the rounded percentage in [0,100] |
| RegisterForm.ToggleInterest | client/src/components/Register.jsx:36-44 | checking appends; unchecking removes every copy and keeps the others' multiplicities |
| RegisterForm.UncheckUndoesCheck | client/src/components/Register.jsx:36-44 | unchecking a box just checked restores the list |
| RegisterForm.ServerReads | server/controllers/auth.js:58 | the server reads name, e-mail, password, role and top-level city and state only |
| RegisterForm.PayloadAsWritten | client/src/components/Register.jsx:75-85 | as written, city and state are nested under location |
| RegisterForm.PayloadAsWrittenLosesLocation | client/src/components/Register.jsx:75-85 | as written, no location is ever stored |
| RegisterForm.SubmitPayload | client/src/components/Register.jsx:75-85 | corrected: city and state at the top level, password and interests carried, no confirmation |
| RegisterForm.SubmitPayloadKeepsLocation | server/controllers/auth.js:84-89 | with the corrected body a location is stored iff a city or state was typed |
| RegisterForm.Validate | client/src/components/Register.jsx:62-72 | the mismatch is reported first, then a password under 6 units; passes iff neither |
| RegisterForm.HandleSubmit | client/src/components/Register.jsx:56-96 | as written: a failed check shows its message; otherwise the nested-location body goes to `register`, dashboard iff it succeeds, else its error |
| RegisterForm.HandleSubmitCorrected | client/src/components/Register.jsx:56-96 | corrected: the same steps with city and state at the top level of the body |
| RegisterForm.CorrectionChangesOnlyBody | client/src/components/Register.jsx:75-87 | the correction changes nothing but the body: a `register` that answers both bodies alike gives the same outcome |
| RegisterForm.InvalidFormSendsNothing | client/src/components/Register.jsx:62-87 | a failing form never depends on `register` |
| RegisterForm.MismatchReportedFirst | client/src/components/Register.jsx:62-66 | a mismatched short password reports the mismatch |
| ReportWizard.Apply | client/src/components/ReportWaste.jsx:111-139 | the step stays in 1..3 and moves only 1↔2↔3; 1→2 needs a title and a category; picking a category or severity changes only it; a detected position is stored [lng, lat] on whatever step it arrives, changing only the location |
| ReportWizard.DetectedWhileAwayEnablesSubmit | client/src/components/ReportWaste.jsx:119-127 | a position detected after stepping back to the photos is still there on step 3 and enables submit |
| ReportWizard.Run | client/src/components/ReportWaste.jsx:24 | any sequence of events keeps the step in 1..3 |
| ReportWizard.ReachingLocationNeedsBasics | client/src/components/ReportWaste.jsx:371-372 | without a title and a category the wizard never leaves step 1 |
| ReportWizard.SubmitDisabled | client/src/components/ReportWaste.jsx:571-575 | enabled iff not submitting and an address or coordinates are present |
| ReportWizard.Submit | client/src/components/ReportWaste.jsx:569-576 | the submit button of step 3 submits iff it is enabled, then alerts and opens the dashboard |
| ReportWizard.PressEnterAsWritten | client/src/components/ReportWaste.jsx:149-168 | Enter on step 1 submits iff the required title is non-empty; on step 2 nothing; on step 3 it is the submit button |
| ReportWizard.EnterOnBasicsSubmitsUnlocated | client/src/components/ReportWaste.jsx:255-267 | with only a title typed, Enter submits a report with no category and no location, the submit button being disabled |
| ReportWizard.PressEnter | client/src/components/ReportWaste.jsx:149-168 | the corrected handler: anything submitted is on step 3 with a location and not submitting; it agrees with the as-written one off step 1 |
| ReportWizard.NoSubmitWithoutBasics | client/src/components/ReportWaste.jsx:371-372 | without a title and a category nothing is ever submitted, by the button or by Enter, as written or corrected |
| ReportWizard.DetectedLocationEnablesSubmit | client/src/components/ReportWaste.jsx:119-139 | detected coordinates enable submit even after the address is cleared |
| ReportWizard.LitDots | client/src/components/ReportWaste.jsx:216-224 | dot n is lit iff step ≥ n |
| Landing.Firsts | client/src/pages/LandingPage.jsx:28 | the upper-cased first character of each part |
| Landing.Initials | client/src/pages/LandingPage.jsx:26-29 | defined iff no space-separated part is empty, then one upper-cased first letter per part |
| Landing.InitialsOfWords | client/src/pages/LandingPage.jsx:26-29 | words joined by single spaces give one initial per word |
| Landing.AllInitials | client/src/pages/LandingPage.jsx:26-31 | all initials iff every name has them, position by position |
| Landing.FetchMembers | client/src/pages/LandingPage.jsx:20-42 | any failure gives S,M,A,J,K and 12000; otherwise the initials and the stated total, or the number of users when it is missing or 0 |
| Landing.Avatars | client/src/pages/LandingPage.jsx:109 | the first min(5, n) initials |
| Landing.CountLabel | client/src/pages/LandingPage.jsx:132-134 | above 1000 ends in K, otherwise the number itself |
| Landing.CountLabelThousands | client/src/pages/LandingPage.jsx:132-134 | above 1000 the digits are ⌊n/1000⌋ |
| Landing.CountLabelSmall | client/src/pages/LandingPage.jsx:132-134 | up to 1000, exactly 1000 included, the number reads back in full |

## Left out

- The stub routes for reports, users and events. They only answer placeholder JSON, so there is no server-side status transition to model.
- Bootstrap, CORS, database connection and environment plumbing: the database is a sequence or map.
- Bcrypt hashing, JWT signing, cookies, and the forgot/reset-token flow: password matching is a parameter (`hash`, `matches`).
- The pre-save re-hash hook in server/models/User.js:182-184. It is library behaviour on an abstract credential.
- The OAuth2 client and the Gmail HTTP call: delivery is a parameter of `Gmail.SendGmail`.
- Email templates, the email service and routes, the seeding and debug scripts.
- The second user model, server/models/User.model.js, is not part of this model. `Accounts.Account` keeps only the fields the controller and scripts read or write.
- `isEmail`, `normalizeEmail` and the schema's e-mail pattern are parameters: the validator library is outside the code.
- Floating point:
  - the resize and percentage arithmetic is exact real arithmetic;
  - canvas pixel truncation, `toFixed` coordinate captions, `formatFileSize`, the haversine `formatDistance` and relative dates are left out;
  - a NaN date or severity in a sort comparator is left out.
- Strings are sequences of Unicode scalar values, so they are taken to be well-formed: a lone surrogate, which `Buffer.from(s, "utf-8")` would turn into U+FFFD, cannot occur in the model.
- AuthRoutes.NameErrors: `isLength` is modelled as a count of code points; validator.js 13 also leaves out the presentation selectors U+FE0E and U+FE0F, and the pinned version of the library is not part of this model.
- MakeAdmin.MakeAdmin: a failed connection or lookup also lands in the `catch` and exits 1; those database faults are left out, only the rejected save is modelled.
- Browser APIs and timing:
  - geolocation, FileReader and object URLs are parameters;
  - the progress and toast timers, the 2-second simulated wizard submission and its `isSubmitting` toggling are left out; the final state is modelled;
  - `window.triggerAchievement` is left out.
- Pure presentation: Navbar, Dashboard, Login, Profile, the marketing landing component, and the SVG and animation markup.
- ImageUpload.HandleFiles: the per-file catch (`Failed to process`) for a compressor that fails is not modelled. Ids come from a parameter `newId` indexed by admitted position; the source uses `Date.now() + Math.random()`. A fractional `maxSizeMB` is not modelled. Records are appended in selection order; the source appends each in its `FileReader` completion order, which is not guaranteed to be the same.
- ImageUpload.DropAsWritten: the `maxImages` and `maxSizeMB` props are taken to be the same as at mount; a drop handler memoised at mount would also read their mount-time values.
- ReportsList.StatusAscending: `localeCompare` is modelled as lexicographic code-point order; locale collation is not.
- ReportsList.SeverityRank: a severity outside high, medium and low gives NaN in the source comparator; the model ranks it 0.
- Percent.RoundPercent: JavaScript computes `Math.round` on a double quotient; the model rounds the exact rational, and a quotient that the double rounds across a half is not modelled.
- Notifications.ShowAchievement: the source reads the `notifications` of the rendering closure, so two calls inside one render can both append; the model reads the current list.
- ReportDetail.OfferedActions: the buttons are also disabled while an update is in flight; loading state is not modelled. The delete request and its navigation are left out.
- ReportWizard.Apply: Enter is not an event of `Apply` but the separate `PressEnterAsWritten`; the address caption is taken as given rather than built with `toFixed(4)` from the coordinates. The detection status and the missing-geolocation error are not modelled.
- Text.ToLower: `toLowerCase` is modelled per UTF-16 unit for ASCII letters only. Full Unicode case mapping (for example İ becoming i̇, which changes the length) is not modelled.
- AuthController.Register: the address key is lower-cased by `Text.ToLower`, so two addresses that differ only in a non-ASCII letter's case get different keys here and the same key in the source.
- AuthController.Login: the lookup key is lower-cased by `Text.ToLower`, ASCII only, as for `Register`.
- MakeAdmin.FindByEmail: the argument is lower-cased by `Text.ToLower`, ASCII only, as for `Register`.
- UserController.GetUserProfile: an error passed to `next` is taken to answer 500; the error middleware that decides this is not part of this model.
- Landing.Initials: `toUpperCase` is modelled per UTF-16 unit for ASCII letters only; full Unicode case mapping (for example ß becoming SS) is not. `n[0]` is one UTF-16 unit, so a part starting outside the Basic Multilingual Plane shows half a surrogate pair in the source.
- Landing.Firsts: takes the first code point of each part, where the source's `n[0]` takes the first UTF-16 unit; the two differ only for a part starting with a character outside the Basic Multilingual Plane (an emoji, say), whose lone high surrogate Dafny's `char` cannot hold.
- Landing.FetchMembers: a non-integer `totalUsers` is not modelled. The stats route is a stub in this repository, so in practice the fallback is what the page shows.
- UserController.ParseInt: the parser itself only promises that a result needs non-empty input. Its meaning is stated by lemmas over all inputs of three shapes: hexadecimal (`ParseIntHex`), decimal up to the first non-digit (`ParseIntStopsAtGarbage`, `ParseIntReadsDecimal`) and no digit at all (`ParseIntNaN`). `LimitParamNaN` and `LimitParamZero` are single examples. `parseInt` returns a double, so a digit run above 2^53 loses precision and a very long one gives Infinity; the model's integers stay exact.
- Dangling `sustainability_interests` on the registration body: the server ignores it, and the model carries it without storing it.

## Findings

| source | as written | input that shows it | evidently intended | confidence | as-written member | corrected member |
|---|---|---|---|---|---|---|
| client/src/pages/ReportDetail.jsx:111-113 | `isOwner` is `user?.id === report.reportedBy?._id`, true when both sides are `undefined` | a signed-out visitor (`user` null) viewing a report whose `reportedBy` is not populated: `canEdit` holds and the delete and status buttons are offered | only a signed-in owner (a known id equal to the reporter's) or an admin may edit | not executed | ReportDetail.CanEditAsWritten (ReportDetail.AnonymousVisitorCanEdit) | ReportDetail.CanEdit (ReportDetail.CanEditAgreesWhenIdKnown) |
| client/src/components/Register.jsx:75-85 | the body nests `city` and `state` under `location`, but `register` in server/controllers/auth.js:58 reads top-level `city` and `state` | any form with a city typed, e.g. city "Lagos": the stored user has no location | a location is stored when a city or state is typed | not executed | RegisterForm.PayloadAsWritten, RegisterForm.HandleSubmit (RegisterForm.PayloadAsWrittenLosesLocation) | RegisterForm.SubmitPayload, RegisterForm.HandleSubmitCorrected (RegisterForm.SubmitPayloadKeepsLocation) |
| client/src/components/ImageUpload.jsx:26-33 | `handleDrop` is a `useCallback` with no dependencies, so a drop runs the mount-time `handleFiles`: its cap check (line 84) reads the images held at mount, while the store (line 128) appends to the current list | mount with no images, pick five through the file input, then drop one image: six are held under `maxImages` 5; or mount with five, remove them all, drop two: refused | the drop checks the cap against the images held now, like the file input | not executed | ImageUpload.DropAsWritten (ImageUpload.DropCanExceedCap, ImageUpload.DropExceedsCapExample, ImageUpload.DropRefusedWithRoomExample) | ImageUpload.HandleDrop |
| client/src/components/ReportWaste.jsx:149-168 | `handleSubmit` has no step guard, and step 1 renders the form's one single-line text field (the `required` title, lines 255-267) and no submit button, so Enter there submits the form implicitly | type a title on step 1 and press Enter: the success alert shows and the dashboard opens, with no category and no location, though the submit button of step 3 would be disabled | a report is submitted only from step 3 with a location, as the disabled submit button intends | not executed | ReportWizard.PressEnterAsWritten (ReportWizard.EnterOnBasicsSubmitsUnlocated) | ReportWizard.PressEnter |

=== FILE: accounts.dfy ===
/** The account record of the second user model (server/models/User.model.js,
    which is not part of this model) as the user controller and the
    maintenance scripts read it, and the collection lookups they use. */
module Accounts {
  import opened Seqs

  /** An account: the fields the controller and scripts read or write. The
      role is kept as the stored string. */
  datatype Account = Account(
    id: string, name: string, email: string, role: string,
    avatar: Option<string>, ecoPoints: int, reportsCount: int)

  /** `findById` / `findOne`: the position of the first account satisfying
      `p`, in the collection's natural order. */
  function FindFirst(accounts: seq<Account>, p: Account -> bool): (r: Option<nat>)
    ensures r.Some? ==> r.value < |accounts| && p(accounts[r.value])
    ensures r.Some? ==> forall j :: 0 <= j < r.value ==> !p(accounts[j])
    ensures r.None? ==> forall j :: 0 <= j < |accounts| ==> !p(accounts[j])
  {
    if |accounts| == 0 then None
    else if p(accounts[0]) then Some(0)
    else
      match FindFirst(accounts[1..], p)
      case None => None
      case Some(k) => Some(k + 1)
  }

  function FindById(accounts: seq<Account>, id: string): (r: Option<nat>)
    ensures r.Some? ==> r.value < |accounts| && accounts[r.value].id == id
    ensures r.None? ==> forall j :: 0 <= j < |accounts| ==> accounts[j].id != id
  {
    FindFirst(accounts, (a: Account) => a.id == id)
  }

  function EcoPoints(a: Account): int {
    a.ecoPoints
  }

  function ReportsCount(a: Account): int {
    a.reportsCount
  }

  /** Two collections hold the same accounts, position by position, up to
      the given field being rewritten. */
  predicate SameExceptReportsCount(a: seq<Account>, b: seq<Account>) {
    |a| == |b| && forall i :: 0 <= i < |a| ==> b[i] == a[i].(reportsCount := b[i].reportsCount)
  }
}

=== FILE: auth_controller.dfy ===
/** The decision logic of `register` and `login` in
    server/controllers/auth.js, over a user collection keyed by the stored
    (lower-cased) e-mail address. Token signing, cookies and logging are not
    modelled; the password hash and its comparison are parameters. */
module AuthController {
  import opened Seqs
  import opened Text
  import opened UserModel
  import opened AuthRoutes

  /** The users collection: each record is stored under its own e-mail. */
  type Users = map<string, GreenUser>

  predicate Keyed(users: Users) {
    forall e :: e in users ==> users[e].email == e
  }

  datatype Reply = Reply(status: int, message: string)

  datatype Outcome = Outcome(reply: Reply, users: Users)

  /** What registration needs from outside: the validator library, the
      schema's e-mail pattern, the password hash of the pre-save hook, the
      id the database assigns and the clock. */
  datatype RegisterEnv = RegisterEnv(
    rules: EmailRules, emailPattern: string -> bool, hash: string -> string, newId: nat, now: int)

  const ValidationFailed := "Validation failed"
  const DuplicateEmail := "A user with this email already exists"
  const RegistrationFailed := "Registration failed. Please try again."
  const AllowedRoles: seq<string> := ["user", "environmental_org"]

  /** `role && allowedRoles.includes(role) ? role : 'user'`. */
  function RequestedRole(role: Option<string>): (r: Role)
    ensures r != Admin
    ensures r == EnvironmentalOrg <==> role == Some("environmental_org")
  {
    if role.Some? && role.value in AllowedRoles && role.value == "environmental_org" then EnvironmentalOrg
    else Citizen
  }

  /** A string field the controller reads as truthy: present and non-empty. */
  predicate Truthy(v: Option<string>) {
    v.Some? && v.value != ""
  }

  function TrimmedIfTruthy(v: Option<string>): Option<string> {
    if Truthy(v) then Some(Trim(v.value)) else None
  }

  /** The document `User.create` receives, with the schema's `trim` and
      `lowercase` setters and defaults applied. */
  function NewUser(body: RegisterRequest, env: RegisterEnv): GreenUser {
    GreenUser(
      id := env.newId,
      name := Trim(Trim(Field(body.name))),
      email := ToLower(Field(body.email)),
      credential := env.hash(Field(body.password)),
      role := RequestedRole(body.role),
      greenPoints := 0,
      wasteReportsSubmitted := 0,
      reportsVerified := 0,
      cleanupEventsAttended := 0,
      recyclingSessionsLogged := 0,
      bio := (if Truthy(body.bio) then Some(Trim(Trim(body.bio.value))) else None),
      location := (if Truthy(body.city) || Truthy(body.state)
                   then Some(Location(TrimmedIfTruthy(body.city), TrimmedIfTruthy(body.state)))
                   else None),
      showOnLeaderboard := true,
      isActive := true,
      createdAt := env.now,
      lastLogin := None)
  }

  /** The schema validators `User.create` runs: the kept bounds, the e-mail
      pattern and the six-unit password minimum. */
  predicate CreateAccepts(u: GreenUser, password: string, env: RegisterEnv) {
    SchemaValid(u) && env.emailPattern(u.email) && Utf16Length(password) >= 6
  }

  /** The welcome bonus: `addGreenPoints(10, 'welcome_bonus')` for a
      citizen, nothing for an organisation. */
  function Welcome(u: GreenUser): (r: Saved)
    ensures u.greenPoints >= 0 ==> r.Saved?
    ensures r.Saved? ==> r.user.greenPoints == u.greenPoints + (if u.role == Citizen then 10 else 0)
    ensures r.Saved? ==> (forall c :: CounterValue(r.user, c) == CounterValue(u, c)) && SameProfile(u, r.user)
  {
    if u.role == Citizen then AddGreenPoints(u, 10, "welcome_bonus") else Saved(u)
  }

  /** `User.create` followed by the bonus: a record the schema refuses
      answers 500 and stores nothing. */
  function Create(users: Users, key: string, u: GreenUser, accepted: bool): (r: Outcome)
    requires u.greenPoints == 0
    ensures r.reply.status in {201, 500}
    ensures r.reply.status == 201 <==> accepted
    ensures !accepted ==> r.users == users
    ensures accepted ==> r.users == users[key := Welcome(u).user]
  {
    if !accepted then Outcome(Reply(500, RegistrationFailed), users)
    else
      match Welcome(u)
      case Saved(v) => Outcome(Reply(201, "Registered"), users[key := v])
      case Rejected(_) => Outcome(Reply(500, RegistrationFailed), users[key := u])
  }

  /** The address a registration is filed under. */
  function RegistrationKey(req: RegisterRequest, rules: EmailRules): string {
    ToLower(rules.normalize(Field(req.email)))
  }

  /** The record a successful registration stores. */
  function Registered(req: RegisterRequest, env: RegisterEnv): GreenUser {
    Welcome(NewUser(SanitizeRegister(req, env.rules), env)).user
  }

  /** `register`. Validation errors and a taken address answer 400; a record
      the schema refuses answers 500; otherwise the user is stored, a
      citizen receives the 10-point welcome bonus, and the answer is 201. */
  function Register(users: Users, req: RegisterRequest, env: RegisterEnv): (r: Outcome)
    ensures RegisterErrors(req, env.rules) != [] ==> r == Outcome(Reply(400, ValidationFailed), users)
    ensures RegisterErrors(req, env.rules) == [] && RegistrationKey(req, env.rules) in users
      ==> r == Outcome(Reply(400, DuplicateEmail), users)
    ensures r.reply.status in {201, 400, 500}
    ensures RegisterErrors(req, env.rules) == [] && RegistrationKey(req, env.rules) !in users ==>
      var created := NewUser(SanitizeRegister(req, env.rules), env);
      (r.reply.status == 201 <==> CreateAccepts(created, Field(SanitizeRegister(req, env.rules).password), env))
    ensures r.reply.status != 201 ==> r.users == users
    ensures r.reply.status == 201 ==>
      && RegistrationKey(req, env.rules) !in users
      && r.users == users[RegistrationKey(req, env.rules) := Registered(req, env)]
  {
    if RegisterErrors(req, env.rules) != [] then Outcome(Reply(400, ValidationFailed), users)
    else
      var body := SanitizeRegister(req, env.rules);
      var key := RegistrationKey(req, env.rules);
      if key in users then Outcome(Reply(400, DuplicateEmail), users)
      else
        var created := NewUser(body, env);
        Create(users, key, created, CreateAccepts(created, Field(body.password), env))
  }

  /** A citizen's bonus keeps everything but the points. */
  lemma WelcomeKeepsProfile(u: GreenUser)
    requires u.greenPoints >= 0
    ensures var v := Welcome(u).user;
      && v.email == u.email && v.name == u.name && v.bio == u.bio && v.location == u.location
      && v.role == u.role && v.isActive == u.isActive && v.lastLogin == u.lastLogin
      && v.credential == u.credential
  {
    var v := Welcome(u).user;
    assert SameProfile(u, v);
    var zu := u.(greenPoints := 0, wasteReportsSubmitted := 0, reportsVerified := 0,
                 cleanupEventsAttended := 0, recyclingSessionsLogged := 0);
    var zv := v.(greenPoints := 0, wasteReportsSubmitted := 0, reportsVerified := 0,
                 cleanupEventsAttended := 0, recyclingSessionsLogged := 0);
    assert zu == zv;
    assert zu.email == u.email && zv.email == v.email;
  }

  /** What the built record holds, field by field, before the bonus. */
  lemma NewUserProfile(req: RegisterRequest, env: RegisterEnv)
    ensures var u := NewUser(SanitizeRegister(req, env.rules), env);
      && u.email == RegistrationKey(req, env.rules)
      && u.name == Trim(Field(req.name))
      && (Truthy(req.bio) ==> u.bio == Some(Trim(req.bio.value)))
      && (!Truthy(req.bio) ==> u.bio.None?)
      && (u.location.Some? <==> Truthy(req.city) || Truthy(req.state))
      && RoleName(u.role) == (if req.role == Some("environmental_org") then "environmental_org" else "user")
      && u.credential == env.hash(Field(req.password))
      && u.isActive && u.lastLogin.None? && u.greenPoints == 0
  {
    var body := SanitizeRegister(req, env.rules);
    TrimIdempotent(Field(req.name));
    if Truthy(req.bio) {
      TrimIdempotent(req.bio.value);
    }
  }

  /** What a registration stores: the lower-cased address, the trimmed name
      and bio, a location exactly when a city or a state was given, and the
      requested role unless it is missing or not allowed. */
  lemma RegisteredProfile(req: RegisterRequest, env: RegisterEnv)
    ensures var u := Registered(req, env);
      && u.email == RegistrationKey(req, env.rules)
      && u.name == Trim(Field(req.name))
      && (Truthy(req.bio) ==> u.bio == Some(Trim(req.bio.value)))
      && (!Truthy(req.bio) ==> u.bio.None?)
      && (u.location.Some? <==> Truthy(req.city) || Truthy(req.state))
      && RoleName(u.role) == (if req.role == Some("environmental_org") then "environmental_org" else "user")
      && u.credential == env.hash(Field(req.password))
      && u.isActive && u.lastLogin.None?
  {
    NewUserProfile(req, env);
    WelcomeKeepsProfile(NewUser(SanitizeRegister(req, env.rules), env));
  }

  /** A freshly built record has no points and no activity. */
  lemma NewUserFresh(body: RegisterRequest, env: RegisterEnv)
    ensures var u := NewUser(body, env);
      u.greenPoints == 0 && forall c :: CounterValue(u, c) == 0
  {
  }

  /** The bonus on a record with no points and no activity. */
  lemma WelcomeFresh(u: GreenUser)
    requires u.greenPoints == 0 && forall c :: CounterValue(u, c) == 0
    ensures var v := Welcome(u).user;
      && v.greenPoints == (if u.role == Citizen then 10 else 0)
      && v.role == u.role
      && (forall c :: CounterValue(v, c) == 0)
      && SustainabilityLevel(v) == GreenNewcomer
  {
    WelcomeKeepsProfile(u);
    var v := Welcome(u).user;
    assert CounterValue(v, ReportsSubmitted) == 0 && CounterValue(v, CleanupsAttended) == 0
      && CounterValue(v, RecyclingLogged) == 0;
    assert TotalActivity(v) == 0;
  }

  /** A new citizen starts with the 10-point welcome bonus and an
      organisation with 0, every activity counter at 0 and the lowest level. */
  lemma RegisteredStanding(req: RegisterRequest, env: RegisterEnv)
    ensures var u := Registered(req, env);
      && u.greenPoints == (if u.role == Citizen then 10 else 0)
      && (forall c :: CounterValue(u, c) == 0)
      && SustainabilityLevel(u) == GreenNewcomer
  {
    var body := SanitizeRegister(req, env.rules);
    NewUserFresh(body, env);
    WelcomeFresh(NewUser(body, env));
  }

  /** The stored record carries the address it is filed under. */
  lemma RegisteredEmail(req: RegisterRequest, env: RegisterEnv)
    ensures Registered(req, env).email == RegistrationKey(req, env.rules)
  {
    var created := NewUser(SanitizeRegister(req, env.rules), env);
    WelcomeKeepsProfile(created);
  }

  /** Storing a record under its own address keeps the collection keyed. */
  lemma KeyedInsert(users: Users, key: string, u: GreenUser)
    requires Keyed(users) && u.email == key
    ensures Keyed(users[key := u])
  {
  }

  /** Registration keeps every record stored under its own address. */
  lemma RegisterKeepsKeyed(users: Users, req: RegisterRequest, env: RegisterEnv)
    requires Keyed(users)
    ensures Keyed(Register(users, req, env).users)
  {
    if Register(users, req, env).reply.status == 201 {
      RegisteredEmail(req, env);
      KeyedInsert(users, RegistrationKey(req, env.rules), Registered(req, env));
    }
  }

  datatype LoginEnv = LoginEnv(rules: EmailRules, matches: (string, string) -> bool, now: int)

  const MissingCredentials := "Please provide email and password"
  const InvalidCredentials := "Invalid credentials"
  const Deactivated := "Account is deactivated. Please contact support."

  /** `login`: validation (400), missing fields (400), unknown address
      (401), deactivated account (401, before the password is looked at),
      wrong password (401), then success (200), which only stamps
      `last_login`. */
  function Login(users: Users, req: LoginRequest, env: LoginEnv): (r: Outcome)
    ensures r.reply.status in {200, 400, 401}
    ensures r.reply.status != 200 ==> r.users == users
    ensures LoginErrors(req, env.rules) != [] ==> r.reply == Reply(400, ValidationFailed)
    ensures var email := env.rules.normalize(Field(req.email));
      var key := ToLower(email);
      var password := Field(req.password);
      && (LoginErrors(req, env.rules) == [] && (email == "" || password == "")
          ==> r.reply == Reply(400, MissingCredentials))
      && (LoginErrors(req, env.rules) == [] && email != "" && password != "" && key !in users
          ==> r.reply == Reply(401, InvalidCredentials))
      && (LoginErrors(req, env.rules) == [] && email != "" && password != "" && key in users && !users[key].isActive
          ==> r.reply == Reply(401, Deactivated))
      && (LoginErrors(req, env.rules) == [] && email != "" && password != "" && key in users && users[key].isActive
            && !env.matches(users[key].credential, password)
          ==> r.reply == Reply(401, InvalidCredentials))
      && (r.reply.status == 200 <==>
            LoginErrors(req, env.rules) == [] && email != "" && key in users && users[key].isActive
            && env.matches(users[key].credential, Field(req.password)))
      && (r.reply.status == 200 ==> r.users == users[key := users[key].(lastLogin := Some(env.now))])
  {
    if LoginErrors(req, env.rules) != [] then Outcome(Reply(400, ValidationFailed), users)
    else
      var email := env.rules.normalize(Field(req.email));
      var password := Field(req.password);
      if email == "" || password == "" then Outcome(Reply(400, MissingCredentials), users)
      else
        var key := ToLower(email);
        if key !in users then Outcome(Reply(401, InvalidCredentials), users)
        else
          var u := users[key];
          if !u.isActive then Outcome(Reply(401, Deactivated), users)
          else if !env.matches(u.credential, password) then Outcome(Reply(401, InvalidCredentials), users)
          else Outcome(Reply(200, "Logged in"), users[key := u.(lastLogin := Some(env.now))])
  }

  /** Someone who has just registered can log in with the same address and
      password, given that login uses the same e-mail rules, that the
      comparison accepts every password against its own hash, and that the
      address does not normalise to the empty string. */
  lemma RegisterThenLogin(users: Users, req: RegisterRequest, env: RegisterEnv, login: LoginEnv)
    requires login.rules == env.rules
    requires forall p :: login.matches(env.hash(p), p)
    requires env.rules.normalize(Field(req.email)) != ""
    ensures Register(users, req, env).reply.status == 201 ==>
      Login(Register(users, req, env).users, LoginRequest(req.email, req.password), login).reply.status == 200
  {
    var after := Register(users, req, env);
    if after.reply.status == 201 {
      var key := RegistrationKey(req, env.rules);
      var attempt := LoginRequest(req.email, req.password);
      RegisteredProfile(req, env);
      assert after.users[key] == Registered(req, env);
      assert LoginErrors(attempt, login.rules) == [];
    }
  }
}

=== FILE: auth_routes.dfy ===
/** The express-validator chains of server/routes/auth.js: registration,
    login and reset-password checks, and the sanitisers they apply.
    `isEmail` and `normalizeEmail` come from the validator library and are
    parameters here. */
module AuthRoutes {
  import opened Seqs
  import opened Text

  datatype FieldError = FieldError(field: string, message: string)

  /** The validator library's e-mail check and normaliser. */
  datatype EmailRules = EmailRules(isEmail: string -> bool, normalize: string -> string)

  /** Character classes of the password pattern's three lookaheads. */
  datatype CharClass = AsciiLower | AsciiUpper | AsciiDigit

  predicate InClass(c: char, k: CharClass) {
    match k
    case AsciiLower => 'a' <= c <= 'z'
    case AsciiUpper => 'A' <= c <= 'Z'
    case AsciiDigit => '0' <= c <= '9'
  }

  /** How `(?=.*[class])` anchored at the start runs: `.` walks forward over
      anything but a line terminator, so the class must be met before the
      first line break. */
  function LookaheadFinds(s: string, k: CharClass): bool {
    if |s| == 0 || IsLineTerminator(s[0]) then false
    else InClass(s[0], k) || LookaheadFinds(s[1..], k)
  }

  /** Some character of the class occurs with no line terminator before it. */
  ghost predicate FoundBeforeBreak(s: string, k: CharClass) {
    exists i :: 0 <= i < |s| && InClass(s[i], k) && forall j :: 0 <= j < i ==> !IsLineTerminator(s[j])
  }

  /** The scan is the lookahead's meaning. */
  lemma {:induction false} LookaheadFindsIff(s: string, k: CharClass)
    ensures LookaheadFinds(s, k) <==> FoundBeforeBreak(s, k)
  {
    if |s| == 0 {
    } else if IsLineTerminator(s[0]) {
      forall i | 0 <= i < |s| && InClass(s[i], k)
        ensures i > 0 && IsLineTerminator(s[0])
      {
      }
    } else {
      LookaheadFindsIff(s[1..], k);
      if LookaheadFinds(s, k) && !InClass(s[0], k) {
        var i :| 0 <= i < |s[1..]| && InClass(s[1..][i], k) && forall j :: 0 <= j < i ==> !IsLineTerminator(s[1..][j]);
        assert InClass(s[i + 1], k);
        forall j | 0 <= j < i + 1 ensures !IsLineTerminator(s[j]) {
          if j > 0 { assert s[j] == s[1..][j - 1]; }
        }
      }
      if !LookaheadFinds(s, k) {
        forall i | 0 <= i < |s| && InClass(s[i], k)
          ensures exists j :: 0 <= j < i && IsLineTerminator(s[j])
        {
          assert InClass(s[1..][i - 1], k);
          var j :| 0 <= j < i - 1 && IsLineTerminator(s[1..][j]);
          assert IsLineTerminator(s[j + 1]);
        }
      }
    }
  }

  /** `/^(?=.*[a-z])(?=.*[A-Z])(?=.*\d)/`. */
  predicate PasswordPattern(p: string) {
    LookaheadFinds(p, AsciiLower) && LookaheadFinds(p, AsciiUpper) && LookaheadFinds(p, AsciiDigit)
  }

  const PasswordMinLength := 6
  const LengthMessage := "Password must be at least 6 characters long"
  const PatternMessage := "Password must contain at least one uppercase letter, one lowercase letter, and one number"

  /** The password chain of registration and reset: both validators run, so
      a short password without the character mix reports two errors. */
  function PasswordErrors(p: string): (r: seq<FieldError>)
    ensures r == [] <==> |p| >= PasswordMinLength && PasswordPattern(p)
    ensures |r| <= 2
  {
    (if |p| < PasswordMinLength then [FieldError("password", LengthMessage)] else [])
    + (if !PasswordPattern(p) then [FieldError("password", PatternMessage)] else [])
  }

  const NameMessage := "Name must be between 2 and 50 characters"
  const EmailMessage := "Please provide a valid email"
  const RoleMessage := "Role must be either user or environmental_org"

  /** Whether the trimmed name has an acceptable length (in code points). */
  predicate NameOk(name: string) {
    2 <= |Trim(name)| <= 50
  }

  /** A missing field reaches the validators as the empty string. */
  function Field(v: Option<string>): string {
    v.GetOr("")
  }

  datatype RegisterRequest = RegisterRequest(
    name: Option<string>, email: Option<string>, password: Option<string>, role: Option<string>,
    bio: Option<string>, city: Option<string>, state: Option<string>)

  function NameErrors(name: string): (r: seq<FieldError>)
    ensures r == [] <==> NameOk(name)
  {
    if NameOk(name) then [] else [FieldError("name", NameMessage)]
  }

  function EmailErrors(email: string, rules: EmailRules): (r: seq<FieldError>)
    ensures r == [] <==> rules.isEmail(email)
  {
    if rules.isEmail(email) then [] else [FieldError("email", EmailMessage)]
  }

  /** `optional().isIn(['user', 'environmental_org'])`: an absent role passes;
      a present one, even the empty string, must be one of the two. */
  function RoleErrors(role: Option<string>): (r: seq<FieldError>)
    ensures r == [] <==> role.None? || role.value == "user" || role.value == "environmental_org"
  {
    if role.None? || role.value == "user" || role.value == "environmental_org" then []
    else [FieldError("role", RoleMessage)]
  }

  /** `registerValidation`, errors in chain order. */
  function RegisterErrors(req: RegisterRequest, rules: EmailRules): (r: seq<FieldError>)
    ensures r == [] <==>
      && NameOk(Field(req.name))
      && rules.isEmail(Field(req.email))
      && |Field(req.password)| >= PasswordMinLength && PasswordPattern(Field(req.password))
      && (req.role.None? || req.role.value == "user" || req.role.value == "environmental_org")
    ensures req.role == Some("admin") ==> r[|r| - 1] == FieldError("role", RoleMessage)
  {
    var a := NameErrors(Field(req.name));
    var b := EmailErrors(Field(req.email), rules);
    var c := PasswordErrors(Field(req.password));
    var d := RoleErrors(req.role);
    assert |a + b + c + d| == |a| + |b| + |c| + |d|;
    a + b + c + d
  }

  /** The body the controller sees after the sanitisers: a trimmed name and a
      normalised e-mail address. */
  function SanitizeRegister(req: RegisterRequest, rules: EmailRules): (r: RegisterRequest)
    ensures r.name == Some(Trim(Field(req.name)))
    ensures r.email == Some(rules.normalize(Field(req.email)))
    ensures r.password == req.password && r.role == req.role && r.bio == req.bio
    ensures r.city == req.city && r.state == req.state
  {
    req.(name := Some(Trim(Field(req.name))), email := Some(rules.normalize(Field(req.email))))
  }

  datatype LoginRequest = LoginRequest(email: Option<string>, password: Option<string>)

  /** `loginValidation`: a valid e-mail and a non-empty password. */
  function LoginErrors(req: LoginRequest, rules: EmailRules): (r: seq<FieldError>)
    ensures r == [] <==> rules.isEmail(Field(req.email)) && |Field(req.password)| > 0
  {
    (if rules.isEmail(Field(req.email)) then [] else [FieldError("email", EmailMessage)])
    + (if |Field(req.password)| > 0 then [] else [FieldError("password", "Password is required")])
  }

  /** One link of a validator chain on a string field: a minimum length or
      a pattern, each with the message it reports. */
  datatype Step = MinLength(min: nat, message: string) | Matches(test: string -> bool, message: string)

  predicate Passes(step: Step, v: string) {
    match step
    case MinLength(min, _) => |v| >= min
    case Matches(test, _) => test(v)
  }

  /** Every link of the chain runs; each failing one reports its message,
      in chain order. */
  function ChainErrors(field: string, v: string, chain: seq<Step>): (r: seq<FieldError>)
    ensures r == [] <==> forall k :: 0 <= k < |chain| ==> Passes(chain[k], v)
    ensures |r| <= |chain|
    ensures forall k :: 0 <= k < |r| ==> r[k].field == field
  {
    if |chain| == 0 then []
    else
      (if Passes(chain[0], v) then [] else [FieldError(field, chain[0].message)])
      + ChainErrors(field, v, chain[1..])
  }

  /** The reset-password route's own chain, written out separately from the
      registration one. */
  const ResetChain: seq<Step> := [
    MinLength(6, "Password must be at least 6 characters long"),
    Matches(PasswordPattern, "Password must contain at least one uppercase letter, one lowercase letter, and one number")
  ]

  /** The reset-password route checks only the password. */
  function ResetPasswordErrors(password: Option<string>): (r: seq<FieldError>)
    ensures r == [] <==> |Field(password)| >= 6 && PasswordPattern(Field(password))
    ensures |r| <= 2
  {
    var r := ChainErrors("password", Field(password), ResetChain);
    assert (forall k :: 0 <= k < |ResetChain| ==> Passes(ResetChain[k], Field(password)))
      <==> Passes(ResetChain[0], Field(password)) && Passes(ResetChain[1], Field(password));
    r
  }

  /** Registration and reset, though written as two chains, accept exactly
      the same passwords and report the same errors in the same order. */
  lemma ResetMatchesRegister(password: Option<string>)
    ensures ResetPasswordErrors(password) == PasswordErrors(Field(password))
  {
    var p := Field(password);
    assert ResetChain[1..][1..] == [];
    assert ChainErrors("password", p, ResetChain[1..]) ==
      (if PasswordPattern(p) then [] else [FieldError("password", PatternMessage)]);
  }

  /** A password is accepted exactly when it has six characters and a
      lowercase letter, an uppercase letter and a digit before its first
      line break. */
  lemma PasswordRule(p: string)
    ensures PasswordErrors(p) == [] <==> |p| >= 6 && forall k: CharClass :: FoundBeforeBreak(p, k)
  {
    forall k: CharClass ensures LookaheadFinds(p, k) <==> FoundBeforeBreak(p, k) {
      LookaheadFindsIff(p, k);
    }
  }
}

=== FILE: client_reports.dfy ===
/** The report record as the client's list, map and stats views read it,
    and the two helpers those views share: the status filter and the
    category icon (client/src/components/ReportsList.jsx and
    client/src/components/WasteMap.jsx hold identical copies). */
module ClientReports {
  import opened Seqs

  /** `createdAt` is the creation time in milliseconds; `submittedBy` is
      `undefined` when the report carries no submitter. */
  datatype Report = Report(
    id: string,
    title: string,
    status: string,
    severity: string,
    category: string,
    createdAt: int,
    submittedBy: Option<string>)

  const All: string := "all"

  predicate Shown(filter: string, r: Report) {
    filter == All || r.status == filter
  }

  /** `filter === "all" || report.status === filter`: "all" keeps
      everything, any other value keeps exactly the reports with that
      status, each as often as before. */
  function FilterByStatus(reports: seq<Report>, filter: string): (r: seq<Report>)
    ensures filter == All ==> r == reports
    ensures forall i :: 0 <= i < |r| ==> filter == All || r[i].status == filter
    ensures forall x :: multiset(r)[x] == if filter == All || x.status == filter then multiset(reports)[x] else 0
  {
    var p := (x: Report) => Shown(filter, x);
    FilterMultiset(reports, p);
    if filter == All then
      FilterAll(reports, p);
      Filter(reports, p)
    else Filter(reports, p)
  }

  /** Order is kept: filtering a concatenation filters each part, and one
      report is kept or dropped on its own. */
  lemma FilterByStatusKeepsOrder(a: seq<Report>, b: seq<Report>, x: Report, filter: string)
    ensures FilterByStatus(a + b, filter) == FilterByStatus(a, filter) + FilterByStatus(b, filter)
    ensures FilterByStatus([x], filter) == if filter == All || x.status == filter then [x] else []
  {
    FilterConcat(a, b, (y: Report) => Shown(filter, y));
    assert [x][1..] == [];
  }

  function CountStatus(reports: seq<Report>, status: string): (n: nat)
    ensures status != All ==> n == |FilterByStatus(reports, status)|
  {
    CountIsFilter(reports, status);
    Count(reports, (x: Report) => x.status == status)
  }

  lemma {:induction false} CountIsFilter(reports: seq<Report>, status: string)
    ensures status != All ==>
      Count(reports, (x: Report) => x.status == status) == |FilterByStatus(reports, status)|
  {
    if status != All && |reports| > 0 {
      var p, q := (x: Report) => x.status == status, (x: Report) => Shown(status, x);
      CountIsFilter(reports[1..], status);
      assert reports == [reports[0]] + reports[1..];
      FilterConcat([reports[0]], reports[1..], q);
      assert [reports[0]][1..] == [];
    }
  }

  const FallbackIcon: string := "🗑️"

  /** The icon table of client/src/components/WasteMap.jsx. */
  const Icons: map<string, string> := map[
    "plastic" := "🏷️",
    "organic" := "🍎",
    "electronic" := "📱",
    "metal" := "🔩",
    "glass" := "🪟",
    "paper" := "📄",
    "textile" := "👕",
    "hazardous" := "☢️"]

  /** The names every object literal inherits from `Object.prototype`
      (section 20.1.3 of ECMA-262 and its Annex B). */
  const PrototypeKeys: set<string> := {
    "constructor", "hasOwnProperty", "isPrototypeOf", "propertyIsEnumerable",
    "toLocaleString", "toString", "valueOf", "__proto__",
    "__defineGetter__", "__defineSetter__", "__lookupGetter__", "__lookupSetter__"}

  /** What `icons[category]` yields: an own glyph, or an inherited member
      (a function, or the prototype itself for `__proto__`), which is
      truthy and so shown in place of the bin. */
  datatype IconLookup = Glyph(icon: string) | Inherited(name: string)

  /** `icons[category] || "🗑️"` over a given table of own properties, none
      of which shadows an inherited name; an empty glyph is falsy. */
  function Lookup(table: map<string, string>, category: string): (r: IconLookup)
    requires forall k :: k in table ==> k !in PrototypeKeys
    ensures category in table && table[category] != "" ==> r == Glyph(table[category])
    ensures r.Inherited? <==> category in PrototypeKeys
    ensures r.Inherited? ==> r.name == category
    ensures (category !in table || table[category] == "") && category !in PrototypeKeys ==> r == Glyph(FallbackIcon)
  {
    if category in table && table[category] != "" then Glyph(table[category])
    else if category in PrototypeKeys then Inherited(category)
    else Glyph(FallbackIcon)
  }

  /** The map's category icon: the eight known categories have their own
      glyph, the names inherited from `Object.prototype` yield the inherited
      member, and every other category gets the bin. */
  function CategoryIcon(category: string): (r: IconLookup)
    ensures r == Glyph(FallbackIcon) <==> category !in Icons && category !in PrototypeKeys
    ensures category in Icons ==> r == Glyph(Icons[category])
    ensures r.Inherited? <==> category in PrototypeKeys
  {
    Lookup(Icons, category)
  }
}

=== FILE: create_report.dfy ===
/** client/src/pages/CreateReport.jsx: the image picker's admission rules
    (`handleImageChange`), removal (`removeImage`), the resize arithmetic of
    `compressImage`, and the location check and multipart field list of
    `handleSubmit`. The JPEG encoder, object URLs and the HTTP request are
    parameters. */
module CreateReport {
  import opened Seqs
  import opened Text
  import opened Files

  // Resizing

  /** Scaling the longer side `long` down to `MaxSide` brings the shorter
      side `short` to at most `MaxSide`, in the same proportion. */
  lemma ScaleShorter(short: real, long: real)
    requires 0.0 <= short <= long && long > 0.0
    ensures 0.0 <= (short / long) * MaxSide <= MaxSide
    ensures (short / long) * MaxSide * long == MaxSide * short
  {
    var q := short / long;
    assert q * long == short;
    assert q <= 1.0;
    assert q * MaxSide * long == MaxSide * (q * long);
  }

  /** `compressImage`: a side above 1920 pixels scales the image so that the
      longer side (the height on a tie) becomes 1920. */
  function FitWithin(width: nat, height: nat): (r: Size)
    ensures Fits(r)
    ensures SameRatio(r, width, height)
    ensures width as real <= MaxSide && height as real <= MaxSide ==> r == Size(width as real, height as real)
    ensures (width as real > MaxSide || height as real > MaxSide) ==>
      (if width > height then r.width == MaxSide else r.height == MaxSide)
  {
    var w, h := width as real, height as real;
    if w > MaxSide || h > MaxSide then
      if w > h then
        ScaleShorter(h, w);
        var r := Size(MaxSide, (h / w) * MaxSide);
        assert SameRatio(r, width, height) && Fits(r);
        r
      else
        ScaleShorter(w, h);
        var r := Size((w / h) * MaxSide, MaxSide);
        assert SameRatio(r, width, height) && Fits(r);
        r
    else Size(w, h)
  }

  // Admission

  const MaxImages: nat := 5
  const TooMany: string := "Maximum 5 images allowed"

  /** The picker's state: the chosen files, one preview per file, and the
      message shown. */
  datatype Intake = Intake(images: seq<File>, previews: seq<string>, error: string)

  /** What the picker keeps true: at most five files, one preview each, and
      no two files with the same name. */
  predicate Valid(st: Intake) {
    && |st.images| <= MaxImages
    && |st.previews| == |st.images|
    && DistinctNames(st.images)
  }

  /** The selected files whose names are already taken. */
  function Colliding(files: seq<File>, images: seq<File>): (r: seq<File>)
    ensures r == [] <==> forall i :: 0 <= i < |files| ==> files[i].name !in Names(images)
  {
    var taken := (f: File) => f.name in Names(images);
    var r := Filter(files, taken);
    FilterMembers(files, taken);
    if r == [] then
      assert forall i :: 0 <= i < |files| ==> files[i].name !in Names(images) by {
        forall i | 0 <= i < |files| ensures files[i].name !in Names(images) {
          assert files[i] in files;
          assert files[i] !in r;
        }
      }
      r
    else
      assert r[0] in files && taken(r[0]);
      var i :| 0 <= i < |files| && files[i] == r[0];
      assert files[i].name in Names(images);
      r
  }

  function DuplicateMessage(dups: seq<File>): string {
    "Duplicate image(s) detected: " + Join(Names(dups), ", ") + ". Please select different images."
  }

  function RemovedMessage(n: nat): string {
    "Removed " + NatToString(n) + " duplicate image(s) from selection."
  }

  /** `self.findIndex((f) => f.name === name)`, with `|fs|` for none. */
  function FirstWithName(fs: seq<File>, name: string): (r: nat)
    ensures r <= |fs|
    ensures r < |fs| ==> fs[r].name == name
    ensures forall j :: 0 <= j < r ==> fs[j].name != name
  {
    if |fs| == 0 then 0
    else if fs[0].name == name then 0
    else 1 + FirstWithName(fs[1..], name)
  }

  /** `r` holds, in order, exactly the first file of each name whose first
      occurrence is at position `i` or later. */
  predicate KeptFirsts(fs: seq<File>, i: nat, r: seq<File>) {
    && (forall k :: 0 <= k < |r| ==>
          i <= FirstWithName(fs, r[k].name) < |fs| && r[k] == fs[FirstWithName(fs, r[k].name)])
    && (forall a, b :: 0 <= a < b < |r| ==> FirstWithName(fs, r[a].name) < FirstWithName(fs, r[b].name))
    && (forall j :: i <= j < |fs| && FirstWithName(fs, fs[j].name) >= i ==> fs[j].name in Names(r))
  }

  /** A file that is not the first of its name adds nothing. */
  lemma KeptFirstsSkip(fs: seq<File>, i: nat, rest: seq<File>)
    requires i < |fs| && KeptFirsts(fs, i + 1, rest)
    requires FirstWithName(fs, fs[i].name) != i
    ensures KeptFirsts(fs, i, rest)
  {
    forall j | i <= j < |fs| && FirstWithName(fs, fs[j].name) >= i ensures fs[j].name in Names(rest) {
      if FirstWithName(fs, fs[j].name) == i {
        assert false;
      }
    }
  }

  lemma KeepFront(fs: seq<File>, i: nat, rest: seq<File>)
    requires i < |fs| && KeptFirsts(fs, i + 1, rest)
    requires FirstWithName(fs, fs[i].name) == i
    ensures var r := [fs[i]] + rest;
      forall k :: 0 <= k < |r| ==> i <= FirstWithName(fs, r[k].name) < |fs| && r[k] == fs[FirstWithName(fs, r[k].name)]
  {
    var r := [fs[i]] + rest;
    forall k | 0 <= k < |r|
      ensures i <= FirstWithName(fs, r[k].name) < |fs| && r[k] == fs[FirstWithName(fs, r[k].name)]
    {
      if k > 0 {
        assert r[k] == rest[k - 1];
      }
    }
  }

  lemma KeepOrder(fs: seq<File>, i: nat, rest: seq<File>)
    requires i < |fs| && KeptFirsts(fs, i + 1, rest)
    requires FirstWithName(fs, fs[i].name) == i
    ensures var r := [fs[i]] + rest;
      forall a, b :: 0 <= a < b < |r| ==> FirstWithName(fs, r[a].name) < FirstWithName(fs, r[b].name)
  {
    var r := [fs[i]] + rest;
    forall a, b | 0 <= a < b < |r| ensures FirstWithName(fs, r[a].name) < FirstWithName(fs, r[b].name) {
      assert r[b] == rest[b - 1];
      if a > 0 {
        assert r[a] == rest[a - 1];
      }
    }
  }

  lemma KeepCovers(fs: seq<File>, i: nat, rest: seq<File>)
    requires i < |fs| && KeptFirsts(fs, i + 1, rest)
    requires FirstWithName(fs, fs[i].name) == i
    ensures var r := [fs[i]] + rest;
      forall j :: i <= j < |fs| && FirstWithName(fs, fs[j].name) >= i ==> fs[j].name in Names(r)
  {
    var r := [fs[i]] + rest;
    var nr, nrest := Names(r), Names(rest);
    forall j | i <= j < |fs| && FirstWithName(fs, fs[j].name) >= i ensures fs[j].name in nr {
      if FirstWithName(fs, fs[j].name) == i {
        assert fs[j].name == fs[i].name == nr[0];
      } else {
        assert fs[j].name in nrest;
        var k :| 0 <= k < |nrest| && nrest[k] == fs[j].name;
        assert nr[k + 1] == r[k + 1].name == rest[k].name;
      }
    }
  }

  /** A file that is the first of its name goes in front. */
  lemma KeptFirstsKeep(fs: seq<File>, i: nat, rest: seq<File>)
    requires i < |fs| && KeptFirsts(fs, i + 1, rest)
    requires FirstWithName(fs, fs[i].name) == i
    ensures KeptFirsts(fs, i, [fs[i]] + rest)
  {
    KeepFront(fs, i, rest);
    KeepOrder(fs, i, rest);
    KeepCovers(fs, i, rest);
  }

  /** The filter over positions `i..`: keep a file when it is the first one
      carrying its name. */
  function KeepFirstFrom(fs: seq<File>, i: nat): (r: seq<File>)
    requires i <= |fs|
    ensures |r| <= |fs| - i
    ensures KeptFirsts(fs, i, r)
    decreases |fs| - i
  {
    if i == |fs| then []
    else
      var rest := KeepFirstFrom(fs, i + 1);
      if FirstWithName(fs, fs[i].name) == i then
        KeptFirstsKeep(fs, i, rest);
        [fs[i]] + rest
      else
        KeptFirstsSkip(fs, i, rest);
        rest
  }

  /** `files.filter((file, index, self) => index === self.findIndex(...))`:
      the first file of each name, in the order chosen. */
  function UniqueFiles(fs: seq<File>): (r: seq<File>)
    ensures |r| <= |fs|
    ensures forall k :: 0 <= k < |r| ==>
      FirstWithName(fs, r[k].name) < |fs| && r[k] == fs[FirstWithName(fs, r[k].name)]
    ensures forall a, b :: 0 <= a < b < |r| ==> FirstWithName(fs, r[a].name) < FirstWithName(fs, r[b].name)
    ensures forall a, b :: 0 <= a < b < |r| ==> r[a].name != r[b].name
    ensures forall j :: 0 <= j < |fs| ==> fs[j].name in Names(r)
  {
    KeepFirstFrom(fs, 0)
  }

  /** The file that is stored: the re-encoded JPEG above the threshold, the
      file itself otherwise; `encode` gives the JPEG's size. */
  function Process(f: File, encode: File -> nat): (r: File)
    ensures r.name == f.name
    ensures f.size <= CompressAbove ==> r == f
    ensures f.size > CompressAbove ==> r.mime == "image/jpeg" && r.size == encode(f)
  {
    if f.size > CompressAbove then File(f.name, encode(f), "image/jpeg") else f
  }

  function ProcessAll(fs: seq<File>, encode: File -> nat): (r: seq<File>)
    ensures |r| == |fs|
    ensures forall k :: 0 <= k < |fs| ==> r[k] == Process(fs[k], encode)
    ensures Names(r) == Names(fs)
  {
    seq(|fs|, k requires 0 <= k < |fs| => Process(fs[k], encode))
  }

  function Previews(fs: seq<File>, preview: File -> string): (r: seq<string>)
    ensures |r| == |fs|
  {
    seq(|fs|, k requires 0 <= k < |fs| => preview(fs[k]))
  }

  /** `handleImageChange`: the cap is checked on the raw selection, then
      names already chosen reject the whole selection, then repeated names
      within it collapse to their first file. */
  function HandleImageChange(st: Intake, files: seq<File>, encode: File -> nat, preview: File -> string): (r: Intake)
    ensures |files| + |st.images| > MaxImages ==> r == st.(error := TooMany)
    ensures |files| + |st.images| <= MaxImages && Colliding(files, st.images) != [] ==>
      r == st.(error := DuplicateMessage(Colliding(files, st.images)))
    ensures |files| + |st.images| <= MaxImages && Colliding(files, st.images) == [] ==>
      var added := ProcessAll(UniqueFiles(files), encode);
      && r.images == st.images + added
      && r.previews == st.previews + Previews(added, preview)
      && r.error == (if |UniqueFiles(files)| == |files| then "" else RemovedMessage(|files| - |UniqueFiles(files)|))
  {
    if |files| + |st.images| > MaxImages then st.(error := TooMany)
    else
      var dups := Colliding(files, st.images);
      if dups != [] then st.(error := DuplicateMessage(dups))
      else
        var unique := UniqueFiles(files);
        var added := ProcessAll(unique, encode);
        var error := if |unique| == |files| then "" else RemovedMessage(|files| - |unique|);
        Intake(st.images + added, st.previews + Previews(added, preview), error)
  }

  /** `removeImage(index)`: the file and its preview go together. */
  function RemoveImage(st: Intake, index: int): (r: Intake)
    ensures r.images == RemoveAt(st.images, index) && r.previews == RemoveAt(st.previews, index)
    ensures r.error == st.error
  {
    Intake(RemoveAt(st.images, index), RemoveAt(st.previews, index), st.error)
  }

  /** Every admission keeps the picker's invariant. */
  lemma HandleImageChangeValid(st: Intake, files: seq<File>, encode: File -> nat, preview: File -> string)
    requires Valid(st)
    ensures Valid(HandleImageChange(st, files, encode, preview))
  {
    if |files| + |st.images| <= MaxImages && Colliding(files, st.images) == [] {
      var unique := UniqueFiles(files);
      var added := ProcessAll(unique, encode);
      forall k | 0 <= k < |added| ensures added[k].name !in Names(st.images) {
        assert added[k].name == unique[k].name == files[FirstWithName(files, unique[k].name)].name;
      }
      assert DistinctNames(added) by {
        forall a, b | 0 <= a < b < |added| ensures added[a].name != added[b].name {
          assert added[a].name == unique[a].name && added[b].name == unique[b].name;
        }
      }
      AppendDistinct(st.images, added);
    }
  }

  /** Removal keeps the picker's invariant. */
  lemma RemoveImageValid(st: Intake, index: int)
    requires Valid(st)
    ensures Valid(RemoveImage(st, index))
  {
    var r := RemoveImage(st, index);
    if 0 <= index < |st.images| {
      forall a, b | 0 <= a < b < |r.images| ensures r.images[a].name != r.images[b].name {
        var a', b' := if a < index then a else a + 1, if b < index then b else b + 1;
        assert r.images[a] == st.images[a'] && r.images[b] == st.images[b'];
      }
    }
  }

  /** The cap counts the raw selection: three copies of one file are refused
      next to three chosen files, though only one of them would be added. */
  lemma CapBeforeDeduplication(st: Intake, f: File, encode: File -> nat, preview: File -> string)
    requires |st.images| == 3
    ensures HandleImageChange(st, [f, f, f], encode, preview).error == TooMany
    ensures HandleImageChange(st, [f, f, f], encode, preview).images == st.images
  {
  }

  // Submitting

  /** The form: `coordinates` is the `[longitude, latitude]` pair, starting
      at `[0, 0]`. */
  datatype ReportForm = ReportForm(
    title: string, description: string, wasteType: string, severity: string,
    coordinates: (real, real), address: string)

  const InitialForm: ReportForm := ReportForm("", "", "mixed", "medium", (0.0, 0.0), "")

  /** `handleGetLocation`'s success callback: longitude first, as a GeoJSON
      position (section 3.1.1 of RFC 7946). */
  function Locate(form: ReportForm, latitude: real, longitude: real): (r: ReportForm)
    ensures r.coordinates.0 == longitude && r.coordinates.1 == latitude
    ensures r == form.(coordinates := r.coordinates)
  {
    form.(coordinates := (longitude, latitude))
  }

  datatype Value = Text(text: string) | Number(number: real) | Upload(file: File)

  /** One multipart field. */
  datatype Field = Field(key: string, value: Value)

  /** The reply of `POST /api/reports`: the new report's id, or the error
      body's `message` and whether it carried `debug`. */
  datatype PostReply = Created(reportId: string) | Refused(message: Option<string>, debug: bool)

  datatype SubmitOutcome = ShowError(message: string) | Navigate(path: string)

  const NoLocation: string := "Please get your current location first"

  /** The `[0, 0]` starting point still in place. */
  predicate Unlocated(form: ReportForm) {
    form.coordinates.0 == 0.0 && form.coordinates.1 == 0.0
  }

  /** The `FormData` fields, in the order they are appended. */
  function Fields(form: ReportForm, images: seq<File>): (r: seq<Field>)
    ensures |r| >= 7
    ensures r[..7] == [
      Field("title", Text(form.title)), Field("description", Text(form.description)),
      Field("wasteType", Text(form.wasteType)), Field("severity", Text(form.severity)),
      Field("location[type]", Text("Point")),
      Field("location[coordinates][0]", Number(form.coordinates.0)),
      Field("location[coordinates][1]", Number(form.coordinates.1))]
    ensures var n := if form.address != "" then 8 else 7;
      && |r| == n + |images|
      && (form.address != "" ==> r[7] == Field("location[address]", Text(form.address)))
      && forall k :: 0 <= k < |images| ==> r[n + k] == Field("images", Upload(images[k]))
  {
    var head := [
      Field("title", Text(form.title)), Field("description", Text(form.description)),
      Field("wasteType", Text(form.wasteType)), Field("severity", Text(form.severity)),
      Field("location[type]", Text("Point")),
      Field("location[coordinates][0]", Number(form.coordinates.0)),
      Field("location[coordinates][1]", Number(form.coordinates.1))];
    var address := if form.address != "" then [Field("location[address]", Text(form.address))] else [];
    head + address + seq(|images|, k requires 0 <= k < |images| => Field("images", Upload(images[k])))
  }

  /** The message shown for a refused post. */
  function RefusalMessage(message: Option<string>, debug: bool): string {
    var m := if message.Some? && message.value != "" then message.value else "Failed to create report";
    if debug then m + " (Check console for details)" else m
  }

  /** `handleSubmit`: `post` stands for the request. */
  function HandleSubmit(form: ReportForm, images: seq<File>, post: seq<Field> -> PostReply): (r: SubmitOutcome)
    ensures Unlocated(form) ==> r == ShowError(NoLocation)
    ensures !Unlocated(form) ==> (r.Navigate? <==> post(Fields(form, images)).Created?)
    ensures r.Navigate? ==> r.path == "/reports/" + post(Fields(form, images)).reportId
  {
    if Unlocated(form) then ShowError(NoLocation)
    else
      match post(Fields(form, images))
      case Created(id) => Navigate("/reports/" + id)
      case Refused(message, debug) => ShowError(RefusalMessage(message, debug))
  }

  /** Without a location nothing is sent: the outcome is the same whatever
      the server would have answered. */
  lemma UnlocatedSendsNothing(form: ReportForm, images: seq<File>, p: seq<Field> -> PostReply, q: seq<Field> -> PostReply)
    requires Unlocated(form)
    ensures HandleSubmit(form, images, p) == HandleSubmit(form, images, q)
  {
  }

  /** After locating, the submission carries the longitude at index 0 and
      the latitude at index 1, whatever else the form holds. */
  lemma LocatedSubmissionOrder(form: ReportForm, latitude: real, longitude: real, images: seq<File>)
    ensures var fs := Fields(Locate(form, latitude, longitude), images);
      && fs[5] == Field("location[coordinates][0]", Number(longitude))
      && fs[6] == Field("location[coordinates][1]", Number(latitude))
  {
    var fs := Fields(Locate(form, latitude, longitude), images);
    assert fs[5] == fs[..7][5] && fs[6] == fs[..7][6];
  }

  /** The untouched form is refused, as the component test expects. */
  lemma InitialFormRefused(images: seq<File>, post: seq<Field> -> PostReply)
    ensures HandleSubmit(InitialForm, images, post) == ShowError(NoLocation)
  {
  }
}

=== FILE: encoding.dfy ===
/** The byte encodings the mail helper relies on: UTF-8 (what
    `Buffer.from(string)` produces) and the base64 alphabet and padding of
    section 4 of RFC 4648 (what `toString('base64')` produces), each with the
    decoder that inverts it. */
module Encoding {
  import opened Seqs

  type Byte = b: int | 0 <= b < 256

  // UTF-8

  /** The UTF-8 bytes of one Unicode scalar value. */
  function Utf8Char(c: char): (r: seq<Byte>)
    ensures 1 <= |r| <= 4
  {
    var cp := c as int;
    if cp < 0x80 then [cp]
    else if cp < 0x800 then [0xC0 + cp / 64, 0x80 + cp % 64]
    else if cp < 0x10000 then [0xE0 + cp / 4096, 0x80 + (cp / 64) % 64, 0x80 + cp % 64]
    else [0xF0 + cp / 262144, 0x80 + (cp / 4096) % 64, 0x80 + (cp / 64) % 64, 0x80 + cp % 64]
  }

  function Utf8(s: string): (r: seq<Byte>)
    ensures |s| <= |r| <= 4 * |s|
  {
    if |s| == 0 then [] else Utf8Char(s[0]) + Utf8(s[1..])
  }

  lemma Utf8Concat(a: string, b: string)
    ensures Utf8(a + b) == Utf8(a) + Utf8(b)
  {
    if |a| > 0 {
      assert (a + b)[1..] == a[1..] + b;
      Utf8Concat(a[1..], b);
    } else {
      assert a + b == b;
    }
  }

  predicate IsScalar(cp: int) {
    0 <= cp <= 0x10FFFF && !(0xD800 <= cp <= 0xDFFF)
  }

  predicate Continuation(b: Byte) {
    0x80 <= b < 0xC0
  }

  /** Reads one scalar value from the front of `b`: how many bytes it took and
      the character, or `None` for a malformed sequence. */
  function Utf8DecodeOne(b: seq<Byte>): (r: Option<(nat, char)>)
    requires |b| > 0
    ensures r.Some? ==> 1 <= r.value.0 <= |b|
  {
    var b0: int := b[0];
    if b0 < 0x80 then Some((1, b0 as char))
    else if 0xC0 <= b0 < 0xE0 && |b| >= 2 && Continuation(b[1]) then
      var cp: int := (b0 - 0xC0) * 64 + (b[1] as int - 0x80);
      if cp >= 0x80 then Some((2, cp as char)) else None
    else if 0xE0 <= b0 < 0xF0 && |b| >= 3 && Continuation(b[1]) && Continuation(b[2]) then
      var cp: int := (b0 - 0xE0) * 4096 + (b[1] as int - 0x80) * 64 + (b[2] as int - 0x80);
      if cp >= 0x800 && IsScalar(cp) then Some((3, cp as char)) else None
    else if 0xF0 <= b0 < 0xF8 && |b| >= 4 && Continuation(b[1]) && Continuation(b[2]) && Continuation(b[3]) then
      var cp: int := (b0 - 0xF0) * 262144 + (b[1] as int - 0x80) * 4096 + (b[2] as int - 0x80) * 64 + (b[3] as int - 0x80);
      if cp >= 0x10000 && IsScalar(cp) then Some((4, cp as char)) else None
    else None
  }

  function Utf8Decode(b: seq<Byte>): Option<string>
    decreases |b|
  {
    if |b| == 0 then Some("")
    else
      match Utf8DecodeOne(b)
      case None => None
      case Some((n, c)) =>
        match Utf8Decode(b[n..])
        case None => None
        case Some(rest) => Some([c] + rest)
  }

  /** Decoding the front of a character's encoding gives the character back. */
  lemma Utf8CharDecodes(c: char, tail: seq<Byte>)
    ensures Utf8DecodeOne(Utf8Char(c) + tail) == Some((|Utf8Char(c)|, c))
  {
    var cp := c as int;
    if cp < 0x80 {
      assert (Utf8Char(c) + tail)[0] == cp;
    } else if cp < 0x800 {
      DecodesTwo(c, tail);
    } else if cp < 0x10000 {
      DecodesThree(c, tail);
    } else {
      DecodesFour(c, tail);
    }
  }

  lemma DecodesTwo(c: char, tail: seq<Byte>)
    requires 0x80 <= c as int < 0x800
    ensures Utf8DecodeOne(Utf8Char(c) + tail) == Some((2, c))
  {
    var cp := c as int;
    var b := Utf8Char(c) + tail;
    assert b[0] == 0xC0 + cp / 64 && b[1] == 0x80 + cp % 64;
    assert (b[0] as int - 0xC0) * 64 + (b[1] as int - 0x80) == cp;
  }

  lemma DecodesThree(c: char, tail: seq<Byte>)
    requires 0x800 <= c as int < 0x10000
    ensures Utf8DecodeOne(Utf8Char(c) + tail) == Some((3, c))
  {
    var cp := c as int;
    var b := Utf8Char(c) + tail;
    var d0, d1, d2 := cp / 4096, (cp / 64) % 64, cp % 64;
    assert b[0] == 0xE0 + d0 && b[1] == 0x80 + d1 && b[2] == 0x80 + d2;
    assert d0 < 16;
    assert (d0 * 64 + d1) * 64 + d2 == cp;
    assert d0 * 4096 + d1 * 64 + d2 == cp;
  }

  lemma DecodesFour(c: char, tail: seq<Byte>)
    requires 0x10000 <= c as int
    ensures Utf8DecodeOne(Utf8Char(c) + tail) == Some((4, c))
  {
    var cp := c as int;
    var b := Utf8Char(c) + tail;
    var d0, d1, d2, d3 := cp / 262144, (cp / 4096) % 64, (cp / 64) % 64, cp % 64;
    assert b[0] == 0xF0 + d0 && b[1] == 0x80 + d1 && b[2] == 0x80 + d2 && b[3] == 0x80 + d3;
    SixBitGroups(cp);
  }

  /** A code point below 2^21 is its four 6-bit groups, the first below 8. */
  lemma SixBitGroups(cp: nat)
    requires cp < 0x200000
    ensures cp / 262144 < 8
    ensures (cp / 262144) * 262144 + ((cp / 4096) % 64) * 4096 + ((cp / 64) % 64) * 64 + cp % 64 == cp
  {
    var q1 := cp / 64;
    var q2 := q1 / 64;
    var q3 := q2 / 64;
    assert q2 == cp / 4096;
    assert q3 == cp / 262144;
    assert cp == q1 * 64 + cp % 64 && q1 == q2 * 64 + q1 % 64 && q2 == q3 * 64 + q2 % 64;
  }

  /** UTF-8 decoding inverts encoding. */
  lemma {:induction false} Utf8RoundTrip(s: string)
    ensures Utf8Decode(Utf8(s)) == Some(s)
  {
    if |s| > 0 {
      Utf8CharDecodes(s[0], Utf8(s[1..]));
      Utf8RoundTrip(s[1..]);
      var b := Utf8(s);
      assert b[|Utf8Char(s[0])|..] == Utf8(s[1..]);
      assert [s[0]] + s[1..] == s;
    }
  }

  // Base64, section 4 of RFC 4648

  /** The base64 alphabet: `A`-`Z`, `a`-`z`, `0`-`9`, `+`, `/`. */
  function Symbol(v: nat): (c: char)
    requires v < 64
  {
    if v < 26 then ('A' as int + v) as char
    else if v < 52 then ('a' as int + v - 26) as char
    else if v < 62 then ('0' as int + v - 52) as char
    else if v == 62 then '+'
    else '/'
  }

  function SymbolValue(c: char): (r: Option<nat>)
    ensures r.Some? ==> r.value < 64
  {
    if 'A' <= c <= 'Z' then Some(c as nat - 'A' as nat)
    else if 'a' <= c <= 'z' then Some(c as nat - 'a' as nat + 26)
    else if '0' <= c <= '9' then Some(c as nat - '0' as nat + 52)
    else if c == '+' then Some(62)
    else if c == '/' then Some(63)
    else None
  }

  lemma SymbolValueInverts(v: nat)
    requires v < 64
    ensures SymbolValue(Symbol(v)) == Some(v)
    ensures Symbol(v) != '=' && Symbol(v) != '-' && Symbol(v) != '_'
  {
  }

  /** Three bytes as four symbols. */
  function EncodeGroup(b0: Byte, b1: Byte, b2: Byte): (r: string)
    ensures |r| == 4
  {
    [Symbol(b0 / 4), Symbol((b0 % 4) * 16 + b1 / 16), Symbol((b1 % 16) * 4 + b2 / 64), Symbol(b2 % 64)]
  }

  /** A final two bytes as three symbols. */
  function EncodePair(b0: Byte, b1: Byte): (r: string)
    ensures |r| == 3
  {
    [Symbol(b0 / 4), Symbol((b0 % 4) * 16 + b1 / 16), Symbol((b1 % 16) * 4)]
  }

  /** A final single byte as two symbols. */
  function EncodeSingle(b0: Byte): (r: string)
    ensures |r| == 2
  {
    [Symbol(b0 / 4), Symbol((b0 % 4) * 16)]
  }

  /** The symbols of the encoding, before padding: each group of three
      bytes becomes four symbols, a final group of two bytes three symbols
      and a final single byte two. */
  function Base64Symbols(b: seq<Byte>): (r: string)
    ensures |b| > 0 ==> |r| > 0
  {
    if |b| == 0 then ""
    else if |b| == 1 then EncodeSingle(b[0])
    else if |b| == 2 then EncodePair(b[0], b[1])
    else EncodeGroup(b[0], b[1], b[2]) + Base64Symbols(b[3..])
  }

  /** The `=` that fill the last group up to four characters. */
  function Padding(n: nat): (r: string)
    ensures |r| == (3 - n % 3) % 3
    ensures forall i :: 0 <= i < |r| ==> r[i] == '='
  {
    if n % 3 == 1 then "==" else if n % 3 == 2 then "=" else ""
  }

  /** Four symbols per whole group, then two or three for a final partial
      group. */
  lemma {:induction false} SymbolsLength(b: seq<Byte>)
    ensures |Base64Symbols(b)| == (4 * |b| + 2) / 3
  {
    if |b| >= 3 {
      SymbolsLength(b[3..]);
      SymbolsUnfold(b);
    }
  }

  /** The symbols and the padding fill whole groups of four. */
  lemma EncodedLength(n: nat)
    ensures (4 * n + 2) / 3 + (3 - n % 3) % 3 == 4 * ((n + 2) / 3)
  {
    var q, m := n / 3, n % 3;
    assert n == 3 * q + m;
    if m == 0 {
      assert (4 * n + 2) / 3 == 4 * q && (n + 2) / 3 == q;
    } else if m == 1 {
      assert (4 * n + 2) / 3 == 4 * q + 2 && (n + 2) / 3 == q + 1;
    } else {
      assert (4 * n + 2) / 3 == 4 * q + 3 && (n + 2) / 3 == q + 1;
    }
  }

  /** `Buffer#toString('base64')`. */
  function Base64(b: seq<Byte>): (r: string)
    ensures |r| == 4 * ((|b| + 2) / 3)
  {
    SymbolsLength(b);
    EncodedLength(|b|);
    Base64Symbols(b) + Padding(|b|)
  }

  /** Every character before the padding is an alphabet symbol. */
  lemma {:induction false} Base64SymbolsInAlphabet(b: seq<Byte>)
    ensures forall i :: 0 <= i < |Base64Symbols(b)| ==> SymbolValue(Base64Symbols(b)[i]).Some?
  {
    var s := Base64Symbols(b);
    if |b| == 1 {
      SymbolValueInverts(b[0] / 4);
      SymbolValueInverts((b[0] % 4) * 16);
    } else if |b| == 2 {
      SymbolValueInverts(b[0] / 4);
      SymbolValueInverts((b[0] % 4) * 16 + b[1] / 16);
      SymbolValueInverts((b[1] % 16) * 4);
    } else if |b| >= 3 {
      SymbolValueInverts(b[0] / 4);
      SymbolValueInverts((b[0] % 4) * 16 + b[1] / 16);
      SymbolValueInverts((b[1] % 16) * 4 + b[2] / 64);
      SymbolValueInverts(b[2] % 64);
      Base64SymbolsInAlphabet(b[3..]);
      forall i | 4 <= i < |s| ensures SymbolValue(s[i]).Some? {
        assert s[i] == Base64Symbols(b[3..])[i - 4];
      }
    }
  }

  /** Strips every trailing `=`. */
  function StripPadding(s: string): (r: string)
    ensures |r| <= |s| && r == s[..|r|]
    ensures |r| > 0 ==> r[|r| - 1] != '='
    ensures forall i :: |r| <= i < |s| ==> s[i] == '='
  {
    if |s| > 0 && s[|s| - 1] == '=' then StripPadding(s[..|s| - 1]) else s
  }

  lemma {:induction false} StripPadsOff(sy: string, pad: string)
    requires |sy| > 0 ==> sy[|sy| - 1] != '='
    requires forall i :: 0 <= i < |pad| ==> pad[i] == '='
    ensures StripPadding(sy + pad) == sy
  {
    if |pad| == 0 {
      assert sy + pad == sy;
    } else {
      assert (sy + pad)[..|sy + pad| - 1] == sy + pad[..|pad| - 1];
      StripPadsOff(sy, pad[..|pad| - 1]);
    }
  }

  /** Stripping the padding of an encoding leaves exactly its symbols. */
  lemma StripPaddingOfBase64(b: seq<Byte>)
    ensures StripPadding(Base64(b)) == Base64Symbols(b)
  {
    var sy := Base64Symbols(b);
    Base64SymbolsInAlphabet(b);
    if |sy| > 0 {
      assert SymbolValue(sy[|sy| - 1]).Some?;
    }
    StripPadsOff(sy, Padding(|b|));
  }

  function DecodeGroup(c0: nat, c1: nat, c2: nat, c3: nat): seq<Byte>
    requires c0 < 64 && c1 < 64 && c2 < 64 && c3 < 64
  {
    [c0 * 4 + c1 / 16, (c1 % 16) * 16 + c2 / 4, (c2 % 4) * 64 + c3]
  }

  function DecodeQuad(s: string): Option<seq<Byte>>
    requires |s| >= 4
  {
    var v0, v1, v2, v3 := SymbolValue(s[0]), SymbolValue(s[1]), SymbolValue(s[2]), SymbolValue(s[3]);
    if v0.None? || v1.None? || v2.None? || v3.None? then None
    else Some(DecodeGroup(v0.value, v1.value, v2.value, v3.value))
  }

  function DecodeTriple(s: string): Option<seq<Byte>>
    requires |s| == 3
  {
    var v0, v1, v2 := SymbolValue(s[0]), SymbolValue(s[1]), SymbolValue(s[2]);
    if v0.None? || v1.None? || v2.None? then None
    else Some([v0.value * 4 + v1.value / 16, (v1.value % 16) * 16 + v2.value / 4])
  }

  function DecodeDouble(s: string): Option<seq<Byte>>
    requires |s| == 2
  {
    var v0, v1 := SymbolValue(s[0]), SymbolValue(s[1]);
    if v0.None? || v1.None? then None else Some([v0.value * 4 + v1.value / 16])
  }

  /** Decodes the symbols of an unpadded encoding; a lone trailing symbol is
      malformed. */
  function DecodeSymbols(s: string): Option<seq<Byte>>
    decreases |s|
  {
    if |s| == 0 then Some([])
    else if |s| == 1 then None
    else if |s| == 2 then DecodeDouble(s)
    else if |s| == 3 then DecodeTriple(s)
    else
      match DecodeQuad(s)
      case None => None
      case Some(g) =>
        match DecodeSymbols(s[4..])
        case None => None
        case Some(rest) => Some(g + rest)
  }

  /** The base64 decoder: a length that is a multiple of four, at most two
      `=` at the end, alphabet symbols before them. */
  function Base64Decode(s: string): Option<seq<Byte>> {
    var sy := StripPadding(s);
    if |s| % 4 != 0 || |s| - |sy| > 2 then None else DecodeSymbols(sy)
  }

  lemma GroupRoundTrip(b0: Byte, b1: Byte, b2: Byte, tail: string)
    ensures DecodeQuad(EncodeGroup(b0, b1, b2) + tail) == Some([b0, b1, b2])
  {
    var x0: int, x1: int, x2: int := b0, b1, b2;
    var c0: nat, c1: nat, c2: nat, c3: nat := x0 / 4, (x0 % 4) * 16 + x1 / 16, (x1 % 16) * 4 + x2 / 64, x2 % 64;
    SymbolValueInverts(c0);
    SymbolValueInverts(c1);
    SymbolValueInverts(c2);
    SymbolValueInverts(c3);
    GroupArithmetic(x0, x1, x2);
  }

  lemma GroupArithmetic(x0: int, x1: int, x2: int)
    requires 0 <= x0 < 256 && 0 <= x1 < 256 && 0 <= x2 < 256
    ensures DecodeGroup(x0 / 4, (x0 % 4) * 16 + x1 / 16, (x1 % 16) * 4 + x2 / 64, x2 % 64) == [x0, x1, x2]
  {
  }

  lemma PairRoundTrip(b0: Byte, b1: Byte)
    ensures DecodeTriple(EncodePair(b0, b1)) == Some([b0, b1])
  {
    var x0: int, x1: int := b0, b1;
    SymbolValueInverts(x0 / 4);
    SymbolValueInverts((x0 % 4) * 16 + x1 / 16);
    SymbolValueInverts((x1 % 16) * 4);
  }

  lemma SingleRoundTrip(b0: Byte)
    ensures DecodeDouble(EncodeSingle(b0)) == Some([b0])
  {
    var x0: int := b0;
    SymbolValueInverts(x0 / 4);
    SymbolValueInverts((x0 % 4) * 16);
  }

  lemma {:induction false} SymbolsRoundTrip(b: seq<Byte>)
    ensures DecodeSymbols(Base64Symbols(b)) == Some(b)
  {
    if |b| == 1 {
      SingleRoundTrip(b[0]);
      assert b == [b[0]];
    } else if |b| == 2 {
      PairRoundTrip(b[0], b[1]);
      assert b == [b[0], b[1]];
    } else if |b| >= 3 {
      SymbolsRoundTrip(b[3..]);
      SymbolsStep(b);
    }
  }

  /** One group of three bytes in front of a tail that round-trips. */
  lemma SymbolsStep(b: seq<Byte>)
    requires |b| >= 3 && DecodeSymbols(Base64Symbols(b[3..])) == Some(b[3..])
    ensures DecodeSymbols(Base64Symbols(b)) == Some(b)
  {
    var g, tail := EncodeGroup(b[0], b[1], b[2]), Base64Symbols(b[3..]);
    SymbolsUnfold(b);
    GroupRoundTrip(b[0], b[1], b[2], tail);
    DecodeFront(g, tail, [b[0], b[1], b[2]], b[3..]);
    assert b == [b[0], b[1], b[2]] + b[3..];
  }

  lemma SymbolsUnfold(b: seq<Byte>)
    requires |b| >= 3
    ensures Base64Symbols(b) == EncodeGroup(b[0], b[1], b[2]) + Base64Symbols(b[3..])
  {
  }

  /** A decodable quadruple in front of a decodable tail. */
  lemma DecodeFront(g: string, tail: string, x: seq<Byte>, y: seq<Byte>)
    requires |g| == 4 && DecodeQuad(g + tail) == Some(x) && DecodeSymbols(tail) == Some(y)
    ensures DecodeSymbols(g + tail) == Some(x + y)
  {
    assert (g + tail)[4..] == tail;
  }

  /** Base64 decoding inverts encoding. */
  lemma Base64RoundTrip(b: seq<Byte>)
    ensures Base64Decode(Base64(b)) == Some(b)
  {
    var s := Base64(b);
    var sy := Base64Symbols(b);
    StripPaddingOfBase64(b);
    SymbolsRoundTrip(b);
    assert |s| - |sy| == |Padding(|b|)| <= 2;
    MultipleOfFour((|b| + 2) / 3);
  }

  lemma MultipleOfFour(q: nat)
    ensures (4 * q) % 4 == 0
  {
  }
}

=== FILE: files.dfy ===
/** The browser `File` objects the two image pickers handle
    (client/src/pages/CreateReport.jsx and client/src/components/ImageUpload.jsx),
    reduced to what their rules read: the name, the size in bytes and the
    MIME type. Pixel sizes after a resize are real numbers. */
module Files {
  import opened Seqs
  import opened Text

  datatype File = File(name: string, size: nat, mime: string)

  function Names(fs: seq<File>): (r: seq<string>)
    ensures |r| == |fs|
    ensures forall i :: 0 <= i < |fs| ==> r[i] == fs[i].name
  {
    seq(|fs|, i requires 0 <= i < |fs| => fs[i].name)
  }

  /** No two files share a name. */
  predicate DistinctNames(fs: seq<File>) {
    forall a, b :: 0 <= a < b < |fs| ==> fs[a].name != fs[b].name
  }

  /** Appending files whose names are all new keeps the names distinct. */
  lemma AppendDistinct(xs: seq<File>, ys: seq<File>)
    requires DistinctNames(xs) && DistinctNames(ys)
    requires forall k :: 0 <= k < |ys| ==> ys[k].name !in Names(xs)
    ensures DistinctNames(xs + ys)
  {
    var all := xs + ys;
    forall a, b | 0 <= a < b < |all| ensures all[a].name != all[b].name {
      if a < |xs| && b >= |xs| {
        assert Names(xs)[a] == all[a].name;
      }
    }
  }

  /** `file.type.startsWith("image/")`. */
  predicate IsImage(f: File) {
    StartsWith(f.mime, "image/")
  }

  const MiB: nat := 1024 * 1024

  /** Both pickers re-encode a file larger than 2 MiB and keep smaller ones
      as they are. */
  const CompressAbove: nat := 2 * MiB

  /** The longest side a re-encoded image may have, in pixels. */
  const MaxSide: real := 1920.0

  datatype Size = Size(width: real, height: real)

  /** Fits within the bound: neither side is longer than `MaxSide`. */
  predicate Fits(s: Size) {
    s.width <= MaxSide && s.height <= MaxSide
  }

  /** `s` has the proportions of a `width` by `height` image. */
  predicate SameRatio(s: Size, width: nat, height: nat) {
    s.width * height as real == s.height * width as real
  }

  /** `filter((_, i) => i !== index)`: the sequence without position
      `index`; an index outside the sequence removes nothing. */
  function RemoveAt<T>(s: seq<T>, index: int): (r: seq<T>)
    ensures 0 <= index < |s| ==> r == s[..index] + s[index + 1..]
    ensures !(0 <= index < |s|) ==> r == s
  {
    if |s| == 0 then []
    else
      var rest := RemoveAt(s[1..], index - 1);
      assert s == [s[0]] + s[1..];
      if index == 0 then rest else [s[0]] + rest
  }
}

=== FILE: gmail.dfy ===
/** server/config/gmail.js: the sender header built from the environment,
    the RFC 2047 encoded-word subject, the plain-text message assembly and
    the base64url rewrite of section 5 of RFC 4648 applied before sending.
    The OAuth client and the HTTP call are reduced to a `deliver` parameter. */
module Gmail {
  import opened Seqs
  import opened Text
  import opened Encoding

  // The sender

  /** JavaScript truthiness of an environment variable. */
  predicate Set(v: Option<string>) {
    v.Some? && v.value != ""
  }

  /** `EMAIL_FROM || EMAIL_USER`. */
  function RawSender(emailFrom: Option<string>, emailUser: Option<string>): (r: Option<string>)
    ensures Set(emailFrom) ==> r == emailFrom
    ensures !Set(emailFrom) ==> r == emailUser
  {
    if Set(emailFrom) then emailFrom else emailUser
  }

  /** The first position at or after `from` holding `c`. */
  function IndexFrom(s: string, c: char, from: nat): (r: Option<nat>)
    ensures r.Some? ==> from <= r.value < |s| && s[r.value] == c
    ensures r.Some? ==> forall k :: from <= k < r.value ==> s[k] != c
    ensures r.None? ==> forall k :: from <= k < |s| ==> s[k] != c
    decreases |s| - from
  {
    if from >= |s| then None
    else if s[from] == c then Some(from)
    else IndexFrom(s, c, from + 1)
  }

  /** `/<([^>]+)>/` can match starting at position `i`: a `<`, at least one
      character other than `>`, then a `>` somewhere after. */
  predicate Opens(s: string, i: int) {
    0 <= i && i + 1 < |s| && s[i] == '<' && s[i + 1] != '>'
    && exists k :: i + 1 < k < |s| && s[k] == '>'
  }

  /** The match at `i` captures `a`: `<`, then `a`, which is not empty and
      holds no `>`, then `>`. */
  predicate Encloses(s: string, i: int, a: string) {
    0 <= i && i + |a| + 1 < |s| && a != "" && '>' !in a
    && s[i] == '<' && s[i + 1..i + 1 + |a|] == a && s[i + 1 + |a|] == '>'
  }

  /** The leftmost match at or after `i`: its position and its capture. */
  function MatchFrom(s: string, i: nat): (r: Option<(nat, string)>)
    ensures r.Some? ==> i <= r.value.0 && Opens(s, r.value.0) && Encloses(s, r.value.0, r.value.1)
    ensures r.Some? ==> forall j :: i <= j < r.value.0 ==> !Opens(s, j)
    ensures r.None? ==> forall j :: i <= j ==> !Opens(s, j)
    decreases |s| - i
  {
    if i >= |s| then None
    else
      var close := IndexFrom(s, '>', i + 1);
      if s[i] == '<' && close.Some? && close.value > i + 1 then
        assert s[i + 1..close.value][..] == s[i + 1..close.value];
        Some((i, s[i + 1..close.value]))
      else MatchFrom(s, i + 1)
  }

  /** `rawFrom.match(/<([^>]+)>/)`. */
  function AngleMatch(s: string): (r: Option<(nat, string)>)
    ensures r.Some? ==> Encloses(s, r.value.0, r.value.1) && forall j :: 0 <= j < r.value.0 ==> !Opens(s, j)
    ensures r.None? ==> forall j :: 0 <= j < |s| ==> !Opens(s, j)
  {
    MatchFrom(s, 0)
  }

  /** The sender's address: the first capture when the regular expression
      matches, else the trimmed raw value, and "" when neither variable is
      set. */
  function EmailAddress(raw: Option<string>): (a: string)
    ensures !Set(raw) ==> a == ""
    ensures Set(raw) && AngleMatch(raw.value).Some? ==> a == AngleMatch(raw.value).value.1
    ensures Set(raw) && AngleMatch(raw.value).None? ==> a == Trim(raw.value)
  {
    if !Set(raw) then ""
    else
      match AngleMatch(raw.value)
      case Some((_, capture)) => capture
      case None => Trim(raw.value)
  }

  const DisplayName: string := "\"Reviwa\" <"

  /** The header value: the fixed display name around the address. */
  function FromHeader(address: string): (r: string)
    ensures StartsWith(r, DisplayName)
    ensures |r| == |address| + 11 && r[|r| - 1] == '>'
    ensures r[10..|r| - 1] == address
  {
    DisplayName + address + ">"
  }

  /** `EMAIL_FROM` as exported. */
  function EmailFrom(emailFrom: Option<string>, emailUser: Option<string>): string {
    FromHeader(EmailAddress(RawSender(emailFrom, emailUser)))
  }

  lemma {:induction false} SkipToOpen(s: string, i: nat, j: nat)
    requires i <= j
    requires forall k :: i <= k < j && k < |s| ==> s[k] != '<'
    ensures MatchFrom(s, i) == MatchFrom(s, j)
    decreases j - i
  {
    if i < j && i < |s| {
      SkipToOpen(s, i + 1, j);
    } else if i < j {
      assert MatchFrom(s, i) == None == MatchFrom(s, j);
    }
  }

  /** Reading the address back out of a header finds the address, whenever
      it is not empty and holds no `>`. */
  lemma AddressOfHeader(address: string)
    requires address != "" && '>' !in address
    ensures AngleMatch(FromHeader(address)) == Some((9, address))
  {
    var s := FromHeader(address);
    var close := 10 + |address|;
    assert s[9] == '<';
    SkipToOpen(s, 0, 9);
    forall k | 10 <= k < close ensures s[k] != '>' {
      assert s[k] == address[k - 10];
    }
    assert s[close] == '>';
    assert s[10..close] == address;
  }

  /** Feeding the exported header back in as `EMAIL_FROM` reproduces it
      whenever the first one came from an angle-bracket match. */
  lemma EmailFromStable(emailFrom: Option<string>, emailUser: Option<string>)
    requires Set(RawSender(emailFrom, emailUser)) && AngleMatch(RawSender(emailFrom, emailUser).value).Some?
    ensures EmailFrom(Some(EmailFrom(emailFrom, emailUser)), emailUser) == EmailFrom(emailFrom, emailUser)
  {
    var a := EmailAddress(RawSender(emailFrom, emailUser));
    AddressOfHeader(a);
  }

  /** A bare address in `EMAIL_USER`, with no display name, is used as it
      is once trimmed. */
  lemma BareAddressTrimmed(emailUser: string)
    requires emailUser != "" && '<' !in emailUser
    ensures EmailFrom(None, Some(emailUser)) == FromHeader(Trim(emailUser))
  {
    assert forall j :: 0 <= j < |emailUser| ==> !Opens(emailUser, j);
  }

  // The subject

  const WordPrefix: string := "=?utf-8?B?"
  const WordSuffix: string := "?="

  /** The encoded-word of section 2 of RFC 2047: charset `utf-8`, encoding
      `B`, the base64 of the subject's UTF-8 bytes. */
  function EncodedWord(subject: string): (r: string)
    ensures StartsWith(r, WordPrefix)
    ensures |r| == |WordPrefix| + |Base64(Utf8(subject))| + |WordSuffix|
    ensures r[|r| - 2..] == WordSuffix
  {
    WordPrefix + Base64(Utf8(subject)) + WordSuffix
  }

  /** A mail reader's decoding of such an encoded word. */
  function DecodeWord(w: string): Option<string> {
    if |w| < |WordPrefix| + |WordSuffix| || w[..|WordPrefix|] != WordPrefix || w[|w| - 2..] != WordSuffix then None
    else
      match Base64Decode(w[|WordPrefix|..|w| - 2])
      case None => None
      case Some(bytes) => Utf8Decode(bytes)
  }

  /** Decoding the encoded word gives the subject back. */
  lemma EncodedWordRoundTrip(subject: string)
    ensures DecodeWord(EncodedWord(subject)) == Some(subject)
  {
    var w := EncodedWord(subject);
    var b := Base64(Utf8(subject));
    assert w[|WordPrefix|..|w| - 2] == b;
    Base64RoundTrip(Utf8(subject));
    Utf8RoundTrip(subject);
  }

  /** Base64 text never holds a line break. */
  lemma Base64OneLine(b: seq<Byte>)
    ensures '\n' !in Base64(b)
  {
    Base64SymbolsInAlphabet(b);
    var s := Base64(b);
    var sy := Base64Symbols(b);
    forall i | 0 <= i < |s| ensures s[i] != '\n' {
      if i < |sy| {
        assert SymbolValue(sy[i]).Some?;
      }
    }
  }

  lemma EncodedWordOneLine(subject: string)
    ensures '\n' !in EncodedWord(subject)
  {
    Base64OneLine(Utf8(subject));
  }

  // The message

  /** The lines of the message before the body: the four headers, the
      MIME version and the blank separator line. */
  function HeaderLines(from: string, to: string, subject: string): (r: seq<string>)
    ensures |r| == 6 && r[5] == ""
  {
    ["From: " + from, "To: " + to, "Subject: " + EncodedWord(subject),
     "Content-Type: text/html; charset=utf-8", "MIME-Version: 1.0", ""]
  }

  /** `messageParts.join('\n')`. */
  function Message(from: string, to: string, subject: string, html: string): string {
    Join(HeaderLines(from, to, subject) + [html], "\n")
  }

  /** Splitting the message at line breaks gives the five header lines, the
      blank line and then the lines of the body, as long as the sender and
      recipient are one line each. */
  lemma MessageLines(from: string, to: string, subject: string, html: string)
    requires '\n' !in from && '\n' !in to
    ensures var lines := Split(Message(from, to, subject, html), '\n');
      && |lines| >= 7
      && lines[..6] == HeaderLines(from, to, subject)
      && lines[6..] == Split(html, '\n')
  {
    var hs := HeaderLines(from, to, subject);
    HeadersOneLine(from, to, subject);
    assert "\n" == ['\n'];
    SplitJoinThen(hs, html, '\n');
    var lines := hs + Split(html, '\n');
    assert lines[..6] == hs && lines[6..] == Split(html, '\n');
  }

  /** No header line holds a line break. */
  lemma HeadersOneLine(from: string, to: string, subject: string)
    requires '\n' !in from && '\n' !in to
    ensures forall k :: 0 <= k < 6 ==> '\n' !in HeaderLines(from, to, subject)[k]
  {
    var hs := HeaderLines(from, to, subject);
    EncodedWordOneLine(subject);
    LabelsOneLine();
    FixedHeadersOneLine();
    assert hs[0] == "From: " + from;
    assert hs[1] == "To: " + to;
    assert hs[2] == "Subject: " + EncodedWord(subject);
  }

  lemma LabelsOneLine()
    ensures '\n' !in "From: " && '\n' !in "To: " && '\n' !in "Subject: "
  {
  }

  lemma FixedHeadersOneLine()
    ensures '\n' !in "Content-Type: text/html; charset=utf-8" && '\n' !in "MIME-Version: 1.0"
  {
  }

  // The base64url rewrite

  function UrlChar(c: char): char {
    if c == '+' then '-' else if c == '/' then '_' else c
  }

  function StdChar(c: char): char {
    if c == '-' then '+' else if c == '_' then '/' else c
  }

  /** `.replace(/\+/g, '-').replace(/\//g, '_')`. */
  function ToUrlAlphabet(s: string): (r: string)
    ensures |r| == |s|
    ensures forall i :: 0 <= i < |s| ==> r[i] == UrlChar(s[i])
  {
    if |s| == 0 then "" else [UrlChar(s[0])] + ToUrlAlphabet(s[1..])
  }

  /** The rewrite followed by `.replace(/=+$/, '')`. */
  function UrlSafe(s: string): (r: string)
    ensures '+' !in r && '/' !in r
    ensures |r| > 0 ==> r[|r| - 1] != '='
    ensures |r| <= |s|
  {
    StripPadding(ToUrlAlphabet(s))
  }

  /** The receiving side: back to the standard alphabet, padding restored to
      a multiple of four. */
  function FromUrlSafe(u: string): (r: string)
    ensures |r| % 4 == 0
  {
    var t := seq(|u|, i requires 0 <= i < |u| => StdChar(u[i]));
    t + Padding4((4 - |u| % 4) % 4)
  }

  function Padding4(n: nat): (r: string)
    ensures |r| == n && forall i :: 0 <= i < n ==> r[i] == '='
  {
    if n == 0 then "" else "=" + Padding4(n - 1)
  }

  lemma PaddingLengths(n: nat, len: nat)
    requires len == (4 * n + 2) / 3
    ensures (4 - len % 4) % 4 == (3 - n % 3) % 3
  {
    var q, m := n / 3, n % 3;
    assert n == 3 * q + m;
    if m == 0 {
      assert (4 * n + 2) / 3 == 4 * q;
    } else if m == 1 {
      assert (4 * n + 2) / 3 == 4 * q + 2;
    } else {
      assert (4 * n + 2) / 3 == 4 * q + 3;
    }
  }

  /** Restoring the padding from the length adds back as many `=` as the
      encoder wrote. */
  lemma PadCount(b: seq<Byte>)
    ensures (4 - |Base64Symbols(b)| % 4) % 4 == |Padding(|b|)|
  {
    SymbolsLength(b);
    PaddingLengths(|b|, |Base64Symbols(b)|);
  }

  lemma SamePadding(p: string, q: string)
    requires |p| == |q|
    requires forall i :: 0 <= i < |p| ==> p[i] == '='
    requires forall i :: 0 <= i < |q| ==> q[i] == '='
    ensures p == q
  {
  }

  /** The url-safe form of an encoding is its symbols in the url alphabet:
      the padding goes and nothing else does. */
  lemma UrlSafeOfBase64(b: seq<Byte>)
    ensures UrlSafe(Base64(b)) == ToUrlAlphabet(Base64Symbols(b))
  {
    var sy := Base64Symbols(b);
    var pad := Padding(|b|);
    Base64SymbolsInAlphabet(b);
    var usy := ToUrlAlphabet(sy);
    assert ToUrlAlphabet(sy + pad) == usy + pad;
    if |usy| > 0 {
      assert SymbolValue(sy[|sy| - 1]).Some?;
    }
    StripPadsOff(usy, pad);
  }

  lemma FromUrlOfSymbols(b: seq<Byte>)
    ensures FromUrlSafe(ToUrlAlphabet(Base64Symbols(b))) == Base64(b)
  {
    var sy := Base64Symbols(b);
    var u := ToUrlAlphabet(sy);
    Base64SymbolsInAlphabet(b);
    forall i | 0 <= i < |sy| ensures StdChar(UrlChar(sy[i])) == sy[i] {
      assert SymbolValue(sy[i]).Some?;
    }
    var t := seq(|u|, i requires 0 <= i < |u| => StdChar(u[i]));
    assert t == sy;
    PadCount(b);
    SamePadding(Padding4((4 - |u| % 4) % 4), Padding(|b|));
  }

  /** Rewriting an encoding to base64url and back restores it exactly. */
  lemma UrlSafeRoundTrip(b: seq<Byte>)
    ensures FromUrlSafe(UrlSafe(Base64(b))) == Base64(b)
  {
    UrlSafeOfBase64(b);
    FromUrlOfSymbols(b);
  }

  /** The `raw` field of the request: the message's UTF-8 bytes in base64url. */
  function Raw(message: string): string {
    UrlSafe(Base64(Utf8(message)))
  }

  /** Decoding `raw` on the receiving side gives the message back. */
  lemma RawRoundTrip(message: string)
    ensures var b := Base64Decode(FromUrlSafe(Raw(message)));
      b.Some? && Utf8Decode(b.value) == Some(message)
  {
    UrlSafeRoundTrip(Utf8(message));
    Base64RoundTrip(Utf8(message));
    Utf8RoundTrip(message);
  }

  datatype SendResult = Sent(messageId: string) | Failed

  /** `sendGmail`: the API call is `deliver`, which answers the new message's
      id or fails; any failure is caught and reported. */
  function SendGmail(from: string, to: string, subject: string, html: string,
                     deliver: string -> Option<string>): (r: SendResult)
    ensures r.Sent? <==> deliver(Raw(Message(from, to, subject, html))).Some?
    ensures r.Sent? ==> deliver(Raw(Message(from, to, subject, html))) == Some(r.messageId)
  {
    match deliver(Raw(Message(from, to, subject, html)))
    case Some(id) => Sent(id)
    case None => Failed
  }
}

=== FILE: image_upload.dfy ===
/** client/src/components/ImageUpload.jsx: `validateFile`, the admission
    loop of `handleFiles`, `removeImage` with its progress entry, and the
    resize arithmetic of `compressImage`. Ids (`Date.now() + Math.random()`)
    and the encoder's output size are parameters; the timers that animate
    the progress entry are left out, so a finished upload leaves the progress
    map as it found it. */
module ImageUpload {
  import opened Seqs
  import opened Text
  import opened Files
  import CreateReport

  /** `compressImage`: the width leads when it is the strictly longer side
      and above 1920, otherwise the height does when it is above 1920.
      Though their conditions are written differently, this picker and the
      report form's give every image the same size (in exact arithmetic). */
  function FitUpload(width: nat, height: nat): (r: Size)
    ensures Fits(r)
    ensures SameRatio(r, width, height)
    ensures width as real <= MaxSide && height as real <= MaxSide ==> r == Size(width as real, height as real)
    ensures (width as real > MaxSide || height as real > MaxSide) ==>
      (if width > height then r.width == MaxSide else r.height == MaxSide)
    ensures r == CreateReport.FitWithin(width, height)
  {
    var w, h := width as real, height as real;
    var r := if w > h && w > MaxSide then Size(MaxSide, (h * MaxSide) / w)
      else if h > MaxSide then Size((w * MaxSide) / h, MaxSide)
      else Size(w, h);
    assert r == CreateReport.FitWithin(width, height) by {
      if w > h && w > MaxSide {
        ScaledSide(h, w);
      } else if h > MaxSide {
        ScaledSide(w, h);
      }
    }
    r
  }

  lemma ScaledSide(a: real, b: real)
    requires b > 0.0
    ensures (a * MaxSide) / b == (a / b) * MaxSide
  {
  }

  const NotAnImage: string := "Only image files are allowed"

  function TooLarge(maxSizeMB: nat): string {
    "File size must be less than " + NatToString(maxSizeMB) + "MB"
  }

  /** `validateFile`: the type check first, then the size bound of
      `maxSizeMB` mebibytes; `None` is `null`, no error. */
  function ValidateFile(f: File, maxSizeMB: nat): (r: Option<string>)
    ensures r.None? <==> IsImage(f) && f.size <= maxSizeMB * MiB
    ensures !IsImage(f) ==> r == Some(NotAnImage)
    ensures IsImage(f) && f.size > maxSizeMB * MiB ==> r == Some(TooLarge(maxSizeMB))
  {
    if !IsImage(f) then Some(NotAnImage)
    else if f.size > maxSizeMB * MiB then Some(TooLarge(maxSizeMB))
    else None
  }

  /** An admitted image: `size` is the stored file's, `originalSize` the
      chosen file's. */
  datatype Uploaded = Uploaded(id: int, name: string, size: nat, originalSize: nat, mime: string)

  datatype Upload = Upload(images: seq<Uploaded>, alerts: seq<string>)

  function TooManyAlert(maxImages: nat): string {
    "Maximum " + NatToString(maxImages) + " images allowed"
  }

  /** The record for the `k`-th admitted file; `compress` is the encoder's
      output size. */
  function Record(f: File, id: int, compress: File -> nat): (r: Uploaded)
    ensures r.name == f.name && r.originalSize == f.size && r.mime == f.mime && r.id == id
    ensures r.size == (if f.size > CompressAbove then compress(f) else f.size)
  {
    Uploaded(id, f.name, if f.size > CompressAbove then compress(f) else f.size, f.size, f.mime)
  }

  function Records(fs: seq<File>, newId: nat -> int, compress: File -> nat): (r: seq<Uploaded>)
    ensures |r| == |fs|
    ensures forall k :: 0 <= k < |fs| ==> r[k] == Record(fs[k], newId(k), compress)
  {
    seq(|fs|, k requires 0 <= k < |fs| => Record(fs[k], newId(k), compress))
  }

  function AlertFor(f: File, maxSizeMB: nat): string
    requires ValidateFile(f, maxSizeMB).Some?
  {
    f.name + ": " + ValidateFile(f, maxSizeMB).value
  }

  function Alerts(fs: seq<File>, maxSizeMB: nat): (r: seq<string>)
    requires forall k :: 0 <= k < |fs| ==> ValidateFile(fs[k], maxSizeMB).Some?
    ensures |r| == |fs|
  {
    seq(|fs|, k requires 0 <= k < |fs| => AlertFor(fs[k], maxSizeMB))
  }

  predicate Valid(maxSizeMB: nat, f: File) {
    ValidateFile(f, maxSizeMB).None?
  }

  function Admits(maxSizeMB: nat): File -> bool {
    f => Valid(maxSizeMB, f)
  }

  function Rejects(maxSizeMB: nat): File -> bool {
    f => !Valid(maxSizeMB, f)
  }

  lemma RecordsSnoc(fs: seq<File>, f: File, newId: nat -> int, compress: File -> nat)
    ensures Records(fs + [f], newId, compress) == Records(fs, newId, compress) + [Record(f, newId(|fs|), compress)]
  {
  }

  lemma AlertsSnoc(fs: seq<File>, f: File, maxSizeMB: nat)
    requires forall k :: 0 <= k < |fs| ==> ValidateFile(fs[k], maxSizeMB).Some?
    requires ValidateFile(f, maxSizeMB).Some?
    ensures Alerts(fs + [f], maxSizeMB) == Alerts(fs, maxSizeMB) + [AlertFor(f, maxSizeMB)]
  {
    var l, r := Alerts(fs + [f], maxSizeMB), Alerts(fs, maxSizeMB) + [AlertFor(f, maxSizeMB)];
    assert forall k :: 0 <= k < |l| ==> l[k] == r[k];
  }

  /** One more file: it joins exactly one of the two filtered lists. */
  lemma FilterStep(done: seq<File>, f: File, maxSizeMB: nat)
    ensures Filter(done + [f], Admits(maxSizeMB)) == Filter(done, Admits(maxSizeMB)) + (if Valid(maxSizeMB, f) then [f] else [])
    ensures Filter(done + [f], Rejects(maxSizeMB)) == Filter(done, Rejects(maxSizeMB)) + (if Valid(maxSizeMB, f) then [] else [f])
  {
    FilterConcat(done, [f], Admits(maxSizeMB));
    FilterConcat(done, [f], Rejects(maxSizeMB));
    assert Filter([f], Admits(maxSizeMB)) == (if Valid(maxSizeMB, f) then [f] else []) + Filter([f][1..], Admits(maxSizeMB));
    assert Filter([f], Rejects(maxSizeMB)) == (if Valid(maxSizeMB, f) then [] else [f]) + Filter([f][1..], Rejects(maxSizeMB));
  }

  /** The loop of `handleFiles` over the image files, in order. */
  method Admit(imageFiles: seq<File>, maxSizeMB: nat, compress: File -> nat, newId: nat -> int)
    returns (added: seq<Uploaded>, alerts: seq<string>)
    ensures added == Records(Filter(imageFiles, Admits(maxSizeMB)), newId, compress)
    ensures alerts == Alerts(Filter(imageFiles, Rejects(maxSizeMB)), maxSizeMB)
  {
    var ok, bad := Admits(maxSizeMB), Rejects(maxSizeMB);
    added, alerts := [], [];
    var i := 0;
    while i < |imageFiles|
      invariant 0 <= i <= |imageFiles|
      invariant added == Records(Filter(imageFiles[..i], ok), newId, compress)
      invariant alerts == Alerts(Filter(imageFiles[..i], bad), maxSizeMB)
    {
      var f := imageFiles[i];
      FilterStep(imageFiles[..i], f, maxSizeMB);
      assert imageFiles[..i + 1] == imageFiles[..i] + [f];
      var validation := ValidateFile(f, maxSizeMB);
      if validation.Some? {
        AlertsSnoc(Filter(imageFiles[..i], bad), f, maxSizeMB);
        alerts := alerts + [f.name + ": " + validation.value];
      } else {
        RecordsSnoc(Filter(imageFiles[..i], ok), f, newId, compress);
        added := added + [Record(f, newId(|added|), compress)];
      }
      i := i + 1;
    }
    assert imageFiles[..i] == imageFiles;
  }

  /** `handleFiles`: non-images are dropped silently, the cap is checked on
      the images that remain, and then each image either fails validation
      (an alert, and the loop goes on) or is stored in order. */
  method HandleFiles(images: seq<Uploaded>, files: seq<File>, maxImages: nat, maxSizeMB: nat,
                     compress: File -> nat, newId: nat -> int) returns (r: Upload)
    ensures |images| + |Filter(files, IsImage)| > maxImages ==> r == Upload(images, [TooManyAlert(maxImages)])
    ensures |images| + |Filter(files, IsImage)| <= maxImages ==>
      var imageFiles := Filter(files, IsImage);
      var admitted := Filter(imageFiles, Admits(maxSizeMB));
      && r.images == images + Records(admitted, newId, compress)
      && r.alerts == Alerts(Filter(imageFiles, Rejects(maxSizeMB)), maxSizeMB)
    ensures |images| <= maxImages ==> |r.images| <= maxImages
  {
    var imageFiles := Filter(files, IsImage);
    if |images| + |imageFiles| > maxImages {
      return Upload(images, [TooManyAlert(maxImages)]);
    }
    var added, alerts := Admit(imageFiles, maxSizeMB, compress, newId);
    r := Upload(images + added, alerts);
  }

  /** A drop on the zone as written: `handleDrop` is memoised once, at mount
      (`useCallback` with no dependencies), so it runs the `handleFiles` of
      the first render. Its cap check reads `mounted`, the images held then,
      while the store goes through the functional update and so appends to
      `current`, the images held now. */
  function DropAsWritten(mounted: seq<Uploaded>, current: seq<Uploaded>, files: seq<File>, maxImages: nat,
                         maxSizeMB: nat, compress: File -> nat, newId: nat -> int): (r: Upload)
    ensures |r.images| >= |current| && r.images[..|current|] == current
    ensures |mounted| + |Filter(files, IsImage)| > maxImages ==> r == Upload(current, [TooManyAlert(maxImages)])
    ensures |mounted| + |Filter(files, IsImage)| <= maxImages ==>
      |r.images| == |current| + |Filter(Filter(files, IsImage), Admits(maxSizeMB))|
    ensures |mounted| == |current| <= maxImages ==> |r.images| <= maxImages
  {
    var imageFiles := Filter(files, IsImage);
    if |mounted| + |imageFiles| > maxImages then Upload(current, [TooManyAlert(maxImages)])
    else
      var admitted := Filter(imageFiles, Admits(maxSizeMB));
      var r := Upload(current + Records(admitted, newId, compress), Alerts(Filter(imageFiles, Rejects(maxSizeMB)), maxSizeMB));
      assert r.images[..|current|] == current;
      r
  }

  /** Once images have been added since mount, a drop that fits the
      mount-time count is stored in full, whatever the cap. */
  lemma DropCanExceedCap(mounted: seq<Uploaded>, current: seq<Uploaded>, files: seq<File>, maxImages: nat,
                         maxSizeMB: nat, compress: File -> nat, newId: nat -> int)
    requires |mounted| + |Filter(files, IsImage)| <= maxImages
    requires |current| + |Filter(Filter(files, IsImage), Admits(maxSizeMB))| > maxImages
    ensures |DropAsWritten(mounted, current, files, maxImages, maxSizeMB, compress, newId).images| > maxImages
  {
  }

  /** Five images picked through the input since an empty mount, then one
      valid image dropped: six are held under a cap of five. */
  lemma DropExceedsCapExample(compress: File -> nat, newId: nat -> int)
    ensures var current := seq(5, k => Uploaded(k, "p.png", 1, 1, "image/png"));
      |DropAsWritten([], current, [File("d.png", 1, "image/png")], 5, 5, compress, newId).images| == 6
  {
    var f := File("d.png", 1, "image/png");
    assert f.mime[..6] == "image/";
    assert [f][1..] == [];
    assert Filter([f], IsImage) == [f];
    assert Filter([f], Admits(5)) == [f];
  }

  /** Five images at mount, all removed since, then two valid images
      dropped: the drop is refused though nothing is held. */
  lemma DropRefusedWithRoomExample(compress: File -> nat, newId: nat -> int)
    ensures var mounted := seq(5, k => Uploaded(k, "p.png", 1, 1, "image/png"));
      var files := [File("d.png", 1, "image/png"), File("e.png", 1, "image/png")];
      DropAsWritten(mounted, [], files, 5, 5, compress, newId) == Upload([], [TooManyAlert(5)])
  {
    var f, g := File("d.png", 1, "image/png"), File("e.png", 1, "image/png");
    assert f.mime[..6] == "image/" && g.mime[..6] == "image/";
    assert [f, g][1..] == [g] && [g][1..] == [];
    assert Filter([g], IsImage) == [g];
    assert Filter([f, g], IsImage) == [f, g];
  }

  /** The drop as intended: the handler follows `handleFiles` (a dependency
      on it), so the check and the store both read the images held now, and
      the cap is kept. It is the drop as written whenever nothing changed
      since mount. */
  method HandleDrop(images: seq<Uploaded>, files: seq<File>, maxImages: nat, maxSizeMB: nat,
                    compress: File -> nat, newId: nat -> int) returns (r: Upload)
    ensures |images| + |Filter(files, IsImage)| > maxImages ==> r == Upload(images, [TooManyAlert(maxImages)])
    ensures |images| <= maxImages ==> |r.images| <= maxImages
    ensures r == DropAsWritten(images, images, files, maxImages, maxSizeMB, compress, newId)
  {
    r := HandleFiles(images, files, maxImages, maxSizeMB, compress, newId);
  }

  /** `removeImage(id)`: every image with that id goes, the others stay in
      order, and the id's progress entry is dropped. */
  function RemoveImage(images: seq<Uploaded>, progress: map<int, nat>, id: int): (r: (seq<Uploaded>, map<int, nat>))
    ensures forall k :: 0 <= k < |r.0| ==> r.0[k].id != id
    ensures forall x: Uploaded :: x.id != id ==> multiset(r.0)[x] == multiset(images)[x]
    ensures id !in r.1 && forall k :: k != id ==> (k in r.1 <==> k in progress)
    ensures forall k :: k in r.1 ==> r.1[k] == progress[k]
  {
    var keep := (img: Uploaded) => img.id != id;
    FilterMultiset(images, keep);
    (Filter(images, keep), progress - {id})
  }

  /** Order is kept: removing from a concatenation removes from each part,
      and one image is kept or removed on its own. */
  lemma RemoveImageKeepsOrder(a: seq<Uploaded>, b: seq<Uploaded>, x: Uploaded, progress: map<int, nat>, id: int)
    ensures RemoveImage(a + b, progress, id).0 == RemoveImage(a, progress, id).0 + RemoveImage(b, progress, id).0
    ensures RemoveImage([x], progress, id).0 == if x.id != id then [x] else []
  {
    FilterConcat(a, b, (img: Uploaded) => img.id != id);
    assert [x][1..] == [];
  }
}

=== FILE: landing.dfy ===
/** client/src/pages/LandingPage.jsx: the community strip of the hero
    section, the initials of the top five users, and the member count with
    its thousands abbreviation, including the fallback shown when loading
    fails. The two requests are parameters. */
module Landing {
  import opened Seqs
  import opened Text
  import opened Ranking

  predicate NoEmptyPart(parts: seq<string>) {
    forall k :: 0 <= k < |parts| ==> parts[k] != ""
  }

  /** The upper-cased first character of every part. */
  function Firsts(parts: seq<string>): (r: string)
    requires NoEmptyPart(parts)
    ensures |r| == |parts|
    ensures forall k :: 0 <= k < |parts| ==> r[k] == UpperChar(parts[k][0])
  {
    seq(|parts|, k requires 0 <= k < |parts| => UpperChar(parts[k][0]))
  }

  /** `name.split(" ").map((n) => n[0].toUpperCase()).join("")`. A part that
      is empty (an empty name, a doubled, leading or trailing space) has no
      first character, and the call throws: `None`. */
  function Initials(name: string): (r: Option<string>)
    ensures r.Some? <==> NoEmptyPart(Split(name, ' '))
    ensures r.Some? ==> |r.value| == |Split(name, ' ')|
    ensures r.Some? ==> forall k :: 0 <= k < |r.value| ==> r.value[k] == UpperChar(Split(name, ' ')[k][0])
  {
    var parts := Split(name, ' ');
    if NoEmptyPart(parts) then Some(Firsts(parts)) else None
  }

  /** For a name made of non-empty words joined by single spaces, the
      initials are the words' first letters, one per word. */
  lemma InitialsOfWords(words: seq<string>)
    requires |words| >= 1
    requires forall k :: 0 <= k < |words| ==> words[k] != "" && ' ' !in words[k]
    ensures Initials(Join(words, " ")) == Some(Firsts(words))
  {
    SplitJoin(words, ' ');
    assert " " == [' '];
  }

  /** Every user's initials, or `None` when one of them throws. */
  function AllInitials(names: seq<string>): (r: Option<seq<string>>)
    ensures r.Some? <==> forall k :: 0 <= k < |names| ==> Initials(names[k]).Some?
    ensures r.Some? ==> |r.value| == |names|
    ensures r.Some? ==> forall k :: 0 <= k < |names| ==> Some(r.value[k]) == Initials(names[k])
  {
    if |names| == 0 then Some([])
    else
      match (Initials(names[0]), AllInitials(names[1..]))
      case (Some(first), Some(rest)) =>
        var r := [first] + rest;
        assert forall k :: 1 <= k < |names| ==> names[k] == names[1..][k - 1];
        Some(r)
      case (None, _) => None
      case (_, None) =>
        assert exists k :: 1 <= k < |names| && Initials(names[1..][k - 1]).None? && names[1..][k - 1] == names[k];
        None
  }

  /** A request's outcome: its value, or a failure of any kind (a network
      error, or a reply without the expected fields). */
  datatype Fetch<T> = Ok(value: T) | Fail

  datatype Members = Members(initials: seq<string>, total: int)

  const Fallback: Members := Members(["S", "M", "A", "J", "K"], 12000)

  /** `fetchUserInitials`: the leaderboard's names, then the stats' user
      count, read with `|| users.length`; any failure on the way, a throwing
      initial included, ends on the fallback. */
  function FetchMembers(leaderboard: Fetch<seq<string>>, totalUsers: Fetch<Option<int>>): (r: Members)
    ensures leaderboard.Fail? || totalUsers.Fail? ==> r == Fallback
    ensures leaderboard.Ok? && AllInitials(leaderboard.value).None? ==> r == Fallback
    ensures leaderboard.Ok? && totalUsers.Ok? && AllInitials(leaderboard.value).Some? ==>
      && |r.initials| == |leaderboard.value|
      && (forall k :: 0 <= k < |r.initials| ==> Some(r.initials[k]) == Initials(leaderboard.value[k]))
      && r.total == (if totalUsers.value.Some? && totalUsers.value.value != 0 then totalUsers.value.value else |leaderboard.value|)
  {
    if leaderboard.Fail? then Fallback
    else
      match AllInitials(leaderboard.value)
      case None => Fallback
      case Some(initials) =>
        if totalUsers.Fail? then Fallback
        else
          var stated := totalUsers.value;
          Members(initials, if stated.Some? && stated.value != 0 then stated.value else |leaderboard.value|)
  }

  /** `userInitials.slice(0, 5)`: the avatars drawn. */
  function Avatars(m: Members): (r: seq<string>)
    ensures |r| == Min(5, |m.initials|)
    ensures r == m.initials[..|r|]
  {
    Take(m.initials, 5)
  }

  /** The count as the page prints it: above 1000, whole thousands and "K";
      otherwise the number itself. */
  function CountLabel(n: int): (r: string)
    ensures |r| >= 1
    ensures n > 1000 ==> |r| >= 2 && r[|r| - 1] == 'K'
    ensures !(n > 1000) ==> r == IntToString(n)
  {
    if n > 1000 then NatToString(n / 1000) + "K" else IntToString(n)
  }

  /** Above 1000 the label's digits are the thousands, rounded down:
      1999 reads "1K" and exactly 1000 reads "1000". */
  lemma CountLabelThousands(n: int)
    requires n > 1000
    ensures var d := CountLabel(n)[..|CountLabel(n)| - 1];
      (forall i :: 0 <= i < |d| ==> '0' <= d[i] <= '9') && Digits(d) * 1000 <= n < (Digits(d) + 1) * 1000
  {
    var d := CountLabel(n)[..|CountLabel(n)| - 1];
    assert d == NatToString(n / 1000);
    NatToStringDigits(n / 1000);
  }

  /** A count up to 1000 is printed in full. */
  lemma CountLabelSmall(n: nat)
    requires n <= 1000
    ensures Digits(CountLabel(n)) == n
  {
    NatToStringDigits(n);
  }

  /** The badge, "+1K", and the caption, "Join 1K+ members". */
  function Badge(n: int): string {
    "+" + CountLabel(n)
  }

  function Caption(n: int): string {
    "Join " + CountLabel(n) + "+ members"
  }
}

=== FILE: make_admin.dfy ===
/** server/scripts/makeAdmin.js: promote the account with a given e-mail
    address to admin. Connecting, printing and `process.exit` are reduced to
    the exit code, the collection afterwards and the accounts listed. The
    schema validation `user.save()` runs is the parameter `accepts`; a
    rejected save lands in the `catch`, which exits 1. */
module MakeAdmin {
  import opened Seqs
  import opened Text
  import opened Accounts

  datatype Run = Run(exitCode: int, accounts: seq<Account>, listed: seq<Account>)

  /** `findOne({ email: email.toLowerCase() })`. */
  function FindByEmail(accounts: seq<Account>, email: string): (r: Option<nat>)
    ensures r.Some? ==> r.value < |accounts| && accounts[r.value].email == ToLower(email)
    ensures r.None? ==> forall j :: 0 <= j < |accounts| ==> accounts[j].email != ToLower(email)
  {
    FindFirst(accounts, (a: Account) => a.email == ToLower(email))
  }

  /** `makeAdmin(process.argv[2])`. */
  function MakeAdmin(accounts: seq<Account>, arg: Option<string>, accepts: Account -> bool): (r: Run)
    ensures arg.None? || arg == Some("") ==> r == Run(0, accounts, accounts)
    ensures arg.Some? && arg.value != "" ==> r.listed == []
    ensures r.exitCode == 1 <==>
      && arg.Some? && arg.value != ""
      && match FindByEmail(accounts, arg.value)
         case None => true
         case Some(i) => accounts[i].role != "admin" && !accepts(accounts[i].(role := "admin"))
    ensures r.exitCode == 1 ==> r.accounts == accounts
    ensures r.exitCode in {0, 1}
    ensures |r.accounts| == |accounts|
    ensures forall j :: 0 <= j < |accounts| ==> r.accounts[j] == accounts[j] || r.accounts[j] == accounts[j].(role := "admin")
    ensures r.accounts != accounts ==>
      && arg.Some? && arg.value != "" && FindByEmail(accounts, arg.value).Some?
      && var i := FindByEmail(accounts, arg.value).value;
         && accounts[i].role != "admin"
         && r.accounts == accounts[i := accounts[i].(role := "admin")]
  {
    if arg.None? || arg.value == "" then Run(0, accounts, accounts)
    else
      match FindByEmail(accounts, arg.value)
      case None => Run(1, accounts, [])
      case Some(i) =>
        if accounts[i].role == "admin" then Run(0, accounts, [])
        else
          var promoted := accounts[i].(role := "admin");
          if accepts(promoted) then Run(0, accounts[i := promoted], []) else Run(1, accounts, [])
  }

  /** Changing roles leaves every e-mail lookup where it was. */
  lemma {:induction false} FindFirstIgnoresRoles(a: seq<Account>, b: seq<Account>, email: string)
    requires |a| == |b|
    requires forall j :: 0 <= j < |a| ==> b[j].email == a[j].email
    ensures FindByEmail(b, email) == FindByEmail(a, email)
  {
    if |a| > 0 {
      FindFirstIgnoresRoles(a[1..], b[1..], email);
    }
  }

  /** Running the script twice with the same argument is running it once. */
  lemma MakeAdminIdempotent(accounts: seq<Account>, arg: Option<string>, accepts: Account -> bool)
    ensures var once := MakeAdmin(accounts, arg, accepts);
      MakeAdmin(once.accounts, arg, accepts).accounts == once.accounts
  {
    var once := MakeAdmin(accounts, arg, accepts);
    if arg.Some? && arg.value != "" {
      FindFirstIgnoresRoles(accounts, once.accounts, arg.value);
    }
  }

  /** With an address that exists, the run succeeds exactly when the account
      already is an admin or its promotion passes validation, and after a
      successful run that account is an admin; after a failed one nothing
      changed. */
  lemma MakeAdminPromotes(accounts: seq<Account>, email: string, accepts: Account -> bool)
    requires email != ""
    requires FindByEmail(accounts, email).Some?
    ensures var i, r := FindByEmail(accounts, email).value, MakeAdmin(accounts, Some(email), accepts);
      && (r.exitCode == 0 <==> accounts[i].role == "admin" || accepts(accounts[i].(role := "admin")))
      && (r.exitCode == 0 ==> r.accounts[i].role == "admin")
      && (r.exitCode == 1 ==> r.accounts == accounts)
  {
  }
}

=== FILE: notifications.dfy ===
/** client/src/components/NotificationCenter.jsx: the achievement toasts
    (`showAchievement`, `removeNotification`) and the numbers of the
    `QuickStats` panel. The toast timers are left out; the time a toast is
    raised is a parameter. */
module Notifications {
  import opened Seqs
  import opened Percent
  import opened ClientReports

  datatype Achievement = Achievement(id: int, title: string, points: nat)

  /** `sampleAchievements`, in order. */
  const Catalogue: seq<Achievement> := [
    Achievement(1, "First Report", 10),
    Achievement(2, "Environmental Warrior", 25),
    Achievement(3, "Photo Evidence Pro", 15),
    Achievement(4, "Community Helper", 50),
    Achievement(5, "Location Detective", 20)]

  /** `sampleAchievements.find((a) => a.id === id)`. */
  function FindAchievement(id: int): (r: Option<Achievement>)
    ensures r.Some? <==> 1 <= id <= 5
    ensures r.Some? ==> r.value in Catalogue && r.value.id == id
  {
    if 1 <= id <= 5 then Some(Catalogue[id - 1]) else None
  }

  datatype Notification = Notification(achievement: Achievement, timestamp: int)

  predicate Showing(ns: seq<Notification>, id: int) {
    exists k :: 0 <= k < |ns| && ns[k].achievement.id == id
  }

  /** `showAchievement`: an unknown id or one already on screen changes
      nothing; otherwise the achievement is appended, stamped with `now`. */
  function ShowAchievement(ns: seq<Notification>, id: int, now: int): (r: seq<Notification>)
    ensures FindAchievement(id).None? ==> r == ns
    ensures Showing(ns, id) ==> r == ns
    ensures FindAchievement(id).Some? && !Showing(ns, id) ==>
      && |r| == |ns| + 1 && r[..|ns|] == ns
      && r[|ns|].achievement.id == id && r[|ns|].achievement in Catalogue && r[|ns|].timestamp == now
  {
    var found := FindAchievement(id);
    if found.Some? && !Showing(ns, id) then ns + [Notification(found.value, now)] else ns
  }

  /** Raising the same achievement twice is raising it once. */
  lemma ShowAchievementIdempotent(ns: seq<Notification>, id: int, t1: int, t2: int)
    ensures ShowAchievement(ShowAchievement(ns, id, t1), id, t2) == ShowAchievement(ns, id, t1)
  {
    var once := ShowAchievement(ns, id, t1);
    if FindAchievement(id).Some? && !Showing(ns, id) {
      assert once[|ns|].achievement.id == id;
      assert Showing(once, id);
    }
  }

  /** `removeNotification(id)`: every toast with that id goes, the others
      stay, each as often as before. */
  function RemoveNotification(ns: seq<Notification>, id: int): (r: seq<Notification>)
    ensures !Showing(r, id)
    ensures forall n: Notification :: n.achievement.id != id ==> multiset(r)[n] == multiset(ns)[n]
    ensures !Showing(ns, id) ==> r == ns
  {
    var keep := (n: Notification) => n.achievement.id != id;
    FilterMultiset(ns, keep);
    if !Showing(ns, id) then
      FilterAll(ns, keep);
      Filter(ns, keep)
    else Filter(ns, keep)
  }

  /** Order is kept: removing from a concatenation removes from each part,
      and one toast is kept or removed on its own. */
  lemma RemoveNotificationKeepsOrder(a: seq<Notification>, b: seq<Notification>, x: Notification, id: int)
    ensures RemoveNotification(a + b, id) == RemoveNotification(a, id) + RemoveNotification(b, id)
    ensures RemoveNotification([x], id) == if x.achievement.id != id then [x] else []
  {
    FilterConcat(a, b, (n: Notification) => n.achievement.id != id);
    assert [x][1..] == [];
  }

  /** Closing a toast that was just raised restores the list. */
  lemma RemoveUndoesShow(ns: seq<Notification>, id: int, now: int)
    requires !Showing(ns, id)
    ensures RemoveNotification(ShowAchievement(ns, id, now), id) == ns
  {
    var keep := (n: Notification) => n.achievement.id != id;
    var shown := ShowAchievement(ns, id, now);
    if shown != ns {
      assert shown == ns + [shown[|ns|]];
      FilterConcat(ns, [shown[|ns|]], keep);
      FilterAll(ns, keep);
      assert Filter([shown[|ns|]], keep) == [] + Filter([shown[|ns|]][1..], keep);
    }
  }

  /** The fields of `user` the panel reads; `None` for a missing field. */
  datatype StatsUser = StatsUser(id: Option<string>, greenPoints: Option<int>, currentStreak: Option<int>)

  datatype Stats = Stats(submitted: nat, resolved: nat, greenPoints: int, streak: int, completionRate: int, progressWidth: real)

  function UserId(user: Option<StatsUser>): Option<string> {
    if user.Some? then user.value.id else None
  }

  /** `r.submitted_by === user?.id`: with no id on either side, `undefined`
      equals `undefined`. */
  predicate Mine(user: Option<StatsUser>, r: Report) {
    r.submittedBy == UserId(user)
  }

  /** `x || 0` on a number: a missing value and 0 both give 0. */
  function OrZero(x: Option<int>): (r: int)
    ensures x.Some? ==> r == x.value
    ensures x.None? ==> r == 0
  {
    if x.Some? then x.value else 0
  }

  function ProgressWidth(submitted: nat): (w: real)
    ensures 0.0 <= w <= 100.0
    ensures submitted >= 5 ==> w == 100.0
    ensures submitted < 5 ==> w == submitted as real / 5.0 * 100.0
  {
    var w := submitted as real / 5.0 * 100.0;
    if w < 100.0 then w else 100.0
  }

  /** The `QuickStats` panel: the user's submitted and resolved reports, the
      success rate (0 before the first report), and the bar toward the
      five-report achievement. */
  function QuickStats(user: Option<StatsUser>, reports: seq<Report>): (r: Stats)
    ensures r.submitted == Count(reports, (x: Report) => Mine(user, x))
    ensures r.resolved == Count(reports, (x: Report) => x.status == "resolved" && Mine(user, x))
    ensures r.resolved <= r.submitted
    ensures 0 <= r.completionRate <= 100
    ensures r.submitted == 0 ==> r.completionRate == 0
    ensures r.submitted > 0 ==>
      r.completionRate as real - 0.5 <= 100.0 * r.resolved as real / r.submitted as real < r.completionRate as real + 0.5
    ensures r.progressWidth <= 100.0
  {
    var mine := (x: Report) => Mine(user, x);
    var resolvedMine := (x: Report) => x.status == "resolved" && Mine(user, x);
    var submitted := Count(reports, mine);
    var resolved := Count(reports, resolvedMine);
    CountMonotone(reports, resolvedMine, mine);
    var rate := if submitted > 0 then RoundPercent(resolved, submitted) else 0;
    var u := if user.Some? then user.value else StatsUser(None, None, None);
    Stats(submitted, resolved, OrZero(u.greenPoints), OrZero(u.currentStreak), rate, ProgressWidth(submitted))
  }
}

=== FILE: percent.dfy ===
/** The completion rates of the report list and of the user's stats:
    `Math.round(part / whole * 100)`, taken in exact arithmetic. */
module Percent {

  /** `Math.round` of `100 * part / whole`: the nearest integer, a half
      rounding up. */
  function RoundPercent(part: nat, whole: nat): (r: int)
    requires whole > 0
    ensures r as real - 0.5 <= 100.0 * part as real / whole as real < r as real + 0.5
    ensures part <= whole ==> 0 <= r <= 100
  {
    var r := (200 * part + whole) / (2 * whole);
    NearestBounds(200 * part + whole, 2 * whole, r);
    Halves(part, whole, r);
    if part <= whole then
      Below(200 * part + whole, 2 * whole, 101);
      r
    else r
  }

  lemma NearestBounds(a: nat, b: nat, q: int)
    requires b > 0 && q == a / b
    ensures b * q <= a < b * (q + 1)
  {
  }

  lemma Below(a: nat, b: nat, k: nat)
    requires b > 0 && a < b * k
    ensures a / b < k
  {
  }

  lemma Cancel(c: real, a: real, b: real)
    requires c > 0.0
    ensures c * a <= c * b ==> a <= b
    ensures c * a < c * b ==> a < b
  {
  }

  lemma MulCast(a: int, b: int)
    ensures (a * b) as real == a as real * b as real
  {
  }

  /** The integer bounds, cast to reals. */
  lemma RealBounds(part: nat, whole: nat, r: int)
    requires 2 * whole * r <= 200 * part + whole < 2 * whole * (r + 1)
    ensures var w, p, q := whole as real, part as real, r as real;
      2.0 * w * q <= 200.0 * p + w < 2.0 * w * (q + 1.0)
  {
    MulCast(2 * whole, r);
    MulCast(2 * whole, r + 1);
    MulCast(200, part);
  }

  /** The integer bounds of the division, read as bounds on the real
      quotient. */
  lemma Halves(part: nat, whole: nat, r: int)
    requires whole > 0
    requires 2 * whole * r <= 200 * part + whole < 2 * whole * (r + 1)
    ensures r as real - 0.5 <= 100.0 * part as real / whole as real < r as real + 0.5
  {
    var w, p, q := whole as real, part as real, r as real;
    RealBounds(part, whole, r);
    var x := 100.0 * p / w;
    assert x * w == 100.0 * p;
    assert 200.0 * p + w == (2.0 * w) * (x + 0.5);
    Squeeze(2.0 * w, q, x + 0.5, 200.0 * p + w);
  }

  /** Bounds on `c * y` with `c > 0` are bounds on `y`. */
  lemma Squeeze(c: real, q: real, y: real, m: real)
    requires c > 0.0 && c * q <= m < c * (q + 1.0) && m == c * y
    ensures q <= y < q + 1.0
  {
    Cancel(c, q, y);
    Cancel(c, y, q + 1.0);
  }

  /** The two ends of the scale. */
  lemma RoundPercentEnds(whole: nat)
    requires whole > 0
    ensures RoundPercent(0, whole) == 0
    ensures RoundPercent(whole, whole) == 100
  {
    var w := whole as real;
    assert 100.0 * whole as real / w == 100.0;
  }
}

=== FILE: ranking.dfy ===
/** Ordering helpers: a stable insertion sort under a comparator, the
    "top N" selection a MongoDB `.sort({field: -1}).limit(n)` query performs,
    and MongoDB's reading of the limit argument. */
module Ranking {

  function Min(a: int, b: int): int {
    if a <= b then a else b
  }

  /** A comparator usable by a sort: every two elements are comparable and
      the relation is transitive. `le(a, b)` means `a` may precede `b`. */
  ghost predicate TotalPreorder<T(!new)>(le: (T, T) -> bool) {
    && (forall a, b :: le(a, b) || le(b, a))
    && (forall a, b, c :: le(a, b) && le(b, c) ==> le(a, c))
  }

  ghost predicate SortedBy<T>(s: seq<T>, le: (T, T) -> bool) {
    forall i, j :: 0 <= i < j < |s| ==> le(s[i], s[j])
  }

  /** Places `x` before the first element it may precede. */
  function Insert<T>(x: T, s: seq<T>, le: (T, T) -> bool): (r: seq<T>)
    ensures multiset(r) == multiset(s) + multiset{x}
    ensures |r| == |s| + 1
  {
    if |s| == 0 then [x]
    else if le(x, s[0]) then [x] + s
    else
      assert s == [s[0]] + s[1..];
      [s[0]] + Insert(x, s[1..], le)
  }

  /** Insertion sort: each element goes in front of the later elements it
      ties with, so equal elements keep their input order (the sort is
      stable, as `Array.prototype.sort` is: `SortByStable`). */
  function SortBy<T>(s: seq<T>, le: (T, T) -> bool): (r: seq<T>)
    ensures multiset(r) == multiset(s)
    ensures |r| == |s|
  {
    if |s| == 0 then []
    else
      assert s == [s[0]] + s[1..];
      Insert(s[0], SortBy(s[1..], le), le)
  }

  lemma {:induction false} InsertSorted<T(!new)>(x: T, s: seq<T>, le: (T, T) -> bool)
    requires TotalPreorder(le)
    requires SortedBy(s, le)
    ensures SortedBy(Insert(x, s, le), le)
  {
    if |s| == 0 {
    } else if le(x, s[0]) {
      var r := [x] + s;
      forall i, j | 0 <= i < j < |r|
        ensures le(r[i], r[j])
      {
        if i == 0 && j > 1 {
          assert le(s[0], s[j - 1]);
        }
      }
    } else {
      assert le(s[0], x);
      var tail := s[1..];
      InsertSorted(x, tail, le);
      var t := Insert(x, tail, le);
      forall k | 0 <= k < |t|
        ensures le(s[0], t[k])
      {
        assert t[k] in multiset(t);
        if t[k] != x {
          assert t[k] in multiset(tail);
          var m :| 0 <= m < |tail| && tail[m] == t[k];
          assert tail[m] == s[m + 1];
        }
      }
      var r := [s[0]] + t;
      forall i, j | 0 <= i < j < |r|
        ensures le(r[i], r[j])
      {
        if i > 0 {
          assert r[i] == t[i - 1] && r[j] == t[j - 1];
        }
      }
    }
  }

  /** The sort orders its output under any total preorder. */
  lemma {:induction false} SortBySorted<T(!new)>(s: seq<T>, le: (T, T) -> bool)
    requires TotalPreorder(le)
    ensures SortedBy(SortBy(s, le), le)
  {
    if |s| > 0 {
      SortBySorted(s[1..], le);
      InsertSorted(s[0], SortBy(s[1..], le), le);
    }
  }

  /** A comparator that ties everything (`return 0`) leaves the order as it is. */
  lemma {:induction false} SortByAllTies<T>(s: seq<T>, le: (T, T) -> bool)
    requires forall a, b :: le(a, b)
    ensures SortBy(s, le) == s
  {
    if |s| > 0 {
      SortByAllTies(s[1..], le);
      assert s == [s[0]] + s[1..];
    }
  }

  /** The elements of `s` that tie with `a` under `le`, in their order. */
  function TiedWith<T>(s: seq<T>, le: (T, T) -> bool, a: T): seq<T> {
    if |s| == 0 then []
    else (if le(s[0], a) && le(a, s[0]) then [s[0]] else []) + TiedWith(s[1..], le, a)
  }

  /** `x`, when it ties with `a`, may precede every element `a` may
      precede. */
  predicate ReachesPast<T>(x: T, s: seq<T>, le: (T, T) -> bool, a: T) {
    forall k :: 0 <= k < |s| ==> (le(x, a) && le(a, s[k]) ==> le(x, s[k]))
  }

  lemma TransitiveReaches<T(!new)>(x: T, s: seq<T>, le: (T, T) -> bool, a: T)
    requires TotalPreorder(le)
    ensures ReachesPast(x, s, le, a)
  {
    forall k | 0 <= k < |s| && le(x, a) && le(a, s[k]) ensures le(x, s[k]) {
    }
  }

  function TieHead<T>(y: T, le: (T, T) -> bool, a: T): seq<T> {
    if le(y, a) && le(a, y) then [y] else []
  }

  lemma TiedWithCons<T>(y: T, t: seq<T>, le: (T, T) -> bool, a: T)
    ensures TiedWith([y] + t, le, a) == TieHead(y, le, a) + TiedWith(t, le, a)
  {
    assert ([y] + t)[0] == y && ([y] + t)[1..] == t;
  }

  lemma InsertFront<T>(x: T, s: seq<T>, le: (T, T) -> bool)
    requires |s| > 0 && le(x, s[0])
    ensures Insert(x, s, le) == [x] + s
  {
  }

  lemma InsertPast<T>(x: T, s: seq<T>, le: (T, T) -> bool)
    requires |s| > 0 && !le(x, s[0])
    ensures Insert(x, s, le) == [s[0]] + Insert(x, s[1..], le)
  {
  }

  /** Passing over an element that does not tie with `a` while `x` does
      (or passing over anything while `x` does not) keeps the ties in
      order. */
  lemma PastStep<T>(x: T, y: T, rest: seq<T>, inserted: seq<T>, le: (T, T) -> bool, a: T)
    requires TiedWith(inserted, le, a) == TieHead(x, le, a) + TiedWith(rest, le, a)
    requires TieHead(x, le, a) == [] || TieHead(y, le, a) == []
    ensures TiedWith([y] + inserted, le, a) == TieHead(x, le, a) + TiedWith([y] + rest, le, a)
  {
    var hx, hy := TieHead(x, le, a), TieHead(y, le, a);
    var t := TiedWith(rest, le, a);
    TiedWithCons(y, inserted, le, a);
    TiedWithCons(y, rest, le, a);
    if hx == [] {
      assert hx + t == t;
      assert hx + (hy + t) == hy + t;
    } else {
      assert hy + (hx + t) == hx + t;
      assert hy + t == t;
    }
  }

  /** Inserting `x` puts it in front of every element it ties with: no
      element that ties with `x` is passed over. */
  lemma {:induction false} InsertKeepsTies<T>(x: T, s: seq<T>, le: (T, T) -> bool, a: T)
    requires ReachesPast(x, s, le, a)
    ensures TiedWith(Insert(x, s, le), le, a) == TieHead(x, le, a) + TiedWith(s, le, a)
  {
    if |s| == 0 {
      TiedWithCons(x, [], le, a);
      assert [x] + [] == [x];
    } else if le(x, s[0]) {
      InsertFront(x, s, le);
      TiedWithCons(x, s, le, a);
    } else {
      var rest := s[1..];
      assert ReachesPast(x, rest, le, a) by {
        forall k | 0 <= k < |rest| ensures (le(x, a) && le(a, rest[k]) ==> le(x, rest[k])) {
          assert rest[k] == s[k + 1];
        }
      }
      InsertKeepsTies(x, rest, le, a);
      InsertPast(x, s, le);
      assert le(x, a) ==> !le(a, s[0]);
      PastStep(x, s[0], rest, Insert(x, rest, le), le, a);
      assert [s[0]] + rest == s;
    }
  }

  /** The sort is stable: the elements that tie with any given one come out
      in the order they went in. */
  lemma {:induction false} SortByStable<T(!new)>(s: seq<T>, le: (T, T) -> bool, a: T)
    requires TotalPreorder(le)
    ensures TiedWith(SortBy(s, le), le, a) == TiedWith(s, le, a)
  {
    if |s| > 0 {
      SortByStable(s[1..], le, a);
      TransitiveReaches(s[0], SortBy(s[1..], le), le, a);
      InsertKeepsTies(s[0], SortBy(s[1..], le), le, a);
    }
  }

  function Take<T>(s: seq<T>, n: nat): (r: seq<T>)
    ensures |r| == Min(n, |s|)
  {
    if n >= |s| then s else s[..n]
  }

  /** What a correct "top n" answer is: as many elements as asked for (or all
      of them), drawn from the input, in order, and no element left out may
      precede one that was kept. Ties are left open. */
  ghost predicate IsTopN<T>(s: seq<T>, out: seq<T>, n: nat, le: (T, T) -> bool) {
    && |out| == Min(n, |s|)
    && multiset(out) <= multiset(s)
    && SortedBy(out, le)
    && forall y, x :: y in multiset(s) - multiset(out) && x in out ==> le(x, y)
  }

  function TopBy<T>(s: seq<T>, le: (T, T) -> bool, n: nat): seq<T> {
    Take(SortBy(s, le), n)
  }

  /** Cutting a sorted sequence after n elements keeps a correct top n. */
  lemma SortedPrefixIsTopN<T>(sorted: seq<T>, n: nat, le: (T, T) -> bool)
    requires SortedBy(sorted, le)
    ensures IsTopN(sorted, Take(sorted, n), n, le)
  {
    if n < |sorted| {
      var out := sorted[..n];
      var rest := sorted[n..];
      assert sorted == out + rest;
      assert multiset(sorted) == multiset(out) + multiset(rest);
      assert multiset(sorted) - multiset(out) == multiset(rest);
      forall y, x | y in multiset(sorted) - multiset(out) && x in out
        ensures le(x, y)
      {
        var jy :| 0 <= jy < |rest| && rest[jy] == y;
        var ix :| 0 <= ix < |out| && out[ix] == x;
        assert sorted[ix] == x && sorted[n + jy] == y;
      }
    }
  }

  lemma TopByIsTopN<T(!new)>(s: seq<T>, le: (T, T) -> bool, n: nat)
    requires TotalPreorder(le)
    ensures IsTopN(s, TopBy(s, le, n), n, le)
  {
    SortBySorted(s, le);
    SortedPrefixIsTopN(SortBy(s, le), n, le);
  }

  /** Descending order of a numeric key, MongoDB's `sort({key: -1})`. */
  function ByKeyDesc<T>(key: T -> int): (T, T) -> bool {
    (a: T, b: T) => key(a) >= key(b)
  }

  lemma ByKeyDescIsTotalPreorder<T(!new)>(key: T -> int)
    ensures TotalPreorder(ByKeyDesc(key))
  {
  }

  /** The elements whose key is `k`, in their order. */
  function WithKey<T>(s: seq<T>, key: T -> int, k: int): seq<T> {
    if |s| == 0 then []
    else (if key(s[0]) == k then [s[0]] else []) + WithKey(s[1..], key, k)
  }

  /** Under a descending key order, tying with `a` is having `a`'s key. */
  lemma {:induction false} TiedIsSameKey<T>(s: seq<T>, key: T -> int, a: T)
    ensures TiedWith(s, ByKeyDesc(key), a) == WithKey(s, key, key(a))
  {
    if |s| > 0 {
      TiedIsSameKey(s[1..], key, a);
      assert ByKeyDesc(key)(s[0], a) && ByKeyDesc(key)(a, s[0]) <==> key(s[0]) == key(a);
    }
  }

  /** Sorting by a descending key keeps the elements that share a key in
      their input order. */
  lemma SortByKeyStable<T(!new)>(s: seq<T>, key: T -> int, a: T)
    ensures WithKey(SortBy(s, ByKeyDesc(key)), key, key(a)) == WithKey(s, key, key(a))
  {
    ByKeyDescIsTotalPreorder(key);
    SortByStable(s, ByKeyDesc(key), a);
    TiedIsSameKey(s, key, a);
    TiedIsSameKey(SortBy(s, ByKeyDesc(key)), key, a);
  }

  lemma TopByKeyIsTopN<T(!new)>(s: seq<T>, key: T -> int, n: nat)
    ensures IsTopN(s, TopBy(s, ByKeyDesc(key), n), n, ByKeyDesc(key))
  {
    ByKeyDescIsTotalPreorder(key);
    TopByIsTopN(s, ByKeyDesc(key), n);
  }

  lemma TopByKeySorted<T(!new)>(s: seq<T>, key: T -> int, n: nat)
    ensures var r := TopBy(s, ByKeyDesc(key), n);
      forall i, j :: 0 <= i < j < |r| ==> key(r[i]) >= key(r[j])
  {
    TopByKeyIsTopN(s, key, n);
  }

  lemma TopByKeyDominates<T(!new)>(s: seq<T>, key: T -> int, n: nat)
    ensures var r := TopBy(s, ByKeyDesc(key), n);
      forall y, x :: y in multiset(s) - multiset(r) && x in r ==> key(x) >= key(y)
  {
    var r := TopBy(s, ByKeyDesc(key), n);
    TopByKeyIsTopN(s, key, n);
    forall y, x | y in multiset(s) - multiset(r) && x in r ensures key(x) >= key(y) {
      assert ByKeyDesc(key)(x, y);
    }
  }

  /** `find().sort({key: -1}).limit(n)`: the n elements with the largest keys,
      largest first; which of several tied elements survives is not fixed. */
  function TopByKey<T(!new)>(s: seq<T>, key: T -> int, n: nat): (r: seq<T>)
    ensures |r| == Min(n, |s|)
    ensures multiset(r) <= multiset(s)
    ensures forall i, j :: 0 <= i < j < |r| ==> key(r[i]) >= key(r[j])
    ensures forall y, x :: y in multiset(s) - multiset(r) && x in r ==> key(x) >= key(y)
  {
    TopByKeySorted(s, key, n);
    TopByKeyDominates(s, key, n);
    assert multiset(TopBy(s, ByKeyDesc(key), n)) <= multiset(s) by {
      TopByKeyIsTopN(s, key, n);
    }
    TopBy(s, ByKeyDesc(key), n)
  }

  /** How MongoDB reads `.limit(k)`: 0 means no limit and a negative limit
      returns as many documents as its absolute value. */
  function LimitCount(k: int, available: nat): (n: nat)
    ensures k == 0 ==> n == available
    ensures k != 0 ==> n == (if k < 0 then -k else k)
  {
    if k == 0 then available else if k < 0 then -k else k
  }
}

=== FILE: register_form.dfy ===
/** client/src/components/Register.jsx: the interest check-boxes, the two
    password checks made before anything is sent, and the body sent to
    `register` in server/controllers/auth.js, which is modelled by
    `AuthController`. The auth context's `register` call is a parameter. */
module RegisterForm {
  import opened Seqs
  import opened Text
  import opened AuthRoutes
  import opened AuthController
  import opened UserModel

  datatype Form = Form(
    name: string, email: string, password: string, confirmPassword: string,
    role: string, city: string, state: string, interests: seq<string>)

  const InitialForm: Form := Form("", "", "", "", "user", "", "", [])

  /** `handleChange` on an interest check-box: checking appends the value,
      unchecking removes every copy of it and leaves the rest. */
  function ToggleInterest(interests: seq<string>, value: string, checked: bool): (r: seq<string>)
    ensures checked ==> |r| == |interests| + 1 && r[..|interests|] == interests && r[|interests|] == value
    ensures !checked ==> value !in r
    ensures !checked ==> forall x :: x != value ==> multiset(r)[x] == multiset(interests)[x]
  {
    if checked then interests + [value]
    else
      var keep := (x: string) => x != value;
      FilterMultiset(interests, keep);
      FilterMembers(interests, keep);
      Filter(interests, keep)
  }

  /** Unchecking a box just checked restores the list, when the value was
      not already in it. */
  lemma UncheckUndoesCheck(interests: seq<string>, value: string)
    requires value !in interests
    ensures ToggleInterest(ToggleInterest(interests, value, true), value, false) == interests
  {
    var keep := (x: string) => x != value;
    FilterConcat(interests, [value], keep);
    FilterAll(interests, keep);
    assert Filter([value], keep) == [] + Filter([value][1..], keep);
  }

  /** The nested `location` object of the request body. */
  datatype Place = Place(city: string, state: string)

  /** The request body: `confirmPassword` is never part of it. */
  datatype Payload = Payload(
    name: string, email: string, password: string, role: string,
    location: Option<Place>, city: Option<string>, state: Option<string>,
    interests: seq<string>)

  /** What `register` on the server reads from a body: it destructures
      `name`, `email`, `password`, `role`, `bio`, `city` and `state`, and
      nothing else. */
  function ServerReads(p: Payload): (r: RegisterRequest)
    ensures r.name == Some(p.name) && r.email == Some(p.email) && r.password == Some(p.password)
    ensures r.role == Some(p.role) && r.bio.None?
    ensures r.city == p.city && r.state == p.state
  {
    RegisterRequest(Some(p.name), Some(p.email), Some(p.password), Some(p.role), None, p.city, p.state)
  }

  /** The body as written: city and state nested under `location`. */
  function PayloadAsWritten(f: Form): (p: Payload)
    ensures p.city.None? && p.state.None?
    ensures p.location == Some(Place(f.city, f.state))
  {
    Payload(f.name, f.email, f.password, f.role, Some(Place(f.city, f.state)), None, None, f.interests)
  }

  /** As written, a registration from this form never stores a location,
      whatever city and state were typed. */
  lemma PayloadAsWrittenLosesLocation(f: Form, env: RegisterEnv)
    ensures Registered(ServerReads(PayloadAsWritten(f)), env).location.None?
  {
    RegisteredProfile(ServerReads(PayloadAsWritten(f)), env);
  }

  /** The body with city and state where the server reads them. */
  function SubmitPayload(f: Form): (p: Payload)
    ensures p.password == f.password && p.name == f.name && p.email == f.email && p.role == f.role
    ensures p.city == Some(f.city) && p.state == Some(f.state)
    ensures p.interests == f.interests
  {
    Payload(f.name, f.email, f.password, f.role, None, Some(f.city), Some(f.state), f.interests)
  }

  /** With the corrected body, a location is stored exactly when a city or
      a state was typed. */
  lemma SubmitPayloadKeepsLocation(f: Form, env: RegisterEnv)
    ensures Registered(ServerReads(SubmitPayload(f)), env).location.Some? <==> f.city != "" || f.state != ""
  {
    RegisteredProfile(ServerReads(SubmitPayload(f)), env);
  }

  const Mismatch: string := "Passwords do not match"
  const TooShort: string := "Password must be at least 6 characters long"

  /** The auth context's answer: success, or failure with its error (which
      may be missing). */
  datatype RegisterResult = Success | Failure(error: Option<string>)

  datatype SubmitOutcome = Invalid(message: string) | Navigate(path: string) | ShowError(error: Option<string>)

  /** The two checks `handleSubmit` makes, the mismatch first. */
  function Validate(f: Form): (r: Option<string>)
    ensures f.password != f.confirmPassword ==> r == Some(Mismatch)
    ensures f.password == f.confirmPassword && Utf16Length(f.password) < 6 ==> r == Some(TooShort)
    ensures r.None? <==> f.password == f.confirmPassword && Utf16Length(f.password) >= 6
  {
    if f.password != f.confirmPassword then Some(Mismatch)
    else if Utf16Length(f.password) < 6 then Some(TooShort)
    else None
  }

  /** What follows the two checks: a failed check shows its message and
      sends nothing; otherwise `body` goes to `register`, success opens the
      dashboard and failure shows the returned error. */
  function Dispatch(f: Form, body: Payload, register: Payload -> RegisterResult): SubmitOutcome {
    match Validate(f)
    case Some(message) => Invalid(message)
    case None =>
      match register(body)
      case Success => Navigate("/dashboard")
      case Failure(error) => ShowError(error)
  }

  /** `handleSubmit` as written: the body sent nests city and state under
      `location`, where the server never reads them. */
  function HandleSubmit(f: Form, register: Payload -> RegisterResult): (r: SubmitOutcome)
    ensures Validate(f).Some? ==> r == Invalid(Validate(f).value)
    ensures Validate(f).None? ==> (r == Navigate("/dashboard") <==> register(PayloadAsWritten(f)).Success?)
    ensures Validate(f).None? && register(PayloadAsWritten(f)).Failure? ==> r == ShowError(register(PayloadAsWritten(f)).error)
  {
    Dispatch(f, PayloadAsWritten(f), register)
  }

  /** `handleSubmit` with the corrected body: city and state at the top
      level. */
  function HandleSubmitCorrected(f: Form, register: Payload -> RegisterResult): (r: SubmitOutcome)
    ensures Validate(f).Some? ==> r == Invalid(Validate(f).value)
    ensures Validate(f).None? ==> (r == Navigate("/dashboard") <==> register(SubmitPayload(f)).Success?)
    ensures Validate(f).None? && register(SubmitPayload(f)).Failure? ==> r == ShowError(register(SubmitPayload(f)).error)
  {
    Dispatch(f, SubmitPayload(f), register)
  }

  /** The correction changes only the body: a `register` that answers both
      bodies alike gives the same outcome either way. */
  lemma CorrectionChangesOnlyBody(f: Form, register: Payload -> RegisterResult)
    requires register(PayloadAsWritten(f)) == register(SubmitPayload(f))
    ensures HandleSubmitCorrected(f, register) == HandleSubmit(f, register)
  {
  }

  /** A form that fails a check never reaches `register`: the outcome does
      not depend on it. */
  lemma InvalidFormSendsNothing(f: Form, r1: Payload -> RegisterResult, r2: Payload -> RegisterResult)
    requires Validate(f).Some?
    ensures HandleSubmit(f, r1) == HandleSubmit(f, r2)
  {
  }

  /** A password mismatch is reported even when the password is also too
      short. */
  lemma MismatchReportedFirst(f: Form, register: Payload -> RegisterResult)
    requires f.password != f.confirmPassword && Utf16Length(f.password) < 6
    ensures HandleSubmit(f, register) == Invalid(Mismatch)
  {
  }
}

=== FILE: report_counts.dfy ===
/** The two maintenance scripts that reconcile each account's stored
    `reportsCount` with the reports collection:
    server/scripts/backfillReportsCount.js (group, then compare) and
    server/scripts/recalculateReportCounts.js (count per user, then compare,
    then list the top ten reporters). A report is reduced to its
    `reportedBy` reference, which may be missing. */
module ReportCounts {
  import opened Seqs
  import opened Accounts
  import Ranking

  type Reporters = seq<Option<string>>

  predicate ReportedBy(r: Option<string>, id: string) {
    r == Some(id)
  }

  /** The number of reports filed by `id` (`countDocuments({reportedBy: id})`). */
  function ActualCount(reports: Reporters, id: string): nat {
    Count(reports, (r: Option<string>) => ReportedBy(r, id))
  }

  function Recount(u: Account, reports: Reporters): Account {
    u.(reportsCount := ActualCount(reports, u.id))
  }

  /** The collection after a reconciliation: same accounts, in the same
      order, each holding its actual count. */
  function Reconciled(users: seq<Account>, reports: Reporters): (r: seq<Account>)
    ensures |r| == |users|
    ensures forall i :: 0 <= i < |users| ==> r[i] == Recount(users[i], reports)
  {
    seq(|users|, i requires 0 <= i < |users| => Recount(users[i], reports))
  }

  /** Whether the stored count disagrees with the reports. */
  predicate Stale(u: Account, reports: Reporters) {
    u.reportsCount != ActualCount(reports, u.id)
  }

  /** How many accounts a run must update. */
  function Mismatches(users: seq<Account>, reports: Reporters): nat {
    Count(users, (u: Account) => Stale(u, reports))
  }

  lemma ActualCountSnoc(reports: Reporters, r: Option<string>, id: string)
    ensures ActualCount(reports + [r], id) == ActualCount(reports, id) + (if r == Some(id) then 1 else 0)
  {
    CountSnoc(reports, r, (x: Option<string>) => ReportedBy(x, id));
  }

  lemma MismatchesSnoc(users: seq<Account>, u: Account, reports: Reporters)
    ensures Mismatches(users + [u], reports) == Mismatches(users, reports) + (if Stale(u, reports) then 1 else 0)
  {
    CountSnoc(users, u, (x: Account) => Stale(x, reports));
  }

  /** The `$group` stage on `reportedBy` turned into a map, with the group of
      reports that have no reporter dropped (`if (c._id)`). */
  method GroupCounts(reports: Reporters) returns (m: map<string, nat>)
    ensures forall id :: id in m <==> Some(id) in reports
    ensures forall id :: id in m ==> m[id] == ActualCount(reports, id)
    ensures forall id :: id !in m ==> ActualCount(reports, id) == 0
  {
    m := map[];
    var i := 0;
    while i < |reports|
      invariant 0 <= i <= |reports|
      invariant forall id :: id in m <==> Some(id) in reports[..i]
      invariant forall id :: (if id in m then m[id] else 0) == ActualCount(reports[..i], id)
    {
      assert reports[..i + 1] == reports[..i] + [reports[i]];
      forall id ensures ActualCount(reports[..i + 1], id)
        == ActualCount(reports[..i], id) + (if reports[i] == Some(id) then 1 else 0)
      {
        ActualCountSnoc(reports[..i], reports[i], id);
      }
      if reports[i].Some? {
        var id := reports[i].value;
        m := m[id := (if id in m then m[id] else 0) + 1];
      }
      i := i + 1;
    }
    assert reports[..i] == reports;
  }

  /** `countMap.get(id) || 0`. */
  function CountOr0(counts: map<string, nat>, id: string): nat {
    if id in counts then counts[id] else 0
  }

  /** The backfill: look each account's count up in the grouped map
      (`countMap.get(id) || 0`) and rewrite the ones that differ, counting
      the rewrites. */
  method Backfill(users: seq<Account>, reports: Reporters) returns (out: seq<Account>, updated: nat)
    ensures out == Reconciled(users, reports)
    ensures updated == Mismatches(users, reports)
  {
    var counts := GroupCounts(reports);
    out, updated := RewriteStale(users, reports, counts);
  }

  /** The second half of the backfill, given a map that holds every
      account's actual count. */
  method RewriteStale(users: seq<Account>, reports: Reporters, counts: map<string, nat>)
    returns (out: seq<Account>, updated: nat)
    requires forall id :: CountOr0(counts, id) == ActualCount(reports, id)
    ensures out == Reconciled(users, reports)
    ensures updated == Mismatches(users, reports)
  {
    out := [];
    updated := 0;
    var i := 0;
    while i < |users|
      invariant 0 <= i <= |users|
      invariant |out| == i
      invariant forall k :: 0 <= k < i ==> out[k] == Recount(users[k], reports)
      invariant updated == Mismatches(users[..i], reports)
    {
      var u := users[i];
      var actual := CountOr0(counts, u.id);
      assert users[..i + 1] == users[..i] + [u];
      MismatchesSnoc(users[..i], u, reports);
      if u.reportsCount != actual {
        out := out + [u.(reportsCount := actual)];
        updated := updated + 1;
      } else {
        out := out + [u];
      }
      i := i + 1;
    }
    assert users[..i] == users;
  }

  datatype Tally = Tally(accounts: seq<Account>, updatedCount: nat, unchangedCount: nat)

  /** The recount: count each account's reports directly and tally updated
      and unchanged accounts. */
  method Recalculate(users: seq<Account>, reports: Reporters) returns (t: Tally)
    ensures t.accounts == Reconciled(users, reports)
    ensures t.updatedCount == Mismatches(users, reports)
    ensures t.updatedCount + t.unchangedCount == |users|
  {
    var out: seq<Account> := [];
    var updated, unchangedCount := 0, 0;
    var i := 0;
    while i < |users|
      invariant 0 <= i <= |users|
      invariant |out| == i
      invariant forall k :: 0 <= k < i ==> out[k] == Recount(users[k], reports)
      invariant updated == Mismatches(users[..i], reports)
      invariant updated + unchangedCount == i
    {
      var u := users[i];
      var actual := ActualCount(reports, u.id);
      assert users[..i + 1] == users[..i] + [u];
      MismatchesSnoc(users[..i], u, reports);
      if u.reportsCount != actual {
        out := out + [u.(reportsCount := actual)];
        updated := updated + 1;
      } else {
        out := out + [u];
        unchangedCount := unchangedCount + 1;
      }
      i := i + 1;
    }
    assert users[..i] == users;
    t := Tally(out, updated, unchangedCount);
  }

  /** The count is the number of occurrences of the reference among the
      reports. */
  lemma {:induction false} ActualCountIsMultiplicity(reports: Reporters, id: string)
    ensures ActualCount(reports, id) == multiset(reports)[Some(id)]
  {
    if |reports| > 0 {
      ActualCountIsMultiplicity(reports[1..], id);
      assert reports == [reports[0]] + reports[1..];
    }
  }

  /** Reconciling changes nothing but `reportsCount`, and afterwards every
      account holds exactly the number of reports filed under its id. */
  lemma ReconciledCounts(users: seq<Account>, reports: Reporters)
    ensures SameExceptReportsCount(users, Reconciled(users, reports))
    ensures forall i :: 0 <= i < |users| ==>
      Reconciled(users, reports)[i].reportsCount == multiset(reports)[Some(users[i].id)]
  {
    forall i | 0 <= i < |users|
      ensures Reconciled(users, reports)[i].reportsCount == multiset(reports)[Some(users[i].id)]
    {
      ActualCountIsMultiplicity(reports, users[i].id);
    }
  }

  /** A second run right after the first finds nothing to update and leaves
      the collection as it is. */
  lemma ReconcileIdempotent(users: seq<Account>, reports: Reporters)
    ensures Mismatches(Reconciled(users, reports), reports) == 0
    ensures Reconciled(Reconciled(users, reports), reports) == Reconciled(users, reports)
  {
    var once := Reconciled(users, reports);
    CountNone(once, (u: Account) => Stale(u, reports));
  }

  /** Reports without a reporter count toward no account. */
  lemma UnattributedReportsIgnored(users: seq<Account>, reports: Reporters)
    ensures Reconciled(users, reports + [None]) == Reconciled(users, reports)
  {
    forall id ensures ActualCount(reports + [None], id) == ActualCount(reports, id) {
      ActualCountSnoc(reports, None, id);
    }
  }

  /** The closing listing: the ten accounts with the most reports, most
      first. */
  function TopReporters(accounts: seq<Account>): (r: seq<Account>)
    ensures |r| == Ranking.Min(10, |accounts|)
    ensures multiset(r) <= multiset(accounts)
    ensures forall i, j :: 0 <= i < j < |r| ==> r[i].reportsCount >= r[j].reportsCount
    ensures forall y, x :: y in multiset(accounts) - multiset(r) && x in r ==> x.reportsCount >= y.reportsCount
  {
    CountsDescend(accounts);
    CountsDominate(accounts);
    Ranking.TopByKey(accounts, ReportsCount, 10)
  }

  lemma CountsDescend(accounts: seq<Account>)
    ensures var r := Ranking.TopByKey(accounts, ReportsCount, 10);
      forall i, j :: 0 <= i < j < |r| ==> r[i].reportsCount >= r[j].reportsCount
  {
    var r := Ranking.TopByKey(accounts, ReportsCount, 10);
    forall i, j | 0 <= i < j < |r| ensures r[i].reportsCount >= r[j].reportsCount {
      assert ReportsCount(r[i]) >= ReportsCount(r[j]);
    }
  }

  lemma CountsDominate(accounts: seq<Account>)
    ensures var r := Ranking.TopByKey(accounts, ReportsCount, 10);
      forall y, x :: y in multiset(accounts) - multiset(r) && x in r ==> x.reportsCount >= y.reportsCount
  {
    var r := Ranking.TopByKey(accounts, ReportsCount, 10);
    forall y, x | y in multiset(accounts) - multiset(r) && x in r ensures x.reportsCount >= y.reportsCount {
      assert ReportsCount(x) >= ReportsCount(y);
    }
  }
}

=== FILE: report_detail.dfy ===
/** client/src/pages/ReportDetail.jsx: who may edit a report, which status
    buttons and whether the delete button are shown, and what a status
    update does to the page. This page spells the third status
    "in-progress". The server's status route is a placeholder, so the reply
    to an update is a parameter. */
module ReportDetail {
  import opened Seqs

  /** The signed-in user as the auth context holds it; `id` and `role` may
      be missing. No user at all is `None`. */
  datatype Viewer = Viewer(id: Option<string>, role: Option<string>)

  function UserId(user: Option<Viewer>): Option<string> {
    if user.Some? then user.value.id else None
  }

  function UserRole(user: Option<Viewer>): Option<string> {
    if user.Some? then user.value.role else None
  }

  predicate IsAdmin(user: Option<Viewer>) {
    UserRole(user) == Some("admin")
  }

  /** The owner test as the page intends it: a user whose id is known and
      equals the reporter's. */
  predicate Owns(user: Option<Viewer>, reporter: Option<string>) {
    UserId(user).Some? && UserId(user) == reporter
  }

  /** `user?.id === report.reportedBy?._id || user?.role === "admin"`, as
      written: when both ids are `undefined` the comparison holds. */
  function CanEditAsWritten(user: Option<Viewer>, reporter: Option<string>): (r: bool)
    ensures r <==> CanEdit(user, reporter) || (UserId(user).None? && reporter.None?)
  {
    UserId(user) == reporter || UserRole(user) == Some("admin")
  }

  /** With no one signed in, a report whose reporter is not populated is
      editable by the visitor. */
  lemma AnonymousVisitorCanEdit()
    ensures CanEditAsWritten(None, None)
    ensures !CanEdit(None, None)
  {
  }

  /** The owner-or-admin rule: an owner is a user with a known id equal to
      the reporter's. An environmental organisation is neither. */
  function CanEdit(user: Option<Viewer>, reporter: Option<string>): (r: bool)
    ensures r <==> Owns(user, reporter) || IsAdmin(user)
    ensures user.None? ==> !r
    ensures r ==> UserId(user).Some? || UserRole(user).Some?
  {
    match user
    case None => false
    case Some(v) => (v.id.Some? && v.id == reporter) || v.role == Some("admin")
  }

  /** Every user the corrected rule admits, the written one admits too; they
      differ exactly when neither id is known. */
  lemma CanEditAgreesWhenIdKnown(user: Option<Viewer>, reporter: Option<string>)
    requires UserId(user).Some? || reporter.Some?
    ensures CanEditAsWritten(user, reporter) == CanEdit(user, reporter)
  {
  }

  const StatusTargets: set<string> := {"verified", "in-progress", "resolved"}

  datatype Actions = Actions(deleteOffered: bool, statusTargets: set<string>)

  /** The buttons the page shows: delete and "Mark as …" for every target
      but the current status, and nothing without the edit right. Any
      target may be chosen, backward ones included; "rejected" and
      "pending" never are. */
  function OfferedActions(user: Option<Viewer>, reporter: Option<string>, status: string): (r: Actions)
    ensures !CanEdit(user, reporter) ==> !r.deleteOffered && r.statusTargets == {}
    ensures CanEdit(user, reporter) ==> r.deleteOffered
    ensures CanEdit(user, reporter) ==> forall t :: t in r.statusTargets <==> t in StatusTargets && t != status
    ensures "rejected" !in r.statusTargets && "pending" !in r.statusTargets && status !in r.statusTargets
    ensures CanEdit(user, reporter) ==> |r.statusTargets| >= 2
  {
    if CanEdit(user, reporter) then
      var targets := StatusTargets - {status};
      assert "verified" in targets || "in-progress" in targets;
      assert "resolved" in targets || "in-progress" in targets;
      assert ("verified" in targets && "resolved" in targets) || ("in-progress" in targets && ("verified" in targets || "resolved" in targets));
      Actions(true, targets)
    else Actions(false, {})
  }

  /** Unlike the report list, this page lets an editor move a resolved
      report back to verified. */
  lemma ResolvedCanGoBack(user: Option<Viewer>, reporter: Option<string>)
    requires CanEdit(user, reporter)
    ensures "verified" in OfferedActions(user, reporter, "resolved").statusTargets
  {
  }

  /** The page state a status update touches. */
  datatype Page<R> = Page(report: R, error: string)

  /** The reply of `PATCH /api/reports/:id/status`: the updated report, or a
      failure with the server's message if it sent one. */
  datatype PatchReply<R> = Updated(report: R) | PatchFailed(message: Option<string>)

  const UpdateFailed: string := "Failed to update status"

  /** `handleStatusUpdate`: nothing at all when signed out; otherwise the
      new report on success, and on failure the old report with the
      server's message or, failing a non-empty one, the default. */
  function HandleStatusUpdate<R>(page: Page<R>, isAuthenticated: bool, reply: PatchReply<R>): (r: Page<R>)
    ensures !isAuthenticated ==> r == page
    ensures isAuthenticated && reply.Updated? ==> r == Page(reply.report, "")
    ensures isAuthenticated && reply.PatchFailed? ==> r.report == page.report && r.error != ""
    ensures isAuthenticated && reply.PatchFailed? && reply.message.Some? && reply.message.value != "" ==>
      r.error == reply.message.value
    ensures isAuthenticated ==> (r.error == "" <==> reply.Updated?)
  {
    if !isAuthenticated then page
    else
      match reply
      case Updated(report) => Page(report, "")
      case PatchFailed(message) =>
        Page(page.report, if message.Some? && message.value != "" then message.value else UpdateFailed)
  }
}

=== FILE: report_wizard.dfy ===
/** client/src/components/ReportWaste.jsx: the three-step report wizard.
    Step 1 takes the title, category, severity and description, step 2 the
    photos, step 3 the location. Each event is a click or an edit on a
    control the current step renders; a click on a control that is not
    rendered, or is disabled, cannot happen and changes nothing. */
module ReportWizard {
  import opened Seqs

  /** `coordinates` is `[longitude, latitude]` once detected, `null` before. */
  datatype Location = Location(address: string, coordinates: Option<(real, real)>)

  datatype Form = Form(title: string, description: string, category: string, severity: string, location: Location)

  const InitialForm: Form := Form("", "", "", "medium", Location("", None))

  datatype Wizard = Wizard(form: Form, step: int, isSubmitting: bool)

  const Start: Wizard := Wizard(InitialForm, 1, false)

  predicate Valid(w: Wizard) {
    1 <= w.step <= 3
  }

  datatype Event =
    | EditTitle(title: string)
    | EditDescription(description: string)
    | PickCategory(category: string)
    | PickSeverity(severity: string)
    | NextToPhotos
    | BackToBasics
    | NextToLocation
    | BackToPhotos
    | EditAddress(address: string)
    | Located(latitude: real, longitude: real, caption: string)

  /** The "Next" button of step 1: enabled only with a title and a
      category. */
  predicate CanLeaveBasics(f: Form) {
    f.title != "" && f.category != ""
  }

  /** The step each control belongs to. `Located` is the answer to the
      detect button of step 3; it arrives later, on whatever step is shown. */
  function StepOf(e: Event): int {
    match e
    case EditTitle(_) => 1
    case EditDescription(_) => 1
    case PickCategory(_) => 1
    case PickSeverity(_) => 1
    case NextToPhotos => 1
    case BackToBasics => 2
    case NextToLocation => 2
    case BackToPhotos => 3
    case EditAddress(_) => 3
    case Located(_, _, _) => 3
  }

  /** One event. Detected coordinates are stored longitude first and the
      address becomes the detector's caption; the detector's callback
      updates the form through `setFormData(prev => ...)`, so it lands even
      when the user has left step 3 since pressing the button. */
  function Apply(w: Wizard, e: Event): (r: Wizard)
    requires Valid(w)
    ensures Valid(r)
    ensures r.step == w.step || (w.step, r.step) in {(1, 2), (2, 1), (2, 3), (3, 2)}
    ensures w.step == 1 && r.step == 2 ==> CanLeaveBasics(w.form)
    ensures StepOf(e) != w.step && !e.Located? ==> r == w
    ensures r.isSubmitting == w.isSubmitting
    ensures e.PickCategory? && w.step == 1 ==> r == w.(form := w.form.(category := e.category))
    ensures e.PickSeverity? && w.step == 1 ==> r == w.(form := w.form.(severity := e.severity))
    ensures e.Located? ==> r.step == w.step && r == w.(form := w.form.(location := r.form.location))
    ensures e.Located? ==> r.form.location.coordinates == Some((e.longitude, e.latitude))
  {
    if StepOf(e) != w.step && !e.Located? then w
    else
      var f := w.form;
      match e
      case EditTitle(t) => w.(form := f.(title := t))
      case EditDescription(d) => w.(form := f.(description := d))
      case PickCategory(c) => w.(form := f.(category := c))
      case PickSeverity(s) => w.(form := f.(severity := s))
      case NextToPhotos => if CanLeaveBasics(f) then w.(step := 2) else w
      case BackToBasics => w.(step := 1)
      case NextToLocation => w.(step := 3)
      case BackToPhotos => w.(step := 2)
      case EditAddress(a) => w.(form := f.(location := f.location.(address := a)))
      case Located(lat, lng, caption) => w.(form := f.(location := Location(caption, Some((lng, lat)))))
  }

  function Run(w: Wizard, es: seq<Event>): (r: Wizard)
    requires Valid(w)
    ensures Valid(r)
    ensures r.isSubmitting == w.isSubmitting
    decreases |es|
  {
    if |es| == 0 then w else Run(Apply(w, es[0]), es[1..])
  }

  /** Location comes last: the wizard reaches step 3 only through step 2,
      and step 2 only from step 1 with a title and a category. */
  lemma {:induction false} ReachingLocationNeedsBasics(w: Wizard, es: seq<Event>)
    requires Valid(w) && w.step == 1 && !CanLeaveBasics(w.form)
    requires forall k :: 0 <= k < |es| ==> !es[k].EditTitle? && !es[k].PickCategory?
    ensures Run(w, es).step == 1
    ensures Run(w, es).form.title == w.form.title && Run(w, es).form.category == w.form.category
    decreases |es|
  {
    if |es| > 0 {
      var v := Apply(w, es[0]);
      assert v.step == 1 && v.form.title == w.form.title && v.form.category == w.form.category;
      ReachingLocationNeedsBasics(v, es[1..]);
    }
  }

  /** The submit button of step 3. */
  function SubmitDisabled(w: Wizard): (r: bool)
    ensures !r <==> !w.isSubmitting && (w.form.location.address != "" || w.form.location.coordinates.Some?)
  {
    w.isSubmitting || (w.form.location.address == "" && w.form.location.coordinates.None?)
  }

  const Submitted: string := "Waste report submitted successfully! 🌱 You earned 10 green points!"

  /** `handleSubmit` through the submit button of step 3, clicked or
      activated by Enter in the address field: enabled, the (simulated)
      submission always succeeds, alerts and opens the dashboard. Enter on
      the other steps is `PressEnterAsWritten`. */
  function Submit(w: Wizard): (r: Option<(string, string)>)
    requires Valid(w)
    ensures r.Some? <==> w.step == 3 && !w.isSubmitting && (w.form.location.address != "" || w.form.location.coordinates.Some?)
    ensures r.Some? ==> r.value == (Submitted, "/dashboard")
  {
    if w.step == 3 && !SubmitDisabled(w) then Some((Submitted, "/dashboard")) else None
  }

  /** Enter in a single-line text field submits the form implicitly. Step 1
      renders no submit button and one such field, the `required` title, so
      Enter there runs `handleSubmit` (which has no step guard) as soon as
      the title is non-empty; on step 3 Enter in the address activates the
      submit button, and does nothing while it is disabled; step 2 has no
      text field. */
  function PressEnterAsWritten(w: Wizard): (r: Option<(string, string)>)
    requires Valid(w)
    ensures w.step == 1 ==> (r.Some? <==> w.form.title != "")
    ensures w.step == 2 ==> r.None?
    ensures w.step == 3 ==> r == Submit(w)
    ensures r.Some? ==> r.value == (Submitted, "/dashboard")
  {
    if w.step == 1 then (if w.form.title != "" then Some((Submitted, "/dashboard")) else None)
    else if w.step == 3 then Submit(w)
    else None
  }

  /** With only a title typed, Enter submits a report that has no category
      and no location. */
  lemma EnterOnBasicsSubmitsUnlocated(title: string)
    requires title != ""
    ensures var w := Apply(Start, EditTitle(title));
      && w.step == 1 && w.form.category == "" && w.form.location == Location("", None)
      && SubmitDisabled(w)
      && PressEnterAsWritten(w) == Some((Submitted, "/dashboard"))
  {
  }

  /** Enter as intended: `handleSubmit` acts only on step 3, so the form is
      submitted only where and when its submit button is enabled. */
  function PressEnter(w: Wizard): (r: Option<(string, string)>)
    requires Valid(w)
    ensures r.Some? ==> w.step == 3 && !w.isSubmitting && (w.form.location.address != "" || w.form.location.coordinates.Some?)
    ensures w.step != 1 ==> r == PressEnterAsWritten(w)
    ensures r.Some? ==> r.value == (Submitted, "/dashboard")
  {
    if w.step == 3 then Submit(w) else None
  }

  /** Without a title and a category nothing is ever submitted, by the
      button or by Enter; the empty `required` title blocks Enter on step 1. */
  lemma NoSubmitWithoutBasics(es: seq<Event>)
    requires forall k :: 0 <= k < |es| ==> !es[k].EditTitle? && !es[k].PickCategory?
    ensures Submit(Run(Start, es)).None?
    ensures PressEnterAsWritten(Run(Start, es)).None?
    ensures PressEnter(Run(Start, es)).None?
  {
    ReachingLocationNeedsBasics(Start, es);
  }

  /** Detecting the position is enough to submit, even with the address
      cleared afterwards. */
  lemma DetectedLocationEnablesSubmit(w: Wizard, lat: real, lng: real, caption: string)
    requires Valid(w) && w.step == 3 && !w.isSubmitting
    ensures !SubmitDisabled(Apply(Apply(w, Located(lat, lng, caption)), EditAddress("")))
  {
  }

  /** A position detected after the user stepped back to the photos is
      still there on returning, and enough to submit. */
  lemma DetectedWhileAwayEnablesSubmit(w: Wizard, lat: real, lng: real, caption: string)
    requires Valid(w) && w.step == 3 && !w.isSubmitting
    ensures var v := Apply(Apply(Apply(w, BackToPhotos), Located(lat, lng, caption)), NextToLocation);
      v.step == 3 && v.form.location.coordinates == Some((lng, lat)) && !SubmitDisabled(v)
  {
  }

  /** Progress dot `n` of the header is lit. */
  predicate DotLit(step: int, n: int) {
    step >= n
  }

  /** The lit dots are exactly the first `step` of the three. */
  function LitDots(step: int): (r: seq<int>)
    requires 1 <= step <= 3
    ensures |r| == step
    ensures forall n :: n in r <==> 1 <= n <= 3 && DotLit(step, n)
  {
    Filter([1, 2, 3], n => DotLit(step, n))
  }
}

=== FILE: reports_list.dfy ===
/** client/src/components/ReportsList.jsx: the filter-then-sort pipeline,
    the one forward action offered per status, and the summary footer. This
    view spells the third status "in_progress". */
module ReportsList {
  import opened Seqs
  import opened Ranking
  import opened Percent
  import opened ClientReports

  /** Code-point order on strings, with a proper prefix first: the order
      `localeCompare` is taken to follow. */
  predicate LexLe(a: string, b: string)
    decreases |a|
  {
    |a| == 0 || (|b| > 0 && (a[0] < b[0] || (a[0] == b[0] && LexLe(a[1..], b[1..]))))
  }

  lemma {:induction false} LexLeTotal(a: string, b: string)
    ensures LexLe(a, b) || LexLe(b, a)
    decreases |a|
  {
    if |a| > 0 && |b| > 0 && a[0] == b[0] {
      LexLeTotal(a[1..], b[1..]);
    }
  }

  lemma {:induction false} LexLeTransitive(a: string, b: string, c: string)
    requires LexLe(a, b) && LexLe(b, c)
    ensures LexLe(a, c)
    decreases |a|
  {
    if |a| > 0 && a[0] == b[0] && b[0] == c[0] {
      LexLeTransitive(a[1..], b[1..], c[1..]);
    }
  }

  lemma {:induction false} LexLeAntisymmetric(a: string, b: string)
    requires LexLe(a, b) && LexLe(b, a)
    ensures a == b
    decreases |a|
  {
    if |a| > 0 {
      LexLeAntisymmetric(a[1..], b[1..]);
      assert a == [a[0]] + a[1..] && b == [b[0]] + b[1..];
    }
  }

  function ByStatus(): (Report, Report) -> bool {
    (a: Report, b: Report) => LexLe(a.status, b.status)
  }

  /** The status order is a total preorder, so sorting by it is well defined. */
  lemma ByStatusIsTotalPreorder()
    ensures TotalPreorder(ByStatus())
  {
    forall a: Report, b: Report ensures LexLe(a.status, b.status) || LexLe(b.status, a.status) {
      LexLeTotal(a.status, b.status);
    }
    forall a: Report, b: Report, c: Report | LexLe(a.status, b.status) && LexLe(b.status, c.status)
      ensures LexLe(a.status, c.status)
    {
      LexLeTransitive(a.status, b.status, c.status);
    }
  }

  /** `severityOrder`: high 3, medium 2, low 1. Any other severity has no
      rank in the source; the model ranks it below low. */
  function SeverityRank(severity: string): (n: nat)
    ensures n <= 3
    ensures n > 0 <==> severity in {"high", "medium", "low"}
  {
    match severity
    case "high" => 3
    case "medium" => 2
    case "low" => 1
    case _ => 0
  }

  function CreatedAt(r: Report): int { r.createdAt }

  function Severity(r: Report): int { SeverityRank(r.severity) }

  lemma KeysDescend(r: seq<Report>, key: Report -> int)
    requires SortedBy(r, ByKeyDesc(key))
    ensures forall i, j :: 0 <= i < j < |r| ==> key(r[i]) >= key(r[j])
  {
    forall i, j | 0 <= i < j < |r| ensures key(r[i]) >= key(r[j]) {
      assert ByKeyDesc(key)(r[i], r[j]);
    }
  }

  /** Newest first; reports created at the same moment keep their order. */
  function NewestFirst(shown: seq<Report>): (r: seq<Report>)
    ensures multiset(r) == multiset(shown)
    ensures forall i, j :: 0 <= i < j < |r| ==> r[i].createdAt >= r[j].createdAt
  {
    ByKeyDescIsTotalPreorder(CreatedAt);
    SortBySorted(shown, ByKeyDesc(CreatedAt));
    var r := SortBy(shown, ByKeyDesc(CreatedAt));
    KeysDescend(r, CreatedAt);
    r
  }

  function MostSevereFirst(shown: seq<Report>): (r: seq<Report>)
    ensures multiset(r) == multiset(shown)
    ensures forall i, j :: 0 <= i < j < |r| ==> SeverityRank(r[i].severity) >= SeverityRank(r[j].severity)
  {
    ByKeyDescIsTotalPreorder(Severity);
    SortBySorted(shown, ByKeyDesc(Severity));
    var r := SortBy(shown, ByKeyDesc(Severity));
    KeysDescend(r, Severity);
    r
  }

  function StatusAscending(shown: seq<Report>): (r: seq<Report>)
    ensures multiset(r) == multiset(shown)
    ensures forall i, j :: 0 <= i < j < |r| ==> LexLe(r[i].status, r[j].status)
  {
    ByStatusIsTotalPreorder();
    SortBySorted(shown, ByStatus());
    SortBy(shown, ByStatus())
  }

  /** Reports created at the same moment keep their order. */
  lemma NewestFirstStable(shown: seq<Report>, a: Report)
    ensures WithKey(NewestFirst(shown), CreatedAt, a.createdAt) == WithKey(shown, CreatedAt, a.createdAt)
  {
    SortByKeyStable(shown, CreatedAt, a);
  }

  /** Reports of the same severity rank keep their order. */
  lemma MostSevereFirstStable(shown: seq<Report>, a: Report)
    ensures WithKey(MostSevereFirst(shown), Severity, SeverityRank(a.severity))
      == WithKey(shown, Severity, SeverityRank(a.severity))
  {
    SortByKeyStable(shown, Severity, a);
  }

  /** Reports with the same status keep their order. */
  lemma StatusAscendingStable(shown: seq<Report>, a: Report)
    ensures TiedWith(StatusAscending(shown), ByStatus(), a) == TiedWith(shown, ByStatus(), a)
  {
    ByStatusIsTotalPreorder();
    SortByStable(shown, ByStatus(), a);
  }

  /** The list the view renders: the filtered reports, each exactly as often
      as the filter keeps it, newest first, most severe first, by status
      ascending, or in their given order for any other `sortBy` (whose
      comparator returns 0 for every pair). */
  function Displayed(reports: seq<Report>, filter: string, sortBy: string): (r: seq<Report>)
    ensures multiset(r) == multiset(FilterByStatus(reports, filter))
    ensures sortBy == "date" ==> forall i, j :: 0 <= i < j < |r| ==> r[i].createdAt >= r[j].createdAt
    ensures sortBy == "severity" ==> forall i, j :: 0 <= i < j < |r| ==> SeverityRank(r[i].severity) >= SeverityRank(r[j].severity)
    ensures sortBy == "status" ==> forall i, j :: 0 <= i < j < |r| ==> LexLe(r[i].status, r[j].status)
    ensures sortBy !in {"date", "severity", "status"} ==> r == FilterByStatus(reports, filter)
  {
    var shown := FilterByStatus(reports, filter);
    if sortBy == "date" then NewestFirst(shown)
    else if sortBy == "severity" then MostSevereFirst(shown)
    else if sortBy == "status" then StatusAscending(shown)
    else
      var equal := (a: Report, b: Report) => true;
      SortByAllTies(shown, equal);
      SortBy(shown, equal)
  }

  /** The severity sort puts every high report before every medium one and
      every medium one before every low one. */
  lemma SeverityBands(reports: seq<Report>, filter: string)
    ensures var r := Displayed(reports, filter, "severity");
      forall i, j :: 0 <= i < |r| && 0 <= j < |r| && r[i].severity == "high" && r[j].severity in {"medium", "low"} ==> i < j
  {
    var r := Displayed(reports, filter, "severity");
    forall i, j | 0 <= i < |r| && 0 <= j < |r| && r[i].severity == "high" && r[j].severity in {"medium", "low"}
      ensures i < j
    {
      assert SeverityRank(r[i].severity) == 3 && SeverityRank(r[j].severity) < 3;
      HigherRankFirst(r, i, j);
    }
  }

  /** In a list ordered by descending rank, a higher rank comes first. */
  lemma HigherRankFirst(r: seq<Report>, i: int, j: int)
    requires forall a, b :: 0 <= a < b < |r| ==> SeverityRank(r[a].severity) >= SeverityRank(r[b].severity)
    requires 0 <= i < |r| && 0 <= j < |r| && SeverityRank(r[i].severity) > SeverityRank(r[j].severity)
    ensures i < j
  {
  }

  /** The lifecycle position of each status this view knows. */
  function Stage(status: string): Option<nat> {
    match status
    case "pending" => Some(0)
    case "verified" => Some(1)
    case "in_progress" => Some(2)
    case "resolved" => Some(3)
    case _ => None
  }

  /** The single button each report row offers: Verify, Start Cleanup or
      Mark Resolved, or none. */
  function NextAction(status: string): (r: Option<string>)
    ensures r.Some? <==> status in {"pending", "verified", "in_progress"}
    ensures r.Some? ==> Stage(r.value).Some? && Stage(status).Some? && Stage(r.value).value == Stage(status).value + 1
  {
    match status
    case "pending" => Some("verified")
    case "verified" => Some("in_progress")
    case "in_progress" => Some("resolved")
    case _ => None
  }

  /** Following the offered actions from any status reaches "resolved" and
      stops there; a report never goes back. */
  lemma NextActionNeverRegresses(status: string)
    requires Stage(status).Some?
    ensures NextAction(status).None? <==> status == "resolved"
    ensures NextAction(status).Some? ==> Stage(NextAction(status).value).value > Stage(status).value
  {
  }

  datatype Footer = Footer(resolved: nat, pending: nat, inProgress: nat, completionRate: int)

  /** The summary footer: shown only when the filtered list is non-empty,
      and then counted over every report, whatever the filter. */
  function SummaryFooter(reports: seq<Report>, filter: string): (r: Option<Footer>)
    ensures r.Some? <==> |FilterByStatus(reports, filter)| > 0
    ensures r.Some? ==> r.value.resolved + r.value.pending + r.value.inProgress <= |reports|
    ensures r.Some? ==> 0 <= r.value.completionRate <= 100
    ensures r.Some? ==> r.value.resolved == |FilterByStatus(reports, "resolved")|
    ensures r.Some? ==> r.value.pending == |FilterByStatus(reports, "pending")|
    ensures r.Some? ==> r.value.inProgress == |FilterByStatus(reports, "in_progress")|
    ensures r.Some? ==> |reports| > 0 && r.value.completionRate == RoundPercent(r.value.resolved, |reports|)
  {
    if |FilterByStatus(reports, filter)| == 0 then None
    else
      var resolved := CountStatus(reports, "resolved");
      var pending := CountStatus(reports, "pending");
      var inProgress := CountStatus(reports, "in_progress");
      ThreeStatusesFit(reports);
      Some(Footer(resolved, pending, inProgress, RoundPercent(resolved, |reports|)))
  }

  /** Three distinct statuses never count more reports than there are. */
  lemma {:induction false} ThreeStatusesFit(reports: seq<Report>)
    ensures CountStatus(reports, "resolved") + CountStatus(reports, "pending") + CountStatus(reports, "in_progress") <= |reports|
  {
    if |reports| > 0 {
      ThreeStatusesFit(reports[1..]);
      CountStatusFront(reports, "resolved");
      CountStatusFront(reports, "pending");
      CountStatusFront(reports, "in_progress");
    }
  }

  lemma CountStatusFront(reports: seq<Report>, status: string)
    requires |reports| > 0
    ensures CountStatus(reports, status)
      == (if reports[0].status == status then 1 else 0) + CountStatus(reports[1..], status)
  {
    assert reports == [reports[0]] + reports[1..];
  }

  /** The filter decides only whether the footer shows, never what it says. */
  lemma FooterIgnoresFilter(reports: seq<Report>, f1: string, f2: string)
    ensures SummaryFooter(reports, f1).Some? && SummaryFooter(reports, f2).Some? ==>
      SummaryFooter(reports, f1) == SummaryFooter(reports, f2)
  {
  }

  /** With nothing to list, the view says why: nothing at all, or nothing
      with the chosen status. */
  function EmptyState(reports: seq<Report>, filter: string): (r: Option<string>)
    ensures r.Some? <==> |Displayed(reports, filter, "date")| == 0
    ensures r.Some? && filter != All ==> r.value == "No " + filter + " reports found"
    ensures r.Some? && filter == All ==> |reports| == 0
  {
    var shown := Displayed(reports, filter, "date");
    assert |shown| == |FilterByStatus(reports, filter)| by {
      assert |multiset(shown)| == |multiset(FilterByStatus(reports, filter))|;
    }
    if |shown| > 0 then None
    else if filter == All then Some("No reports submitted yet")
    else Some("No " + filter + " reports found")
  }

  /** The icon table of this page, written out separately from the map's. */
  const ListIcons: map<string, string> := map[
    "plastic" := "🏷️",
    "organic" := "🍎",
    "electronic" := "📱",
    "metal" := "🔩",
    "glass" := "🪟",
    "paper" := "📄",
    "textile" := "👕",
    "hazardous" := "☢️"]

  /** The list's `getCategoryIcon`. */
  function ListIcon(category: string): (r: IconLookup)
    ensures r == Glyph(FallbackIcon) <==> category !in ListIcons && category !in PrototypeKeys
    ensures r.Inherited? <==> category in PrototypeKeys
  {
    Lookup(ListIcons, category)
  }

  /** The list and the map show the same icon for every category. */
  lemma ListIconMatchesMap(category: string)
    ensures ListIcon(category) == CategoryIcon(category)
  {
    assert ListIcons == Icons;
  }
}

=== FILE: seqs.dfy ===
/** Option, and the `Array.prototype.filter` / `filter(...).length` idioms the
    Reviwa code uses everywhere. */
module Seqs {

  datatype Option<+T> = None | Some(value: T) {
    /** The value, or `default` when absent (a JavaScript default parameter). */
    function GetOr(default: T): T {
      match this
      case Some(v) => v
      case None => default
    }
  }

  /** `s.filter(p)`: the elements satisfying `p`, in their original order. */
  function Filter<T(!new)>(s: seq<T>, p: T -> bool): (r: seq<T>)
    ensures |r| <= |s|
    ensures forall i :: 0 <= i < |r| ==> p(r[i])
  {
    if |s| == 0 then [] else (if p(s[0]) then [s[0]] else []) + Filter(s[1..], p)
  }

  /** The filter keeps every copy of each element satisfying `p` and nothing else. */
  lemma {:induction false} FilterMultiset<T(!new)>(s: seq<T>, p: T -> bool)
    ensures forall x :: multiset(Filter(s, p))[x] == if p(x) then multiset(s)[x] else 0
  {
    if |s| > 0 {
      FilterMultiset(s[1..], p);
      assert s == [s[0]] + s[1..];
    }
  }

  lemma FilterMembers<T(!new)>(s: seq<T>, p: T -> bool)
    ensures multiset(Filter(s, p)) <= multiset(s)
    ensures forall x :: x in Filter(s, p) <==> x in s && p(x)
  {
    FilterMultiset(s, p);
    forall x
      ensures x in Filter(s, p) <==> x in s && p(x)
    {
      assert x in Filter(s, p) <==> x in multiset(Filter(s, p));
      assert x in s <==> x in multiset(s);
    }
  }

  /** `s.filter(p).length`. */
  function Count<T(!new)>(s: seq<T>, p: T -> bool): (n: nat)
    ensures n <= |s|
  {
    |Filter(s, p)|
  }

  lemma {:induction false} FilterAll<T(!new)>(s: seq<T>, p: T -> bool)
    requires forall x :: x in s ==> p(x)
    ensures Filter(s, p) == s
  {
    if |s| > 0 {
      FilterAll(s[1..], p);
      assert s == [s[0]] + s[1..];
    }
  }

  /** A filter keeps its elements in their input order: the result is the
      input with some positions dropped. */
  lemma {:induction false} FilterConcat<T(!new)>(a: seq<T>, b: seq<T>, p: T -> bool)
    ensures Filter(a + b, p) == Filter(a, p) + Filter(b, p)
  {
    if |a| > 0 {
      var head := if p(a[0]) then [a[0]] else [];
      assert (a + b)[0] == a[0];
      assert (a + b)[1..] == a[1..] + b;
      assert Filter(a + b, p) == head + Filter(a[1..] + b, p);
      FilterConcat(a[1..], b, p);
      assert Filter(a, p) == head + Filter(a[1..], p);
    } else {
      assert a + b == b;
    }
  }

  /** Counting a sub-condition never exceeds counting the condition. */
  lemma {:induction false} CountMonotone<T(!new)>(s: seq<T>, p: T -> bool, q: T -> bool)
    requires forall x :: p(x) ==> q(x)
    ensures Count(s, p) <= Count(s, q)
  {
    if |s| > 0 {
      CountMonotone(s[1..], p, q);
    }
  }

  /** Nothing is counted when no element qualifies. */
  lemma {:induction false} CountNone<T(!new)>(s: seq<T>, p: T -> bool)
    requires forall i :: 0 <= i < |s| ==> !p(s[i])
    ensures Count(s, p) == 0
  {
    if |s| > 0 {
      CountNone(s[1..], p);
    }
  }

  /** Counting over a sequence extended by one element. */
  lemma CountSnoc<T(!new)>(s: seq<T>, x: T, p: T -> bool)
    ensures Count(s + [x], p) == Count(s, p) + (if p(x) then 1 else 0)
  {
    FilterConcat(s, [x], p);
    assert Filter([x], p) == (if p(x) then [x] else []) + Filter([], p);
  }
}

=== FILE: text.dfy ===
/** String helpers shared by the model: the parts of JavaScript's string
    library the Reviwa code relies on (trim, split, join, ASCII case mapping,
    decimal rendering of counts). Strings are sequences of Unicode scalar
    values; JavaScript's UTF-16 view is made explicit where it matters. */
module Text {

  /** ECMAScript LineTerminator: what `.` in a regular expression refuses. */
  predicate IsLineTerminator(c: char) {
    c == '\n' || c == '\r' || c == '\U{2028}' || c == '\U{2029}'
  }

  /** ECMAScript WhiteSpace (TAB, VT, FF, ZWNBSP and the Zs category) or a
      LineTerminator: what `String.prototype.trim` removes. */
  predicate IsJsSpace(c: char) {
    || IsLineTerminator(c)
    || c == '\t' || c == '\U{000B}' || c == '\U{000C}' || c == ' '
    || c == '\U{00A0}' || c == '\U{FEFF}' || c == '\U{1680}'
    || ('\U{2000}' <= c <= '\U{200A}')
    || c == '\U{202F}' || c == '\U{205F}' || c == '\U{3000}'
  }

  function TrimStart(s: string): (r: string)
    ensures |r| <= |s| && r == s[|s| - |r|..]
    ensures |r| > 0 ==> !IsJsSpace(r[0])
    ensures forall i :: 0 <= i < |s| - |r| ==> IsJsSpace(s[i])
  {
    if |s| > 0 && IsJsSpace(s[0]) then TrimStart(s[1..]) else s
  }

  lemma TrimStartStops(s: string)
    requires |s| > 0 && !IsJsSpace(s[0])
    ensures TrimStart(s) == s
  {
  }

  lemma TrimStartSkips(s: string)
    requires |s| > 0 && IsJsSpace(s[0])
    ensures TrimStart(s) == TrimStart(s[1..])
  {
  }

  /** A run of white space in front of text that does not start with white
      space is exactly what `TrimStart` removes. */
  lemma {:induction false} TrimStartSpaces(w: string, t: string)
    requires forall i :: 0 <= i < |w| ==> IsJsSpace(w[i])
    requires |t| > 0 ==> !IsJsSpace(t[0])
    ensures TrimStart(w + t) == t
  {
    if |w| == 0 {
      assert w + t == t;
    } else {
      assert (w + t)[0] == w[0] && (w + t)[1..] == w[1..] + t;
      TrimStartSkips(w + t);
      TrimStartSpaces(w[1..], t);
    }
  }

  function TrimEnd(s: string): (r: string)
    ensures |r| <= |s| && r == s[..|r|]
    ensures |r| > 0 ==> !IsJsSpace(r[|r| - 1])
    ensures forall i :: |r| <= i < |s| ==> IsJsSpace(s[i])
  {
    if |s| > 0 && IsJsSpace(s[|s| - 1]) then TrimEnd(s[..|s| - 1]) else s
  }

  /** `String.prototype.trim`. */
  function Trim(s: string): string {
    TrimEnd(TrimStart(s))
  }

  lemma TrimEndKeepsStart(s: string)
    requires |s| > 0 ==> !IsJsSpace(s[0])
    ensures TrimStart(TrimEnd(s)) == TrimEnd(s)
  {
  }

  /** Trimming twice is trimming once (the schema's `trim: true` re-applies
      what a controller already trimmed). */
  lemma TrimIdempotent(s: string)
    ensures Trim(Trim(s)) == Trim(s)
  {
    var a := TrimStart(s);
    var b := TrimEnd(a);
    TrimEndKeepsStart(a);
    assert TrimStart(b) == b;
    assert TrimEnd(b) == b;
  }

  function LowerChar(c: char): char {
    if 'A' <= c <= 'Z' then (c as int + 32) as char else c
  }

  function UpperChar(c: char): char {
    if 'a' <= c <= 'z' then (c as int - 32) as char else c
  }

  /** `toLowerCase` on the ASCII range (other scripts are kept as they are). */
  function ToLower(s: string): (r: string)
    ensures |r| == |s|
    ensures forall i :: 0 <= i < |s| ==> r[i] == LowerChar(s[i])
  {
    if |s| == 0 then "" else [LowerChar(s[0])] + ToLower(s[1..])
  }

  lemma ToLowerIdempotent(s: string)
    ensures ToLower(ToLower(s)) == ToLower(s)
  {
  }

  predicate StartsWith(s: string, prefix: string) {
    |prefix| <= |s| && s[..|prefix|] == prefix
  }

  /** Number of UTF-16 code units, JavaScript's `.length`. */
  function Utf16Length(s: string): (n: nat)
    ensures |s| <= n <= 2 * |s|
  {
    if |s| == 0 then 0 else (if s[0] as int > 0xFFFF then 2 else 1) + Utf16Length(s[1..])
  }

  function Join(parts: seq<string>, sep: string): string {
    if |parts| == 0 then ""
    else if |parts| == 1 then parts[0]
    else parts[0] + sep + Join(parts[1..], sep)
  }

  /** `s.split(c)` for a one-character separator: the pieces between the
      separators, empty pieces included, at least one piece. */
  function Split(s: string, c: char): (r: seq<string>)
    ensures |r| >= 1
  {
    if |s| == 0 then [""]
    else
      var rest := Split(s[1..], c);
      if s[0] == c then [""] + rest else [[s[0]] + rest[0]] + rest[1..]
  }

  lemma {:induction false} SplitWordThenSeparator(w: string, c: char, tail: string)
    requires c !in w
    ensures Split(w + [c] + tail, c) == [w] + Split(tail, c)
  {
    if |w| == 0 {
      assert w + [c] + tail == [c] + tail;
      assert ([c] + tail)[1..] == tail;
    } else {
      assert (w + [c] + tail)[1..] == w[1..] + [c] + tail;
      SplitWordThenSeparator(w[1..], c, tail);
      assert [w[0]] + w[1..] == w;
    }
  }

  lemma {:induction false} SplitWord(w: string, c: char)
    requires c !in w
    ensures Split(w, c) == [w]
  {
    if |w| > 0 {
      SplitWord(w[1..], c);
      assert [w[0]] + w[1..] == w;
    }
  }

  /** Splitting undoes joining when no piece holds the separator. */
  lemma {:induction false} SplitJoin(words: seq<string>, c: char)
    requires |words| >= 1
    requires forall k :: 0 <= k < |words| ==> c !in words[k]
    ensures Split(Join(words, [c]), c) == words
  {
    if |words| == 1 {
      SplitWord(words[0], c);
    } else {
      SplitJoin(words[1..], c);
      SplitWordThenSeparator(words[0], c, Join(words[1..], [c]));
      assert [words[0]] + words[1..] == words;
    }
  }

  /** Splitting a join whose last piece may hold separators gives the other
      pieces back, followed by the pieces of the last one. */
  lemma {:induction false} SplitJoinThen(words: seq<string>, last: string, c: char)
    requires forall k :: 0 <= k < |words| ==> c !in words[k]
    ensures Split(Join(words + [last], [c]), c) == words + Split(last, c)
  {
    var ws := words + [last];
    if |words| == 0 {
      assert ws == [last];
    } else {
      assert ws[0] == words[0] && ws[1..] == words[1..] + [last];
      assert Join(ws, [c]) == words[0] + [c] + Join(words[1..] + [last], [c]);
      SplitJoinThen(words[1..], last, c);
      SplitWordThenSeparator(words[0], c, Join(words[1..] + [last], [c]));
      assert [words[0]] + words[1..] == words;
    }
  }

  function DigitChar(d: nat): char
    requires d < 10
  {
    "0123456789"[d]
  }

  /** Decimal rendering of a count, as JavaScript prints a safe integer. */
  function NatToString(n: nat): (r: string)
    ensures |r| >= 1
    ensures forall i :: 0 <= i < |r| ==> '0' <= r[i] <= '9'
  {
    if n < 10 then [DigitChar(n)] else NatToString(n / 10) + [DigitChar(n % 10)]
  }

  function IntToString(n: int): string {
    if n < 0 then "-" + NatToString(-n) else NatToString(n)
  }

  function Digits(s: string): nat
    requires forall i :: 0 <= i < |s| ==> '0' <= s[i] <= '9'
  {
    if |s| == 0 then 0 else 10 * Digits(s[..|s| - 1]) + (s[|s| - 1] as int - '0' as int)
  }

  lemma DigitCharValue(d: nat)
    requires d < 10
    ensures DigitChar(d) as int - '0' as int == d
  {
  }

  /** Reading the digits back gives the number: the rendering is faithful. */
  lemma {:induction false} NatToStringDigits(n: nat)
    ensures Digits(NatToString(n)) == n
  {
    var s := NatToString(n);
    if n < 10 {
      DigitCharValue(n);
      assert s == [DigitChar(n)] && s[..0] == [];
    } else {
      NatToStringDigits(n / 10);
      DigitCharValue(n % 10);
      assert s[..|s| - 1] == NatToString(n / 10);
      assert s[|s| - 1] == DigitChar(n % 10);
    }
  }
}

=== FILE: user_controller.dfy ===
/** server/controllers/user.controller.js: profile lookup, the authorised
    profile update with its field whitelist, and the eco-points leaderboard
    with JavaScript's `parseInt(limit) || 10`. */
module UserController {
  import opened Seqs
  import opened Text
  import opened Accounts
  import Ranking

  /** The outcome of a handler: a status, and the account it returns when
      there is one. An error passed to `next` is taken to answer 500. */
  datatype Reply = Reply(status: int, user: Option<Account>)

  /** `getUserProfile`. An id that is not an ObjectId makes the lookup throw;
      an unknown id answers 404. */
  function GetUserProfile(accounts: seq<Account>, id: string, isObjectId: string -> bool): (r: Reply)
    ensures r.status in {200, 404, 500}
    ensures r.status == 500 <==> !isObjectId(id)
    ensures r.status == 404 <==> isObjectId(id) && forall j :: 0 <= j < |accounts| ==> accounts[j].id != id
    ensures isObjectId(id) && (exists j :: 0 <= j < |accounts| && accounts[j].id == id) ==> r.status == 200
    ensures r.status == 200 ==> r.user.Some? && r.user.value in accounts && r.user.value.id == id
  {
    if !isObjectId(id) then Reply(500, None)
    else
      match FindById(accounts, id)
      case None => Reply(404, None)
      case Some(i) => Reply(200, Some(accounts[i]))
  }

  datatype Caller = Caller(id: string, role: string)

  /** The request body: only `name` and `avatar` are read; an absent field is
      left out of the update. */
  datatype ProfileUpdate = ProfileUpdate(name: Option<string>, avatar: Option<string>)

  datatype UpdateResult = UpdateResult(reply: Reply, accounts: seq<Account>)

  /** The caller may update the profile: it is theirs, or they are an admin. */
  predicate MayUpdate(targetId: string, caller: Caller) {
    targetId == caller.id || caller.role == "admin"
  }

  function Apply(a: Account, body: ProfileUpdate): Account {
    a.(name := body.name.GetOr(a.name), avatar := if body.avatar.Some? then body.avatar else a.avatar)
  }

  /** `updateUserProfile`: 403 for a caller who is neither the owner nor an
      admin; otherwise `findByIdAndUpdate` with the name and avatar. With
      `runValidators` the schema's update validators (`validUpdate`) judge
      the paths the body sets, on their own and before any document is
      looked up, so an invalid body answers 500 even for an unknown id. A
      valid body for an unknown id answers 200, with no user. */
  function UpdateUserProfile(accounts: seq<Account>, id: string, caller: Caller, body: ProfileUpdate,
                             isObjectId: string -> bool, validUpdate: ProfileUpdate -> bool): (r: UpdateResult)
    ensures !MayUpdate(id, caller) ==> r == UpdateResult(Reply(403, None), accounts)
    ensures r.reply.status != 200 ==> r.accounts == accounts
    ensures r.reply.status == 200 ==> MayUpdate(id, caller) && isObjectId(id) && validUpdate(body)
    ensures |r.accounts| == |accounts|
    ensures forall j :: 0 <= j < |accounts| && accounts[j].id != id ==> r.accounts[j] == accounts[j]
    ensures forall j :: 0 <= j < |accounts| ==>
      r.accounts[j] == accounts[j].(name := r.accounts[j].name, avatar := r.accounts[j].avatar)
    ensures r.reply.user.Some? ==> r.reply.user.value in r.accounts && r.reply.user.value.id == id
    ensures MayUpdate(id, caller) ==> r.reply.status != 403
    ensures r.reply.status == 500 <==> MayUpdate(id, caller) && (!isObjectId(id) || !validUpdate(body))
    ensures MayUpdate(id, caller) && !isObjectId(id) ==> r == UpdateResult(Reply(500, None), accounts)
    ensures MayUpdate(id, caller) && !validUpdate(body) ==> r == UpdateResult(Reply(500, None), accounts)
    ensures MayUpdate(id, caller) && isObjectId(id) && validUpdate(body) &&
            (forall j :: 0 <= j < |accounts| ==> accounts[j].id != id) ==>
      r == UpdateResult(Reply(200, None), accounts)
    ensures MayUpdate(id, caller) && isObjectId(id) && FindById(accounts, id).Some? ==>
      var i := FindById(accounts, id).value;
      && (r.reply.status == 200 <==> validUpdate(body))
      && (r.reply.status == 200 ==> r.accounts == accounts[i := Apply(accounts[i], body)])
  {
    if !MayUpdate(id, caller) then UpdateResult(Reply(403, None), accounts)
    else if !isObjectId(id) || !validUpdate(body) then UpdateResult(Reply(500, None), accounts)
    else
      match FindById(accounts, id)
      case None => UpdateResult(Reply(200, None), accounts)
      case Some(i) =>
        var updated := Apply(accounts[i], body);
        UpdateResult(Reply(200, Some(updated)), accounts[i := updated])
  }

  /** An authorised update of an existing account sets exactly the fields
      the body carries and keeps the others. */
  lemma UpdateSetsGivenFields(accounts: seq<Account>, id: string, caller: Caller, body: ProfileUpdate,
                              isObjectId: string -> bool, validUpdate: ProfileUpdate -> bool)
    requires UpdateUserProfile(accounts, id, caller, body, isObjectId, validUpdate).reply.user.Some?
    ensures var u := UpdateUserProfile(accounts, id, caller, body, isObjectId, validUpdate).reply.user.value;
      var i := FindById(accounts, id).value;
      && (body.name.Some? ==> u.name == body.name.value)
      && (body.name.None? ==> u.name == accounts[i].name)
      && (body.avatar.Some? ==> u.avatar == body.avatar)
      && (body.avatar.None? ==> u.avatar == accounts[i].avatar)
      && u.(name := accounts[i].name, avatar := accounts[i].avatar) == accounts[i]
  {
  }

  /** A JavaScript digit in radix 10 or 16. */
  function DigitValue(c: char, radix: nat): Option<nat> {
    if '0' <= c <= '9' then Some(c as nat - '0' as nat)
    else if radix == 16 && 'a' <= c <= 'f' then Some(c as nat - 'a' as nat + 10)
    else if radix == 16 && 'A' <= c <= 'F' then Some(c as nat - 'A' as nat + 10)
    else None
  }

  /** The longest prefix made of digits of the radix. */
  function LeadingDigits(s: string, radix: nat): (r: string)
    ensures |r| <= |s| && r == s[..|r|]
    ensures forall i :: 0 <= i < |r| ==> DigitValue(r[i], radix).Some?
    ensures |r| < |s| ==> DigitValue(s[|r|], radix).None?
  {
    if |s| > 0 && DigitValue(s[0], radix).Some? then [s[0]] + LeadingDigits(s[1..], radix) else ""
  }

  function DigitsValue(s: string, radix: nat): nat
    requires forall i :: 0 <= i < |s| ==> DigitValue(s[i], radix).Some?
  {
    if |s| == 0 then 0
    else radix * DigitsValue(s[..|s| - 1], radix) + DigitValue(s[|s| - 1], radix).value
  }

  /** The unsigned part: a `0x` or `0X` prefix selects radix 16, then the
      longest run of digits is read. No digit at all is `None`. */
  function Magnitude(u: string): (r: Option<nat>)
    ensures r.Some? ==> |u| > 0
  {
    var hex := |u| >= 2 && u[0] == '0' && (u[1] == 'x' || u[1] == 'X');
    var radix := if hex then 16 else 10;
    var digits := LeadingDigits(if hex then u[2..] else u, radix);
    if |digits| == 0 then None else Some(DigitsValue(digits, radix))
  }

  /** An optional sign, then the magnitude. */
  function Signed(t: string): (r: Option<int>)
    ensures r.Some? ==> |t| > 0
  {
    if |t| > 0 && (t[0] == '-' || t[0] == '+') then
      match Magnitude(t[1..])
      case None => None
      case Some(v) =>
        var x: int := v;
        Some(if t[0] == '-' then -x else x)
    else
      match Magnitude(t)
      case None => None
      case Some(v) => Some(v)
  }

  /** `parseInt(s)` with no radix: leading white space, an optional sign, a
      `0x` prefix selecting radix 16, then the longest run of digits. `None`
      is NaN, which no digits give. */
  function ParseInt(s: string): (r: Option<int>)
    ensures r.Some? ==> |s| > 0
  {
    Signed(TrimStart(s))
  }

  /** `parseInt(req.query.limit) || 10`: NaN and zero (also `-0`) fall back
      to 10; an absent parameter parses as NaN. */
  function LimitParam(limit: Option<string>): (n: int)
    ensures n != 0
    ensures limit.None? ==> n == 10
    ensures limit.Some? && ParseInt(limit.value).Some? && ParseInt(limit.value).value != 0
      ==> n == ParseInt(limit.value).value
    ensures limit.Some? && (ParseInt(limit.value).None? || ParseInt(limit.value) == Some(0)) ==> n == 10
  {
    if limit.None? then 10
    else
      match ParseInt(limit.value)
      case Some(v) => if v != 0 then v else 10
      case None => 10
  }

  lemma {:induction false} DecimalDigitsValue(s: string)
    requires forall i :: 0 <= i < |s| ==> '0' <= s[i] <= '9'
    ensures forall i :: 0 <= i < |s| ==> DigitValue(s[i], 10).Some?
    ensures DigitsValue(s, 10) == Digits(s)
  {
    if |s| > 0 {
      DecimalDigitsValue(s[..|s| - 1]);
    }
  }

  lemma {:induction false} LeadingDigitsAll(s: string, radix: nat)
    requires forall i :: 0 <= i < |s| ==> DigitValue(s[i], radix).Some?
    ensures LeadingDigits(s, radix) == s
  {
    if |s| > 0 {
      LeadingDigitsAll(s[1..], radix);
    }
  }

  /** A run of decimal digits with no `0x` prefix is read as a decimal
      number. */
  lemma MagnitudeDecimal(u: string)
    requires |u| > 0 && forall i :: 0 <= i < |u| ==> '0' <= u[i] <= '9'
    ensures Magnitude(u) == Some(Digits(u))
  {
    var hex := |u| >= 2 && u[0] == '0' && (u[1] == 'x' || u[1] == 'X');
    if |u| >= 2 {
      assert '0' <= u[1] <= '9';
    }
    assert !hex;
    DecimalDigitsValue(u);
    LeadingDigitsAll(u, 10);
    assert LeadingDigits(u, 10) == u;
  }

  /** `parseInt` reads back the decimal rendering of every natural number. */
  lemma ParseIntReadsDecimal(n: nat)
    ensures ParseInt(NatToString(n)) == Some(n)
  {
    var s := NatToString(n);
    NatToStringDigits(n);
    assert !IsJsSpace(s[0]);
    assert TrimStart(s) == s;
    MagnitudeDecimal(s);
    assert Signed(s) == Some(n);
  }

  /** The sign `parseInt` reads before the digits: none, `+` or `-`. */
  predicate IsSign(sign: string) {
    sign == "" || sign == "+" || sign == "-"
  }

  function ApplySign(sign: string, v: nat): int {
    var x: int := v;
    if sign == "-" then -x else x
  }

  predicate AllSpaces(w: string) {
    forall i :: 0 <= i < |w| ==> IsJsSpace(w[i])
  }

  /** A run of digits of the radix is read up to the first character that
      is not one. */
  lemma {:induction false} LeadingDigitsStop(d: string, tail: string, radix: nat)
    requires forall i :: 0 <= i < |d| ==> DigitValue(d[i], radix).Some?
    requires |tail| > 0 ==> DigitValue(tail[0], radix).None?
    ensures LeadingDigits(d + tail, radix) == d
  {
    if |d| == 0 {
      assert d + tail == tail;
    } else {
      assert (d + tail)[0] == d[0] && (d + tail)[1..] == d[1..] + tail;
      LeadingDigitsStop(d[1..], tail, radix);
      assert [d[0]] + d[1..] == d;
    }
  }

  /** The sign is read first; the magnitude follows it. */
  lemma SignedMagnitude(sign: string, u: string)
    requires IsSign(sign)
    requires |u| > 0 && u[0] != '+' && u[0] != '-'
    requires Magnitude(u).Some?
    ensures Signed(sign + u) == Some(ApplySign(sign, Magnitude(u).value))
  {
    if sign == "" {
      assert sign + u == u;
    } else {
      assert (sign + u)[0] == sign[0] && (sign + u)[1..] == u;
    }
  }

  /** After white space and a sign, text that starts with a digit is read
      as `Magnitude` reads it. */
  lemma ParseIntShape(w: string, sign: string, u: string)
    requires AllSpaces(w) && IsSign(sign)
    requires |u| > 0 && '0' <= u[0] <= '9'
    requires Magnitude(u).Some?
    ensures ParseInt(w + sign + u) == Some(ApplySign(sign, Magnitude(u).value))
  {
    var t := sign + u;
    assert w + sign + u == w + t;
    assert t[0] == (if sign == "" then u[0] else sign[0]);
    TrimStartSpaces(w, t);
    SignedMagnitude(sign, u);
  }

  /** With a `0x` or `0X` prefix, the digits after it are read in radix 16. */
  lemma MagnitudeOfHex(u: string)
    requires |u| >= 2 && u[0] == '0' && (u[1] == 'x' || u[1] == 'X')
    ensures var d := LeadingDigits(u[2..], 16);
      Magnitude(u) == if |d| == 0 then None else Some(DigitsValue(d, 16))
  {
  }

  /** Without the prefix, the digits are read in radix 10. */
  lemma MagnitudeOfDecimal(u: string)
    requires !(|u| >= 2 && u[0] == '0' && (u[1] == 'x' || u[1] == 'X'))
    ensures var d := LeadingDigits(u, 10);
      Magnitude(u) == if |d| == 0 then None else Some(DigitsValue(d, 10))
  {
  }

  lemma MagnitudeHexAt(u: string, h: string, tail: string)
    requires |u| >= 2 && u[0] == '0' && (u[1] == 'x' || u[1] == 'X')
    requires u[2..] == h + tail
    requires |h| > 0 && forall i :: 0 <= i < |h| ==> DigitValue(h[i], 16).Some?
    requires |tail| > 0 ==> DigitValue(tail[0], 16).None?
    ensures Magnitude(u) == Some(DigitsValue(h, 16))
  {
    MagnitudeOfHex(u);
    LeadingDigitsStop(h, tail, 16);
  }

  lemma MagnitudeHex(x: char, h: string, tail: string)
    requires x == 'x' || x == 'X'
    requires |h| > 0 && forall i :: 0 <= i < |h| ==> DigitValue(h[i], 16).Some?
    requires |tail| > 0 ==> DigitValue(tail[0], 16).None?
    ensures Magnitude(['0', x] + h + tail) == Some(DigitsValue(h, 16))
  {
    HexPrefixShape(x, h, tail);
    MagnitudeHexAt(['0', x] + h + tail, h, tail);
  }

  lemma HexPrefixShape(x: char, h: string, tail: string)
    ensures var u := ['0', x] + h + tail;
      |u| >= 2 && u[0] == '0' && u[1] == x && u[2..] == h + tail
  {
  }

  lemma MagnitudeDecimalStops(d: string, tail: string)
    requires |d| > 0 && forall i :: 0 <= i < |d| ==> '0' <= d[i] <= '9'
    requires |tail| > 0 ==> !('0' <= tail[0] <= '9')
    requires !(d == "0" && |tail| > 0 && (tail[0] == 'x' || tail[0] == 'X'))
    ensures Magnitude(d + tail) == Some(Digits(d))
  {
    var u := d + tail;
    assert u[0] == d[0];
    if |d| >= 2 {
      assert u[1] == d[1];
    } else if |tail| > 0 {
      assert u[1] == tail[0];
      assert d == [d[0]];
    }
    MagnitudeOfDecimal(u);
    DecimalDigitsValue(d);
    LeadingDigitsStop(d, tail, 10);
  }

  /** `parseInt` in hexadecimal: after any white space and sign, a `0x` or
      `0X` prefix switches to radix 16, and reading stops at the first
      character that is not a hexadecimal digit. */
  lemma ParseIntHex(w: string, sign: string, x: char, h: string, tail: string)
    requires AllSpaces(w) && IsSign(sign)
    requires x == 'x' || x == 'X'
    requires |h| > 0 && forall i :: 0 <= i < |h| ==> DigitValue(h[i], 16).Some?
    requires |tail| > 0 ==> DigitValue(tail[0], 16).None?
    ensures ParseInt(w + sign + ['0', x] + h + tail) == Some(ApplySign(sign, DigitsValue(h, 16)))
  {
    MagnitudeHex(x, h, tail);
    HexPrefixShape(x, h, tail);
    Regroup(w + sign, ['0', x], h, tail);
    ParseIntShape(w, sign, ['0', x] + h + tail);
  }

  lemma Regroup(p: string, a: string, b: string, c: string)
    ensures p + a + b + c == p + (a + b + c)
  {
  }

  lemma RegroupPair(p: string, a: string, b: string)
    ensures p + a + b == p + (a + b)
  {
  }

  lemma FirstOfConcat(a: string, b: string)
    requires |a| > 0
    ensures (a + b)[0] == a[0]
  {
  }

  /** `parseInt` in decimal: leading white space is skipped, a sign is read,
      and the digits are read up to the first character that is not one,
      whatever follows. The one exception is a lone `0` followed by `x` or
      `X`, which is the hexadecimal prefix. */
  lemma ParseIntStopsAtGarbage(w: string, sign: string, d: string, tail: string)
    requires AllSpaces(w) && IsSign(sign)
    requires |d| > 0 && forall i :: 0 <= i < |d| ==> '0' <= d[i] <= '9'
    requires |tail| > 0 ==> !('0' <= tail[0] <= '9')
    requires !(d == "0" && |tail| > 0 && (tail[0] == 'x' || tail[0] == 'X'))
    ensures ParseInt(w + sign + d + tail) == Some(ApplySign(sign, Digits(d)))
  {
    MagnitudeDecimalStops(d, tail);
    RegroupPair(w + sign, d, tail);
    FirstOfConcat(d, tail);
    ParseIntShape(w, sign, d + tail);
  }

  lemma MagnitudeNone(tail: string)
    requires |tail| > 0 ==> !('0' <= tail[0] <= '9')
    ensures Magnitude(tail).None?
  {
    if |tail| > 0 {
      assert DigitValue(tail[0], 10).None?;
    }
  }

  lemma SignedNone(sign: string, tail: string)
    requires IsSign(sign)
    requires |tail| > 0 ==> !('0' <= tail[0] <= '9') && tail[0] != '+' && tail[0] != '-'
    ensures Signed(sign + tail).None?
  {
    if sign == "" {
      assert sign + tail == tail;
    } else {
      assert (sign + tail)[0] == sign[0] && (sign + tail)[1..] == tail;
    }
    MagnitudeNone(tail);
  }

  /** With no digit after the white space and the sign, `parseInt` gives
      NaN. */
  lemma ParseIntNaN(w: string, sign: string, tail: string)
    requires AllSpaces(w) && IsSign(sign)
    requires |tail| > 0 ==> !('0' <= tail[0] <= '9') && tail[0] != '+' && tail[0] != '-' && !IsJsSpace(tail[0])
    ensures ParseInt(w + sign + tail).None?
  {
    var t := sign + tail;
    assert w + sign + tail == w + t;
    assert |t| > 0 ==> t[0] == (if sign == "" then tail[0] else sign[0]);
    TrimStartSpaces(w, t);
    SignedNone(sign, tail);
  }

  /** Text without digits falls back to the default of 10. */
  lemma LimitParamNaN()
    ensures LimitParam(Some("abc")) == 10
  {
    ParseIntNaN("", "", "abc");
    assert "" + "" + "abc" == "abc";
  }

  /** Zero falls back to the default of 10 as well. */
  lemma LimitParamZero()
    ensures LimitParam(Some("0")) == 10
  {
    assert NatToString(0) == "0";
    ParseIntReadsDecimal(0);
  }

  /** A positive limit written in decimal is taken as it is. */
  lemma LimitParamDecimal(n: nat)
    requires n > 0
    ensures LimitParam(Some(NatToString(n))) == n
  {
    ParseIntReadsDecimal(n);
  }

  /** `find().sort({ecoPoints: -1}).limit(k)` for a non-zero k: every
      account competes, and the |k| with the most eco points come back,
      largest first. */
  function TopByEcoPoints(accounts: seq<Account>, k: int): (r: seq<Account>)
    requires k != 0
    ensures |r| == Ranking.Min(if k < 0 then -k else k, |accounts|)
    ensures multiset(r) <= multiset(accounts)
    ensures forall i, j :: 0 <= i < j < |r| ==> r[i].ecoPoints >= r[j].ecoPoints
    ensures forall y, x :: y in multiset(accounts) - multiset(r) && x in r ==> x.ecoPoints >= y.ecoPoints
  {
    var n := Ranking.LimitCount(k, |accounts|);
    EcoPointsDescend(accounts, n);
    EcoPointsDominate(accounts, n);
    Ranking.TopByKey(accounts, EcoPoints, n)
  }

  lemma EcoPointsDescend(accounts: seq<Account>, n: nat)
    ensures var r := Ranking.TopByKey(accounts, EcoPoints, n);
      forall i, j :: 0 <= i < j < |r| ==> r[i].ecoPoints >= r[j].ecoPoints
  {
    var r := Ranking.TopByKey(accounts, EcoPoints, n);
    forall i, j | 0 <= i < j < |r| ensures r[i].ecoPoints >= r[j].ecoPoints {
      assert EcoPoints(r[i]) >= EcoPoints(r[j]);
    }
  }

  lemma EcoPointsDominate(accounts: seq<Account>, n: nat)
    ensures var r := Ranking.TopByKey(accounts, EcoPoints, n);
      forall y, x :: y in multiset(accounts) - multiset(r) && x in r ==> x.ecoPoints >= y.ecoPoints
  {
    var r := Ranking.TopByKey(accounts, EcoPoints, n);
    forall y, x | y in multiset(accounts) - multiset(r) && x in r ensures x.ecoPoints >= y.ecoPoints {
      assert EcoPoints(x) >= EcoPoints(y);
    }
  }

  /** `getLeaderboard`. */
  function GetLeaderboard(accounts: seq<Account>, limit: Option<string>): seq<Account> {
    TopByEcoPoints(accounts, LimitParam(limit))
  }

  /** Without a limit the leaderboard holds the ten accounts with the most
      eco points (or all of them when there are fewer). */
  lemma DefaultLeaderboard(accounts: seq<Account>)
    ensures |GetLeaderboard(accounts, None)| == Ranking.Min(10, |accounts|)
  {
  }
}

=== FILE: user_model.dfy ===
/** The Mongoose `User` schema of server/models/User.js: the stored record,
    the schema bounds, the derived sustainability level, the points ledger
    (`addGreenPoints`) and the leaderboard query (`getLeaderboard`). */
module UserModel {
  import opened Seqs
  import opened Text
  import Ranking

  /** The schema's role enum. */
  datatype Role = Citizen | EnvironmentalOrg | Admin

  function RoleName(r: Role): string {
    match r
    case Citizen => "user"
    case EnvironmentalOrg => "environmental_org"
    case Admin => "admin"
  }

  /** Reads a role string against the enum; anything else fails validation. */
  function ParseRole(s: string): (r: Option<Role>)
    ensures r.Some? ==> RoleName(r.value) == s
    ensures r.None? ==> forall role: Role :: RoleName(role) != s
  {
    if s == "user" then Some(Citizen)
    else if s == "environmental_org" then Some(EnvironmentalOrg)
    else if s == "admin" then Some(Admin)
    else None
  }

  datatype Location = Location(city: Option<string>, state: Option<string>)

  /** A stored user. The password is an opaque credential: hashing and
      comparison are outside the model. */
  datatype GreenUser = GreenUser(
    id: nat,
    name: string,
    email: string,
    credential: string,
    role: Role,
    greenPoints: int,
    wasteReportsSubmitted: int,
    reportsVerified: int,
    cleanupEventsAttended: int,
    recyclingSessionsLogged: int,
    bio: Option<string>,
    location: Option<Location>,
    showOnLeaderboard: bool,
    isActive: bool,
    createdAt: int,
    lastLogin: Option<int>)

  const NameMaxLength := 50
  const BioMaxLength := 500

  /** The schema validators that the model keeps: a non-empty name of at most
      50 UTF-16 units, a bio of at most 500, and non-negative green points. */
  predicate SchemaValid(u: GreenUser) {
    && 0 < Utf16Length(u.name) <= NameMaxLength
    && (u.bio.Some? ==> Utf16Length(u.bio.value) <= BioMaxLength)
    && u.greenPoints >= 0
  }

  /** The four activity counters. */
  datatype Counter = ReportsSubmitted | ReportsVerified | CleanupsAttended | RecyclingLogged

  function CounterValue(u: GreenUser, c: Counter): int {
    match c
    case ReportsSubmitted => u.wasteReportsSubmitted
    case ReportsVerified => u.reportsVerified
    case CleanupsAttended => u.cleanupEventsAttended
    case RecyclingLogged => u.recyclingSessionsLogged
  }

  /** The counter an activity type bumps; `welcome_bonus` and unknown types
      bump none. */
  function CounterFor(activity: string): Option<Counter> {
    if activity == "waste_report_submitted" then Some(ReportsSubmitted)
    else if activity == "report_verified" then Some(ReportsVerified)
    else if activity == "cleanup_event_attended" then Some(CleanupsAttended)
    else if activity == "recycling_logged" then Some(RecyclingLogged)
    else None
  }

  /** Adds one to the named counter, if any, and changes nothing else. */
  function Bump(u: GreenUser, c: Option<Counter>): (r: GreenUser)
    ensures forall k :: CounterValue(r, k) == CounterValue(u, k) + (if c == Some(k) then 1 else 0)
    ensures r.greenPoints == u.greenPoints
    ensures SameProfile(u, r)
  {
    match c
    case None => u
    case Some(ReportsSubmitted) => u.(wasteReportsSubmitted := u.wasteReportsSubmitted + 1)
    case Some(ReportsVerified) => u.(reportsVerified := u.reportsVerified + 1)
    case Some(CleanupsAttended) => u.(cleanupEventsAttended := u.cleanupEventsAttended + 1)
    case Some(RecyclingLogged) => u.(recyclingSessionsLogged := u.recyclingSessionsLogged + 1)
  }

  /** Everything but the points and the counters. */
  predicate SameProfile(a: GreenUser, b: GreenUser) {
    a.(greenPoints := 0, wasteReportsSubmitted := 0, reportsVerified := 0,
       cleanupEventsAttended := 0, recyclingSessionsLogged := 0)
    == b.(greenPoints := 0, wasteReportsSubmitted := 0, reportsVerified := 0,
          cleanupEventsAttended := 0, recyclingSessionsLogged := 0)
  }

  datatype SaveError = NegativePoints

  datatype Saved = Saved(user: GreenUser) | Rejected(error: SaveError)

  /** `addGreenPoints(points, activity_type)`: add the points, bump the
      activity's counter, save. The save validates `green_points` (min 0), so
      a balance that would go negative is rejected and nothing is stored. */
  function AddGreenPoints(u: GreenUser, points: int, activity: string): (r: Saved)
    ensures r.Saved? <==> u.greenPoints + points >= 0
    ensures r.Saved? ==> r.user.greenPoints == u.greenPoints + points
    ensures r.Saved? ==> (forall c :: CounterValue(r.user, c)
                           == CounterValue(u, c) + (if CounterFor(activity) == Some(c) then 1 else 0))
    ensures r.Saved? ==> SameProfile(u, r.user)
  {
    var bumped := Bump(u, CounterFor(activity));
    var next := bumped.(greenPoints := u.greenPoints + points);
    assert forall c :: CounterValue(next, c) == CounterValue(bumped, c);
    assert SameProfile(bumped, next);
    if next.greenPoints < 0 then Rejected(NegativePoints) else Saved(next)
  }

  /** A successful award keeps a valid record valid. */
  lemma AddGreenPointsKeepsValid(u: GreenUser, points: int, activity: string)
    requires SchemaValid(u)
    ensures AddGreenPoints(u, points, activity).Saved? ==> SchemaValid(AddGreenPoints(u, points, activity).user)
  {
  }

  datatype Level = GreenNewcomer | SustainabilityContributor | GreenAdvocate | EcoChampion

  function LevelLabel(l: Level): string {
    match l
    case GreenNewcomer => "Green Newcomer"
    case SustainabilityContributor => "Sustainability Contributor"
    case GreenAdvocate => "Green Advocate"
    case EcoChampion => "Eco Champion"
  }

  function LevelRank(l: Level): nat {
    match l
    case GreenNewcomer => 0
    case SustainabilityContributor => 1
    case GreenAdvocate => 2
    case EcoChampion => 3
  }

  /** Reports submitted, cleanups attended and recycling sessions logged;
      verified reports do not count. */
  function TotalActivity(u: GreenUser): int {
    u.wasteReportsSubmitted + u.cleanupEventsAttended + u.recyclingSessionsLogged
  }

  function LevelOf(totalActivity: int): Level {
    if totalActivity >= 50 then EcoChampion
    else if totalActivity >= 20 then GreenAdvocate
    else if totalActivity >= 5 then SustainabilityContributor
    else GreenNewcomer
  }

  /** The `sustainability_level` virtual. */
  function SustainabilityLevel(u: GreenUser): Level {
    LevelOf(TotalActivity(u))
  }

  /** The tiers are monotone in the activity total. */
  lemma LevelMonotone(a: int, b: int)
    requires a <= b
    ensures LevelRank(LevelOf(a)) <= LevelRank(LevelOf(b))
  {
  }

  /** The level's lower thresholds: rank k is reached exactly at 5, 20, 50. */
  lemma LevelThresholds(t: int)
    ensures LevelOf(t) == EcoChampion <==> t >= 50
    ensures LevelRank(LevelOf(t)) >= 2 <==> t >= 20
    ensures LevelRank(LevelOf(t)) >= 1 <==> t >= 5
  {
  }

  /** Verified reports never move the level. */
  lemma LevelIgnoresVerified(u: GreenUser, k: int)
    ensures SustainabilityLevel(u.(reportsVerified := k)) == SustainabilityLevel(u)
  {
  }

  /** Awarding points can only raise the level, and it raises the activity
      total by one exactly for the three counted activities. */
  lemma AddGreenPointsNeverLowersLevel(u: GreenUser, points: int, activity: string)
    requires AddGreenPoints(u, points, activity).Saved?
    ensures var v := AddGreenPoints(u, points, activity).user;
      && TotalActivity(v) == TotalActivity(u)
           + (if CounterFor(activity) in {Some(ReportsSubmitted), Some(CleanupsAttended), Some(RecyclingLogged)} then 1 else 0)
      && LevelRank(SustainabilityLevel(u)) <= LevelRank(SustainabilityLevel(v))
  {
    var v := AddGreenPoints(u, points, activity).user;
    assert TotalActivity(v) == CounterValue(v, ReportsSubmitted) + CounterValue(v, CleanupsAttended)
      + CounterValue(v, RecyclingLogged);
    LevelMonotone(TotalActivity(u), TotalActivity(v));
  }

  /** The clock readings the query needs: now, one month ago, one year ago. */
  datatype Clock = Clock(now: int, monthAgo: int, yearAgo: int)

  /** The `createdAt` cutoff of a timeframe. An unrecognised timeframe other
      than "all" leaves the date at now, so only users created from now on
      qualify. */
  function Cutoff(timeframe: string, clock: Clock): Option<int> {
    if timeframe == "all" then None
    else if timeframe == "monthly" then Some(clock.monthAgo)
    else if timeframe == "yearly" then Some(clock.yearAgo)
    else Some(clock.now)
  }

  predicate OnLeaderboard(u: GreenUser, cutoff: Option<int>) {
    u.isActive && u.showOnLeaderboard && (cutoff.None? || u.createdAt >= cutoff.value)
  }

  function Points(u: GreenUser): int {
    u.greenPoints
  }

  /** `getLeaderboard(limit = 10, timeframe = 'all')`. */
  function GetLeaderboard(users: seq<GreenUser>, limit: Option<int>, timeframe: Option<string>, clock: Clock)
    : (r: seq<GreenUser>)
    ensures var cutoff := Cutoff(timeframe.GetOr("all"), clock);
      forall u :: u in r ==> u in users && OnLeaderboard(u, cutoff)
    ensures multiset(r) <= multiset(Filter(users, u => OnLeaderboard(u, Cutoff(timeframe.GetOr("all"), clock))))
    ensures |r| <= Ranking.LimitCount(limit.GetOr(10), |users|)
    ensures forall i, j :: 0 <= i < j < |r| ==> r[i].greenPoints >= r[j].greenPoints
  {
    var cutoff := Cutoff(timeframe.GetOr("all"), clock);
    var eligible := Filter(users, u => OnLeaderboard(u, cutoff));
    var n := Ranking.LimitCount(limit.GetOr(10), |eligible|);
    FilterMembers(users, u => OnLeaderboard(u, cutoff));
    var r := Ranking.TopByKey(eligible, Points, n);
    PointsDescend(eligible, n);
    assert forall u :: u in r ==> u in multiset(r);
    r
  }

  lemma PointsDescend(s: seq<GreenUser>, n: nat)
    ensures var r := Ranking.TopByKey(s, Points, n);
      forall i, j :: 0 <= i < j < |r| ==> r[i].greenPoints >= r[j].greenPoints
  {
    var r := Ranking.TopByKey(s, Points, n);
    forall i, j | 0 <= i < j < |r| ensures r[i].greenPoints >= r[j].greenPoints {
      assert Points(r[i]) >= Points(r[j]);
    }
  }

  lemma PointsDominate(s: seq<GreenUser>, n: nat)
    ensures var r := Ranking.TopByKey(s, Points, n);
      forall y, x :: y in multiset(s) - multiset(r) && x in r ==> x.greenPoints >= y.greenPoints
  {
    var r := Ranking.TopByKey(s, Points, n);
    forall y, x | y in multiset(s) - multiset(r) && x in r ensures x.greenPoints >= y.greenPoints {
      assert Points(x) >= Points(y);
    }
  }

  /** No eligible user left off the board has more points than one on it,
      and the board is as long as the limit allows. */
  lemma GetLeaderboardIsTop(users: seq<GreenUser>, limit: Option<int>, timeframe: Option<string>, clock: Clock)
    ensures var cutoff := Cutoff(timeframe.GetOr("all"), clock);
      var eligible := Filter(users, u => OnLeaderboard(u, cutoff));
      var r := GetLeaderboard(users, limit, timeframe, clock);
      && |r| == Ranking.Min(Ranking.LimitCount(limit.GetOr(10), |eligible|), |eligible|)
      && forall y, x :: y in multiset(eligible) - multiset(r) && x in r ==> x.greenPoints >= y.greenPoints
  {
    var cutoff := Cutoff(timeframe.GetOr("all"), clock);
    var eligible := Filter(users, u => OnLeaderboard(u, cutoff));
    var n := Ranking.LimitCount(limit.GetOr(10), |eligible|);
    assert GetLeaderboard(users, limit, timeframe, clock) == Ranking.TopByKey(eligible, Points, n);
    PointsDominate(eligible, n);
  }
}

=== FILE: waste_map.dfy ===
/** client/src/components/WasteMap.jsx: the status filter, the marker
    colour per status, the category icon, the grid of mock marker
    positions, and whether the empty state is shown. This view spells the
    third status "in_progress". */
module WasteMap {
  import opened ClientReports

  const Gray: string := "#6b7280"

  /** `getStatusColor`: four statuses have their own colour; anything else,
      the hyphenated "in-progress" included, is gray. */
  function StatusColor(status: string): (r: string)
    ensures r != Gray <==> status in {"pending", "verified", "in_progress", "resolved"}
    ensures status == "in-progress" ==> r == Gray
  {
    match status
    case "pending" => "#f59e0b"
    case "verified" => "#ef4444"
    case "in_progress" => "#3b82f6"
    case "resolved" => "#10b981"
    case _ => Gray
  }

  const Columns: nat := 6

  /** Marker `index` sits in column `index % 6` and row `index / 6`, 120 px
      apart across and 80 px apart down, from (20, 60). */
  function MarkerPosition(index: nat): (p: (int, int))
    ensures p.0 >= 20 && p.1 >= 60
    ensures (p.0 - 20) % 120 == 0 && (p.0 - 20) / 120 < Columns
    ensures (p.1 - 60) % 80 == 0
    ensures (p.1 - 60) / 80 * Columns + (p.0 - 20) / 120 == index
  {
    (20 + (index % Columns) * 120, 60 + (index / Columns) * 80)
  }

  /** No two markers share a position. */
  lemma MarkerPositionInjective(i: nat, j: nat)
    requires i != j
    ensures MarkerPosition(i) != MarkerPosition(j)
  {
  }

  /** The markers of the filtered reports, in the filter's order. */
  function Markers(reports: seq<Report>, filterStatus: string): (r: seq<(Report, (int, int), string)>)
    ensures |r| == |FilterByStatus(reports, filterStatus)|
    ensures forall i :: 0 <= i < |r| ==> r[i].0 in reports && r[i].1 == MarkerPosition(i) && r[i].2 == StatusColor(r[i].0.status)
    ensures forall i :: 0 <= i < |r| ==> r[i].0 == FilterByStatus(reports, filterStatus)[i]
  {
    var shown := FilterByStatus(reports, filterStatus);
    assert forall x :: x in shown ==> x in reports by {
      forall x | x in shown ensures x in reports {
        assert multiset(shown)[x] > 0;
      }
    }
    seq(|shown|, i requires 0 <= i < |shown| => (shown[i], MarkerPosition(i), StatusColor(shown[i].status)))
  }

  /** "No reports found" shows exactly when no marker is drawn. */
  function ShowsEmptyState(reports: seq<Report>, filterStatus: string): (r: bool)
    ensures r <==> |Markers(reports, filterStatus)| == 0
    ensures r <==> forall x :: x in reports ==> !(filterStatus == All || x.status == filterStatus)
  {
    var shown := FilterByStatus(reports, filterStatus);
    assert |shown| > 0 ==> shown[0] in shown && multiset(shown)[shown[0]] > 0;
    assert (exists x :: x in reports && (filterStatus == All || x.status == filterStatus)) ==> |shown| > 0 by {
      if x :| x in reports && (filterStatus == All || x.status == filterStatus) {
        assert multiset(reports)[x] > 0;
        assert multiset(shown)[x] > 0;
      }
    }
    |shown| == 0
  }
}
